=== FILE: README.md ===
# Résumé text → PDF converter, modelled in Dafny

This project models the core of a résumé converter. The converter reads a plain-text
résumé and produces an A4 PDF. The PDF writer is its own, written without any
PDF library. The model covers five parts:

- **The parser.** `parse_resume` finds the candidate's name (including a name written
  one letter per line). It collects the contact block up to the first blank line, and picks up
  the company from a `Company Name:` line. It takes the title unless the next line is
  a section heading. It then splits the rest into summary, experience, skills,
  certifications and education, and each section has its own clean-up.
- **Text clean-up.** This covers:
  - `clean_bullet_text`;
  - the skills splitter, including its camel-case splitting;
  - `build_contact_items`, which normalises e-mail and address values and removes
    duplicates by label and value;
  - the cp1252 "safe text" substitution;
  - escaping of PDF string literals;
  - the greedy word wrapper.
- **Layout.** The item builder turns the parsed résumé into a list of draw items:
  lines, paragraphs, key/value paragraphs and blocks, experience meta lines, rules
  and spacers.
- **Rendering.** The paginator lays the items out on pages, with a fresh page
  whenever the next line would cross the bottom margin. The object writer then
  numbers the catalog, the page tree, the fonts and each page with its content
  stream. It serialises them with a byte-exact cross-reference table and trailer.
- **File names.** The output-name helpers derive the file name from the résumé's
  name, title and company, or from metadata taken from the input file name
  (`First-Last-Role-Company.txt`). `sanitize_filename` comes from the mobile front end.

Python's behaviour is spelled out where the converter relies on it:

- `str.isspace`, `strip`, `split`, `splitlines` and `re.split`;
- the cp1252 codec with `errors="replace"`;
- `int()` truncation toward zero;
- `{:.2f}` and `{:010d}` formatting.

These live in the `Text` and `PdfText` modules, except `int()` truncation,
which is `Paginator.Trunc`. Floating-point layout values
are exact reals.

Modules, one per file:

| Module | File | Contents |
|---|---|---|
| `Text` | text.dfy | Python string helpers |
| `Normalize` | normalize.dfy | bullet and skill clean-up |
| `Dedup` | dedup.dfy | first-occurrence de-duplication |
| `Contacts` | contacts.dfy | the contact builder |
| `Parser` | parser.dfy | the parser |
| `PdfText` | pdftext.dfy | safe text, escaping, wrapping |
| `Layout` | layout.dfy | the item builder |
| `Paginator` | paginator.dfy | the page layout |
| `PdfWriter` | pdfwriter.dfy | objects and serialisation |
| `Renderer` | renderer.dfy | the built-in renderer end to end |
| `FileNames` | filenames.dfy | file-name helpers |
| `WorkedExample` | example.dfy | a short résumé parsed end to end |

## Model

| member | source | states |
|---|---|---|
| Normalize.CleanBullet | resume_app/converter.py:325-331 | the cleaned text has no surrounding white space and never starts with a bullet glyph |
| Normalize.CleanBulletMatchesSpec | resume_app/converter.py:325-331 | the strip-then-drop-glyph loop equals one pass that drops every leading glyph or white space character and strips the rest |
| Normalize.CleanBulletIdempotent | resume_app/converter.py:325-331 | cleaning an already cleaned bullet changes nothing |
| Normalize.CleanEntries | resume_app/converter.py:255-274 | the entries are exactly the cleaned input lines that are not empty, in input order; each is stripped and free of a leading glyph |
| Normalize.CleanDashItem | resume_app/converter.py:325-331 | a `- ` list item of clean text is cleaned to that text |
| Normalize.SplitCamel | resume_app/converter.py:252 | the result grows by exactly one character per lower-to-upper joint |
| Normalize.SplitCamelKeepsLetters | resume_app/converter.py:252 | splitting camel case only inserts spaces: with spaces removed, the text is unchanged |
| Dedup.DedupBy | resume_app/converter.py:369-372 | keys in the result are pairwise distinct; every kept element comes from the input; every input key is represented |
| Dedup.DedupIsFirstKeyed | resume_app/converter.py:369-372 | the seen-set loop keeps exactly the first element with each key, in input order |
| Dedup.DedupDistinct | resume_app/converter.py:369-372 | a list whose keys are already distinct passes through unchanged |
| Contacts.FindEmails | resume_app/converter.py:352 | every match has the shape `local@domain` over the pattern's character classes |
| Contacts.MatchIsToken | resume_app/converter.py:352 | a match of the pattern at the start of the text is a whole local run, an `@` and a domain run |
| Contacts.FindEmailsToken | resume_app/converter.py:352 | an address followed by a character that cannot extend its domain is found exactly, and the scan continues after it |
| Contacts.FindEmailsOfJoin | resume_app/converter.py:352-358 | rescanning addresses joined by `" / "` finds exactly those addresses again |
| Contacts.NormalizeEmail | resume_app/converter.py:349-358 | without a match, the value is just the text with `mailto:` and brackets removed |
| Contacts.NormalizeEmailRescan | resume_app/converter.py:349-358 | with matches, the value holds exactly the distinct addresses in order of first appearance, and is non-empty |
| Contacts.NormalizeEmailIdempotent | resume_app/converter.py:349-358 | normalising an e-mail value twice gives the same value as once |
| Contacts.DistinctAddressesKept | resume_app/converter.py:349-358 | two different addresses joined by `" / "` are both kept, as they stand |
| Contacts.CaseVariantsKept | resume_app/converter.py:349-358 | `A@x.com` and `a@x.com` agree in lower case, yet both are kept |
| Contacts.NormalizeAddress | resume_app/converter.py:359-365 | the value is empty exactly when nothing is left after trimming commas and spaces; otherwise it starts with the trimmed text and ends in "india" in some letter case |
| Contacts.NormalizeAddressIdempotent | resume_app/converter.py:359-365 | "India" is never appended twice |
| Contacts.AddressEnd | resume_app/converter.py:359-365 | a normalised address never ends in a comma or space, so a second trim leaves it alone |
| Contacts.ClassifyLine | resume_app/converter.py:338-368 | blank and `Company Name` lines give nothing; a line without a colon becomes an unlabelled entry holding the cleaned line; the key is the lowered label; a non-empty address ends in "india" |
| Contacts.ClassifyLineRoundTrip | resume_app/converter.py:342-366 | `Label: value` with a plain label yields exactly that label, its lowered key and the value |
| Contacts.Candidates | resume_app/converter.py:337-368 | every candidate is well formed: non-empty stripped value, lowered key; at most one per line |
| Contacts.BuildContactItems | resume_app/converter.py:334-373 | the loop returns the first candidate for each (key, value) pair, and the pairs are distinct |
| Contacts.ScanContacts | resume_app/converter.py:335-373 | the loop with its `seen` set yields the candidates whose key was not seen before, in order: the first-keyed deduplication of all candidates |
| Contacts.KeptAreWellFormed | resume_app/converter.py:369-372 | de-duplication keeps only well-formed entries |
| Parser.RunEnd | resume_app/converter.py:126-128 | the first index at or after `i` where the predicate fails, and every line skipped satisfies it |
| Parser.ParseName | resume_app/converter.py:126-142 | the name is empty exactly when every remaining line is blank; the cursor never moves backwards |
| Parser.VerticalName | resume_app/converter.py:129-139 | when the first line and every line after it hold one non-space character, the name is all of them run together and every line is consumed |
| Parser.VerticalJane | resume_app/converter.py:129-139 | the lines `J`,`A`,`N`,`E` give the name `JANE` and all four lines are consumed |
| Parser.ContactLines | resume_app/converter.py:144-152 | every contact line kept is stripped and non-blank |
| Parser.CompanyOf | resume_app/converter.py:147-150 | with no `company name:` line, the company is the one given |
| Parser.CompanyOfSnoc | resume_app/converter.py:147-150 | the last `Company Name:` line wins |
| Parser.InsertNationalityBlanks | resume_app/converter.py:154-167 | the contact lines appear in the result in order, so nothing is removed; the result is never shorter; with the empty lines dropped it is the input with its empty lines dropped |
| Parser.InsertNationalityBlanksShape | resume_app/converter.py:154-167 | dropping the blanks gives back the contact lines; every nationality line is followed by a blank, and every blank follows a nationality line |
| Parser.HeadingOf | resume_app/converter.py:278-289 | a heading never opens the no-section state |
| Parser.SectionKeyIsHeading | resume_app/converter.py:278-289 | a line is a heading exactly when its lowered, colon-trimmed key is a section key |
| Parser.ParseTitle | resume_app/converter.py:169-191 | a title, when found, is stripped; the cursor never moves backwards |
| Parser.TitleIffNotHeading | resume_app/converter.py:169-191 | a title is taken exactly when the first non-blank line is not a section heading; otherwise the cursor stops at that line |
| Parser.ParseJob | resume_app/converter.py:200-234 | the duration is present exactly when the second line has four digits, and then it is that line; a header starting with a glyph is cleared; bullets are clean |
| Parser.GlyphHeaderBecomesBullet | resume_app/converter.py:221-229 | a header line starting with a bullet glyph becomes the first bullet, cleaned |
| Parser.JobsOf | resume_app/converter.py:200-234 | at most one job per paragraph; every bullet of every job is clean |
| Parser.SkillLines | resume_app/converter.py:237-243 | no more skill lines come out than went in |
| Parser.SkillTokens | resume_app/converter.py:245-254 | no skill token is empty |
| Parser.Flush | resume_app/converter.py:194-274 | a blank buffer or no section leaves the résumé unchanged; a flush touches only its own section's fields; experience is appended to; the summary is the stripped buffer |
| Parser.FlushOverwrites | resume_app/converter.py:194-274 | for every section but experience, the flushed field does not depend on what was there before |
| Parser.ExperienceAccumulates | resume_app/converter.py:200-234 | two experience headings in a row add both groups of jobs, in order |
| Parser.ScanKeepsHeader | resume_app/converter.py:276-292 | the section scan never changes name, contacts, title or company, and never loses an experience entry |
| Parser.ScanDiscardsPreamble | resume_app/converter.py:276-292 | body lines before the first heading are dropped |
| Parser.ParseResume | resume_app/converter.py:111-293 | the name is empty exactly when all lines are blank; contacts are the contact lines with nationality blanks; the company comes from the contact lines; the title is the one read after the contact block |
| Parser.ScanBodies | resume_app/converter.py:276-293 | a run of body lines is buffered as it stands and flushed into the open section at the end |
| WorkedExample.ParseTwoSections | resume_app/converter.py:111-293 | a résumé of a name, one contact line, a blank, a title, a summary heading with one line and an experience heading with one job block parses into exactly those fields, every other field empty |
| WorkedExample.ParseJane | resume_app/converter.py:111-293 | the short résumé of Jane Doe parses into her name, her phone line, her title, her summary and one Acme Corp job with its duration and two bullets |
| Parser.ParseResumeContacts | resume_app/converter.py:144-167 | dropping the inserted blanks gives back exactly the contact lines |
| PdfText.Encode | resume_app/converter.py:376-390 | encoding is one byte per character |
| PdfText.DecodeEncodeChar | resume_app/converter.py:376-390 | a character round-trips through cp1252 when encodable, and becomes `?` otherwise |
| PdfText.SafeCharIsSafe | resume_app/converter.py:376-390 | a safe character is encodable, is not one of the substituted typographic characters, and is unchanged by a second pass |
| PdfText.EncodeRoundTrip | resume_app/converter.py:376-390 | text made only of characters cp1252 can represent decodes back to itself |
| PdfText.SafeText | resume_app/converter.py:376-390 | the safe text has the same length as the input |
| PdfText.SafeTextChars | resume_app/converter.py:376-390 | substitution and replacement act character by character |
| PdfText.SafeTextIsSafe | resume_app/converter.py:376-390 | every character of the result is safe |
| PdfText.SafeTextOfSafe | resume_app/converter.py:376-390 | text that is already safe passes through unchanged |
| PdfText.SafeTextIdempotent | resume_app/converter.py:376-390 | making text safe twice is the same as once |
| PdfText.SafeTextAppend | resume_app/converter.py:376-390 | safe text distributes over concatenation |
| PdfText.SafeTextEncodeRoundTrip | resume_app/converter.py:376-390 | safe text survives encoding to cp1252 and decoding unchanged |
| PdfText.EscapeChainIsPerCharacter | resume_app/converter.py:393-396 | the three chained `replace` calls act per character, with backslash first, so no escape is doubled |
| PdfText.EscapeSpecialsProperties | resume_app/converter.py:393-396 | unescaping recovers the input; every special is escaped; the length grows by one per special |
| PdfText.EscapePdfText | resume_app/converter.py:393-396 | the literal unescapes to the safe text, is well escaped, and grows by one per special character |
| PdfText.GreedyWrap | resume_app/converter.py:399-416 | the lines rejoin to the words; each line fits or is one long word; no line could take the next word |
| PdfText.WrapPdfText | resume_app/converter.py:399-416 | there is always at least one line |
| PdfText.WrapPdfTextSpec | resume_app/converter.py:399-416 | blank text gives one empty line; otherwise lines are non-empty, rejoin to the safe text's words, fit the limit, and are greedy |
| PdfText.WrapIsSafe | resume_app/converter.py:399-416 | every wrapped line is safe text |
| Layout.AddSectionHeading | resume_app/converter.py:500-508 | the heading line and rule come last; a spacer of at least 18 points comes before them unless the list was empty; an existing trailing spacer is grown, not duplicated |
| Layout.AddSectionHeadingSpacers | resume_app/converter.py:500-508 | adding a heading never creates two spacers in a row |
| Layout.AddSectionHeadingHeadings | resume_app/converter.py:500-508 | adding a heading adds exactly its upper-cased title to the headings |
| Layout.NameItems | resume_app/converter.py:510-511 | one centred, bold 22-point line showing the stripped name, or `Candidate Name` when the name is blank; no heading |
| Layout.HeadlineBits | resume_app/converter.py:513-520 | at most two headline parts, none empty |
| Layout.ContactItems | resume_app/converter.py:522-539 | at most one item per contact entry, each a key/value or plain paragraph |
| Layout.ContactItemsCount | resume_app/converter.py:522-539 | well-formed entries each give exactly one item |
| Layout.JobItems | resume_app/converter.py:549-558 | a meta line with the cleaned header and duration exactly when either is non-empty, then one bulleted paragraph per non-empty cleaned bullet in order, then a 4-point spacer |
| Layout.SectionsOf | resume_app/converter.py:541-580 | the five sections come in fixed order, each with a plain title and body items only |
| Layout.BuildItems | resume_app/converter.py:510-580 | the first item is the candidate's name line, followed by at least one more item |
| Layout.BuildItemsHeadings | resume_app/converter.py:541-580 | the headings drawn are exactly the titles of the non-empty sections, in order |
| Layout.SectionsOfTitles | resume_app/converter.py:541-580 | the titles of the section blocks present agree with the résumé's non-empty sections |
| Layout.BuildItemsDrawable | resume_app/converter.py:438-580 | every item built is one the paginator can draw |
| Paginator.FlushPage | resume_app/converter.py:586-596 | the open page, when it has operators, is appended as exactly one more page; an empty open page adds none; the cursor returns to the top with nothing pending; nothing shown is lost |
| Paginator.EnsureSpace | resume_app/converter.py:597-600 | when the height would cross the bottom margin the open page is flushed; otherwise nothing changes; afterwards the height fits or the page is fresh |
| Paginator.Advance | resume_app/converter.py:656-659 | when the height fits, the cursor moves down by it on the same page; otherwise the open page is flushed and the cursor moves down by it from the top |
| Paginator.GapAfter | resume_app/converter.py:669-671 | a zero gap changes nothing; a non-zero gap moves the cursor down on the same page when it fits, and otherwise after flushing the open page |
| Paginator.LineHeight | resume_app/converter.py:606 | the line height is the larger of 12 points and 1.35 times the font size |
| Paginator.Trunc | resume_app/converter.py:714 | `int()` truncates toward zero |
| Paginator.MaxChars | resume_app/converter.py:714 | the wrap limit is the larger of 20 and the truncated quotient of the width by the narrow advance |
| Paginator.TextXPlacement | resume_app/converter.py:608-615 | text starts inside the left margin; centred text is centred and right-aligned text ends at the right margin when it fits |
| Paginator.TextCmds | resume_app/converter.py:616-620 | one text line is five operators showing exactly its safe text |
| Paginator.RuleCmds | resume_app/converter.py:642-653 | a rule is six operators and shows no text |
| Paginator.AddTextLine | resume_app/converter.py:602-621 | when the line fits, its operators are appended to the open page at the cursor; otherwise the open page is flushed and they start the next page at the top; the cursor moves down one line height; exactly its text is shown |
| Paginator.DrawSegments | resume_app/converter.py:623-640 | empty segments are skipped; the rest are shown in order |
| Paginator.AddSegments | resume_app/converter.py:623-640 | the non-empty segments are shown in order on one line |
| Paginator.AddRule | resume_app/converter.py:642-653 | the rule is drawn one point below the cursor and shows no text |
| Paginator.AddLines | resume_app/converter.py:718-721 | each wrapped line is shown, in order |
| Paginator.DrawExpMeta | resume_app/converter.py:681-704 | the non-empty of left and right are shown, left first, whichever placement is chosen |
| Paginator.DrawKvPara | resume_app/converter.py:707-724 | the bold label and then the wrapped value lines are shown |
| Paginator.DrawKvBlock | resume_app/converter.py:727-741 | the label and then the wrapped value lines are shown |
| Paginator.DrawPara | resume_app/converter.py:744-766 | the wrapped lines are shown, after the bullet prefix for bulleted paragraphs |
| Paginator.Draw | resume_app/converter.py:655-766 | drawing an item keeps every page non-empty and shows exactly that item's strings |
| Paginator.AllTextsAppend | resume_app/converter.py:655-766 | the strings shown by a list of items are those of each part in turn |
| Paginator.DrawAll | resume_app/converter.py:655-766 | drawing all items shows all their strings, in order |
| Paginator.Paginate | resume_app/converter.py:586-770 | no page is empty of operators, and the pages together show exactly the items' strings in order |
| PdfWriter.PageStreams | resume_app/converter.py:591-592 | one cp1252 stream per page, and one empty stream when there are no pages, so there is always at least one stream |
| PdfWriter.Objects | resume_app/converter.py:772-816 | catalog 1, pages 2, fonts 3 and 4, then a page and its content for each stream, at numbers 5+2k and 6+2k |
| PdfWriter.IdsPartition | resume_app/converter.py:783-792 | every number from 5 up is a page object or a content object |
| PdfWriter.ContentObjLayout | resume_app/converter.py:807-811 | the stream bytes follow the header, `endstream` follows them, and `/Length` reads back as the stream's length |
| PdfWriter.PagesObjAgrees | resume_app/converter.py:814-815 | `/Count` reads back as the page count and the kids point at the page objects |
| PdfWriter.WriteObjects | resume_app/converter.py:818-826 | the header comes first; each object is framed as `N 0 obj … endobj` at the offset recorded for it |
| PdfWriter.WriteEntries | resume_app/converter.py:831-832 | the loop writes one entry per object, in order |
| PdfWriter.WritePdf | resume_app/converter.py:818-838 | every object lies before the table; the table, the free entry, the entries and a trailer naming the table's offset follow |
| PdfWriter.XrefEntriesLength | resume_app/converter.py:831-832 | each entry is exactly 20 bytes |
| PdfWriter.XrefEntryAt | resume_app/converter.py:831-832 | entry k sits at byte 20k of the table, and its ten digits read back as object k's offset |
| Renderer.FirstShownIsName | resume_app/converter.py:510-511 | the first string shown in the PDF is the stripped name, or `Candidate Name` when there is none |
| Renderer.ObjectsAtTheirNumbers | resume_app/converter.py:783-826 | the catalog, page tree, each page and each content stream are framed at the offsets the table records |
| Renderer.RenderBuiltin | resume_app/converter.py:419-838 | the pages show exactly the built items' strings; every object is framed at its recorded offset; the file starts with the header and ends with the table and trailer |
| FileNames.LastPart | resume_app/converter.py:76 | the base name is empty or one of the path's parts |
| FileNames.StemOfName | resume_app/converter.py:76 | the stem of `name.ext` is `name` |
| FileNames.CleanFilenameTokenNoop | resume_app/converter.py:69-72 | a single-spaced token without underscores is left alone |
| FileNames.MetadataOf | resume_app/converter.py:84-97 | no parts gives empty metadata; company, role and last name need at least four, three and two parts |
| FileNames.ExtractFilenameMetadata | resume_app/converter.py:75-97 | a file name without words gives empty metadata |
| FileNames.MetadataRoundTrip | resume_app/converter.py:75-97 | `First-Last-Role…-Company.ext` is read back as exactly those fields, role words joined by spaces |
| FileNames.MetadataRoundTripNoCompany | resume_app/converter.py:75-97 | `First-Last-Role.ext` is read back with an empty company |
| FileNames.SplitName | resume_app/converter.py:100-106 | both halves are single words or empty, and a last name implies a first name |
| FileNames.SplitNameRoundTrip | resume_app/converter.py:100-106 | for words joined by spaces: the first word and the last word, or the only word |
| FileNames.SanitizeComponent | resume_app/converter.py:307-322 | no forbidden character survives; in hyphen mode there is no space, no doubled hyphen, and no hyphen, dot or underscore at either end |
| FileNames.SanitizeComponentFixedPoint | resume_app/converter.py:307-322 | a component already safe is left alone |
| FileNames.SanitizeComponentIdempotent | resume_app/converter.py:307-322 | sanitising twice is the same as once |
| FileNames.Components | resume_app/converter.py:949-966 | every component of the stem is non-empty and safe |
| FileNames.DeriveOutputStem | resume_app/converter.py:949-970 | the stem is empty only when there are no components and no fallback; otherwise it is safe and a fixed point of sanitising |
| FileNames.StemFormat | resume_app/converter.py:949-967 | when the name, title and company each sanitise to something, the stem is `name-role-company` from those three sanitised values |
| FileNames.ResumeValuesPreferred | resume_app/converter.py:951-958 | a name, title or company present in the résumé makes the matching metadata irrelevant to the stem |
| FileNames.FilenameStem | resume_app/main.py:20-24 | the stem is non-empty, without white space or forbidden characters, and does not start or end with a dot, underscore or space |
| FileNames.SanitizeFilename | resume_app/main.py:20-27 | the name ends in `.pdf` in some letter case and starts with the stem; `.pdf` is added exactly when the stem lacks it |
| FileNames.SanitizeFilenameChars | resume_app/main.py:20-27 | every character is allowed and neither end is a dot, underscore or space |
| FileNames.SanitizeFilenameDefault | resume_app/main.py:23-24 | a name made only of junk becomes `resume.pdf` |
| FileNames.SanitizeFilenameIdempotent | resume_app/main.py:20-27 | sanitising a sanitised name changes nothing |

## Left out

- File I/O is not modelled. This covers `read_file`, `mkdir`, `write_bytes`, the
  Android download folder and opening the PDF afterwards. The renderer returns the
  bytes it would write.
- Other output routes are not modelled: HTML, DOCX, the fpdf and ReportLab
  fallbacks, and Word-based export. Each is a foreign library.
- The Kivy user interface in main.py is not modelled; only `sanitize_filename` is.
- Case mapping (`lower`, `upper`, `title`) is ASCII only. Python maps every Unicode
  letter.
- Layout numbers are exact reals, not IEEE doubles.
- `{:.2f}` rounds the exact value half away from zero. Python rounds the binary
  double half to even.
- Paginator.Draw: states which strings are shown and in which order. Which page each
  one lands on is stated per step, by Paginator.AddTextLine, Paginator.Advance and
  Paginator.EnsureSpace, not for a whole item. Coordinates are not pinned down beyond
  Paginator.TextXPlacement and those cursor facts.
- Paginator.DrawPara: the bullet branch for an empty wrap is not modelled. The wrapper
  always returns at least one line, so that branch cannot run.
- PdfWriter.XrefEntryAt: the 20-byte entry layout is proved only for offsets below
  10^10. Larger offsets widen `{:010d}`, as they do in Python.
- PdfWriter.PageStreams: it is not proved that the page commands decode back from the
  stream. Only the stream's exact bytes are stated.
- The object header and the trailer are encoded with latin-1 in the source. The model
  uses the cp1252 encoder for these ASCII-only strings, where the two codecs agree.
- `kv_block_item` (resume_app/converter.py:480-490) is never produced by the builder.
  It is modelled only as a paginator case.
- Parser.SkillTokens: states only that tokens are non-empty. That each token is one
  separator-free piece with camel joints split is fixed by its definition.
- Parser.SkillLines: states only the count bound. The glyph stripping it performs is
  Normalize.CleanBullet's loop restricted to `*`, `-` and `•`.
- Layout.HeadlineBits: states only that the parts are non-empty and at most two. It
  does not prove which of title and role was chosen.
- Layout.ContactItems: states the kinds and the count of items. It does not state the
  caption chosen for each label.
- Parser.JobsOf: states the bullet hygiene and the count bound. Paragraph splitting on
  blank lines is given by its definition.
- Flat fallback: when the built-in renderer fails, the source switches to a library
  renderer. That route is not modelled, because it calls foreign code.
- The e-mail de-duplication follows the code, which compares addresses exactly,
  including letter case. Contacts.CaseVariantsKept shows two addresses that differ
  only in case both kept.
- HasFourDigits: `\d` in the duration test is read as the ASCII digits 0-9. Python's
  `re` also matches other Unicode decimal digits, such as Devanagari ones, so such a
  duration line is not recognised by the model.
- FileNames.Components: states only that the components are non-empty and safe. Their
  order and the preference for the résumé's values are stated by FileNames.StemFormat
  and FileNames.ResumeValuesPreferred.

=== FILE: contacts.dfy ===
/** `build_contact_items`: the contact block's lines become labelled
    entries. A `label: value` line is split at its first colon; e-mail
    values are reduced to their distinct addresses, address values are
    completed with the country, and entries repeating an earlier
    (label, value) pair, compared without letter case, are dropped. */
module Contacts {
  import opened Text
  import opened Normalize
  import opened Dedup

  datatype ContactEntry = ContactEntry(labelText: string, labelKey: string, value: string)

  /** `(entry['label_key'], entry['value'].lower())` */
  function DedupeKey(e: ContactEntry): (string, string) {
    (e.labelKey, Lower(e.value))
  }

  // ---------------------------------------------------------------------
  // E-mail values
  // ---------------------------------------------------------------------

  /** `c` matches the pattern letter `l` under `re.IGNORECASE`: its simple
      lower-case form is `l`, and `i` also accepts the dotless `ı`. */
  predicate FoldMatches(c: char, l: char) {
    LowerChar(c) == l || (l == 'i' && (c == '\U{130}' || c == '\U{131}'))
  }

  /** `s` starts with `mailto:` in any letter case. */
  predicate MailtoAt(s: string) {
    |s| >= 7 && FoldMatches(s[0], 'm') && FoldMatches(s[1], 'a') && FoldMatches(s[2], 'i')
    && FoldMatches(s[3], 'l') && FoldMatches(s[4], 't') && FoldMatches(s[5], 'o') && s[6] == ':'
  }

  /** `re.sub(r"mailto:\s*", '', s, flags=re.IGNORECASE)` */
  function StripMailto(s: string): (r: string)
    ensures |r| <= |s|
    decreases |s|
  {
    if |s| == 0 then ""
    else if MailtoAt(s) then
      var rest := s[7..];
      StripMailto(rest[Span(rest, IsSpace)..])
    else [s[0]] + StripMailto(s[1..])
  }

  /** Without a colon there is no `mailto:` to remove. */
  lemma {:induction false} StripMailtoNoColon(s: string)
    requires ':' !in s
    ensures StripMailto(s) == s
    decreases |s|
  {
    if |s| > 0 {
      assert !MailtoAt(s) by {
        if |s| >= 7 {
          assert s[6] in s;
        }
      }
      StripMailtoNoColon(s[1..]);
      assert s == [s[0]] + s[1..];
    }
  }

  predicate IsBracket(c: char) {
    c == '<' || c == '>' || c == '[' || c == ']'
  }

  /** `[A-Za-z0-9._%+-]` */
  predicate IsLocalChar(c: char) {
    IsLetter(c) || IsDigit(c) || c == '.' || c == '_' || c == '%' || c == '+' || c == '-'
  }

  /** `[A-Za-z0-9.-]` */
  predicate IsDomainChar(c: char) {
    IsLetter(c) || IsDigit(c) || c == '.' || c == '-'
  }

  /** A match of `[A-Za-z0-9._%+-]+@[A-Za-z0-9.-]+` that stands alone. */
  predicate IsEmailToken(t: string) {
    var k := Span(t, IsLocalChar);
    0 < k && k + 1 < |t| && t[k] == '@' && forall i :: k < i < |t| ==> IsDomainChar(t[i])
  }

  predicate AllEmailTokens(ts: seq<string>) {
    forall k :: 0 <= k < |ts| ==> IsEmailToken(ts[k])
  }

  /** `re.findall(r"[A-Za-z0-9._%+-]+@[A-Za-z0-9.-]+", s)`: where the
      pattern matches at the current position the match is taken and the
      scan resumes after it; otherwise it moves on by one character. */
  function FindEmails(s: string): (ts: seq<string>)
    ensures AllEmailTokens(ts)
    decreases |s|
  {
    if |s| == 0 then []
    else
      var m := MatchLen(s);
      if m > 0 then
        MatchIsToken(s);
        [s[..m]] + FindEmails(s[m..])
      else FindEmails(s[1..])
  }

  /** Length of the pattern's match at the start of `s`, 0 when there is
      none. A match needs the whole run of local characters, an `@` and at
      least one domain character; the domain run is taken whole. */
  function MatchLen(s: string): (m: nat)
    ensures m <= |s|
    ensures m == 0 || 3 <= m
  {
    var k := Span(s, IsLocalChar);
    if 0 < k < |s| && s[k] == '@' then
      var d := Span(s[k + 1..], IsDomainChar);
      if d > 0 then k + 1 + d else 0
    else 0
  }

  lemma MatchIsToken(s: string)
    requires MatchLen(s) > 0
    ensures IsEmailToken(s[..MatchLen(s)])
  {
    var k := Span(s, IsLocalChar);
    var d := Span(s[k + 1..], IsDomainChar);
    PrefixShape(s, k, d, IsLocalChar, IsDomainChar);
  }

  /** Cutting `s` after a run of `p`, one separator and a run of `q`
      keeps both runs. */
  lemma PrefixShape(s: string, k: nat, d: nat, p: char -> bool, q: char -> bool)
    requires k == Span(s, p) && k < |s|
    requires d == Span(s[k + 1..], q)
    ensures var t := s[..k + 1 + d];
      Span(t, p) == k && t[k] == s[k] && forall i :: k < i < |t| ==> q(t[i])
  {
    var t := s[..k + 1 + d];
    var dom := s[k + 1..];
    SpanOfPrefix(s, k + 1 + d, p, k);
    forall i | k < i < |t|
      ensures q(t[i])
    {
      assert t[i] == dom[i - k - 1];
    }
  }

  /** A character that cannot start a local part is skipped. */
  lemma FindEmailsSkip(c: char, rest: string)
    requires !IsLocalChar(c)
    ensures FindEmails([c] + rest) == FindEmails(rest)
  {
    assert ([c] + rest)[1..] == rest;
  }

  /** An address followed by a character that cannot continue its domain
      is found as it is. */
  lemma FindEmailsToken(t: string, tail: string)
    requires IsEmailToken(t)
    requires tail == [] || !IsDomainChar(tail[0])
    ensures FindEmails(t + tail) == [t] + FindEmails(tail)
  {
    var s := t + tail;
    assert MatchLen(s) == |t| by {
      var k := Span(t, IsLocalChar);
      var dom := t[k + 1..];
      SpanAppend(t, tail, IsLocalChar);
      SpanAll(dom, IsDomainChar);
      SpanNone(tail, IsDomainChar);
      assert s[k + 1..] == dom + tail;
      SpanAppend(dom, tail, IsDomainChar);
    }
    assert s[..|t|] == t;
    assert s[|t|..] == tail;
  }

  /** The separator between two addresses is skipped by the scan. */
  lemma FindEmailsSeparator(rest: string)
    ensures FindEmails(" / " + rest) == FindEmails(rest)
  {
    var r1 := [' '] + rest;
    var r2 := ['/'] + r1;
    SeparatorNotLocal();
    FindEmailsSkip(' ', rest);
    FindEmailsSkip('/', r1);
    FindEmailsSkip(' ', r2);
    assert " / " + rest == [' '] + r2;
  }

  lemma SeparatorNotLocal()
    ensures !IsLocalChar(' ') && !IsLocalChar('/')
  {
  }

  /** Addresses written out with `" / "` are found again, in order. */
  lemma {:induction false} FindEmailsOfJoin(ts: seq<string>)
    requires forall k :: 0 <= k < |ts| ==> IsEmailToken(ts[k])
    ensures FindEmails(Join(ts, " / ")) == ts
  {
    if |ts| == 1 {
      FindEmailsToken(ts[0], "");
      assert ts[0] + "" == ts[0];
    } else if |ts| > 1 {
      var rest := Join(ts[1..], " / ");
      var tail := " / " + rest;
      assert Join(ts, " / ") == ts[0] + tail;
      assert FindEmails(tail) == ts[1..] by {
        FindEmailsOfJoin(ts[1..]);
        FindEmailsSeparator(rest);
      }
      assert !IsDomainChar(tail[0]);
      FindEmailsToken(ts[0], tail);
      HeadTail(ts);
    }
  }

  function Id(s: string): string { s }

  /** The e-mail branch: `mailto:` prefixes and `<>[]` are removed, and
      when addresses are found the value becomes the distinct addresses,
      in order of first appearance, joined by `" / "`. */
  function NormalizeEmail(value: string): (r: string)
    ensures FindEmails(EmailText(value)) == [] ==> r == EmailText(value)
  {
    var v := EmailText(value);
    var found := FindEmails(v);
    if found == [] then v else Join(DedupBy(found, Id), " / ")
  }

  /** The value with `mailto:` prefixes and brackets removed. */
  function EmailText(value: string): string {
    Remove(StripMailto(value), IsBracket)
  }

  /** Scanning a normalised e-mail value finds exactly the distinct
      addresses of the original, in order of first appearance. */
  lemma NormalizeEmailRescan(value: string)
    requires FindEmails(EmailText(value)) != []
    ensures FindEmails(NormalizeEmail(value)) == DedupBy(FindEmails(EmailText(value)), Id)
    ensures NormalizeEmail(value) != ""
  {
    var u := DedupBy(FindEmails(EmailText(value)), Id);
    FindEmailsOfJoin(u);
    assert FindEmails(EmailText(value))[0] in FindEmails(EmailText(value));
  }

  /** Characters of a normalised e-mail list: address characters, `@`,
      space and `/`, none of which is a colon or a bracket. */
  lemma {:induction false} JoinedEmailChars(ts: seq<string>)
    requires forall k :: 0 <= k < |ts| ==> IsEmailToken(ts[k])
    ensures ':' !in Join(ts, " / ")
    ensures forall i :: 0 <= i < |Join(ts, " / ")| ==> !IsBracket(Join(ts, " / ")[i])
  {
    forall k | 0 <= k < |ts|
      ensures ':' !in ts[k] && forall i :: 0 <= i < |ts[k]| ==> !IsBracket(ts[k][i])
    {
      TokenChars(ts[k]);
    }
    if |ts| > 1 {
      JoinedEmailChars(ts[1..]);
    }
  }

  lemma TokenChars(t: string)
    requires IsEmailToken(t)
    ensures ':' !in t && forall i :: 0 <= i < |t| ==> !IsBracket(t[i])
  {
    var k := Span(t, IsLocalChar);
    forall i | 0 <= i < |t|
      ensures t[i] != ':' && !IsBracket(t[i])
    {
      if i < k {
        assert IsLocalChar(t[i]);
      } else if i > k {
        assert IsDomainChar(t[i]);
      }
    }
  }

  /** Normalising an e-mail value that had addresses a second time
      changes nothing. */
  lemma NormalizeEmailIdempotent(value: string)
    requires FindEmails(EmailText(value)) != []
    ensures NormalizeEmail(NormalizeEmail(value)) == NormalizeEmail(value)
  {
    var found := FindEmails(EmailText(value));
    var u := DedupBy(found, Id);
    var r := Join(u, " / ");
    NormalizeEmailRescan(value);
    JoinedEmailChars(u);
    StripMailtoNoColon(r);
    RemoveNothing(r, IsBracket);
    DedupDistinct(u, Id, {});
  }

  /** De-duplication compares addresses exactly: two different addresses
      in one value are both kept, even when they differ only in letter
      case. */
  lemma DistinctAddressesKept(a: string, b: string)
    requires IsEmailToken(a) && IsEmailToken(b) && a != b
    ensures NormalizeEmail(a + " / " + b) == a + " / " + b
  {
    var ts := [a, b];
    var r := a + " / " + b;
    assert Join(ts, " / ") == r by {
      assert ts[1..] == [b];
    }
    JoinedEmailChars(ts);
    StripMailtoNoColon(r);
    RemoveNothing(r, IsBracket);
    FindEmailsOfJoin(ts);
    DedupDistinct(ts, Id, {});
  }

  /** `A@x.com` and `a@x.com` name the same mailbox, yet both stay. */
  lemma CaseVariantsKept(a: string, b: string)
    requires a == "A@x.com" && b == "a@x.com"
    ensures a != b && Lower(a) == Lower(b)
    ensures NormalizeEmail(a + " / " + b) == a + " / " + b
  {
    assert a[0] != b[0];
    EmailTokenShape(a);
    EmailTokenShape(b);
    DistinctAddressesKept(a, b);
  }

  /** A one-character local part, `@`, then a domain of letters and dots. */
  lemma EmailTokenShape(t: string)
    requires |t| == 7 && IsLocalChar(t[0]) && t[1] == '@'
    requires forall i :: 2 <= i < 7 ==> IsDomainChar(t[i])
    ensures IsEmailToken(t)
  {
    assert !IsLocalChar(t[1..][0]);
  }

  lemma {:induction false} RemoveNothing(s: string, p: char -> bool)
    requires forall i :: 0 <= i < |s| ==> !p(s[i])
    ensures Remove(s, p) == s
  {
    if |s| > 0 {
      RemoveNothing(s[1..], p);
    }
  }

  // ---------------------------------------------------------------------
  // Address values
  // ---------------------------------------------------------------------

  predicate IsCommaOrSpace(c: char) { c == ',' || c == ' ' }

  /** The address branch: `rstrip(', ')`, then `, India` is appended (or
      ` India` after a final full stop) unless the value already ends with
      `india` in any letter case. */
  function NormalizeAddress(value: string): (r: string)
    ensures r == "" <==> TrimEnd(value, IsCommaOrSpace) == ""
    ensures r != "" ==> EndsWith(Lower(r), "india")
    ensures StartsWith(r, TrimEnd(value, IsCommaOrSpace))
  {
    var v := TrimEnd(value, IsCommaOrSpace);
    if v != "" && !EndsWith(Lower(v), "india") then
      var suffix := if !EndsWith(v, ".") then ", India" else " India";
      AppendIndia(v, suffix);
      v + suffix
    else v
  }

  lemma AppendIndia(v: string, suffix: string)
    requires suffix == ", India" || suffix == " India"
    ensures EndsWith(Lower(v + suffix), "india")
    ensures StartsWith(v + suffix, v)
  {
    LowerAppend(v, suffix);
    assert (v + suffix)[..|v|] == v;
  }

  /** Completing an address twice is completing it once. */
  lemma NormalizeAddressIdempotent(value: string)
    ensures NormalizeAddress(NormalizeAddress(value)) == NormalizeAddress(value)
  {
    var r := NormalizeAddress(value);
    if r != "" {
      AddressEnd(r);
      BackSpanNone(r, IsCommaOrSpace);
      assert TrimEnd(r, IsCommaOrSpace) == r;
    }
  }

  lemma AddressEnd(r: string)
    requires r != "" && EndsWith(Lower(r), "india")
    ensures !IsCommaOrSpace(r[|r| - 1])
  {
    var l := Lower(r);
    assert l[|l| - 1] == "india"[4];
  }

  // ---------------------------------------------------------------------
  // One line
  // ---------------------------------------------------------------------

  predicate IsColon(c: char) { c == ':' }

  /** A line the classifier skips outright: blank, or a company line. */
  predicate SkippedLine(raw: string) {
    var line := Strip(raw);
    line == "" || StartsWith(Lower(line), "company name:")
  }

  /** The entry one contact line yields, if any: the line is stripped and
      cleaned of bullet glyphs; with a colon, the part before the first
      colon is the title-cased label and the stripped rest the value (an
      empty value yields nothing), normalised for e-mail and address
      labels; without one, the whole line is an unlabelled value. */
  function ClassifyLine(raw: string): (r: Option<ContactEntry>)
    ensures SkippedLine(raw) ==> r == None
    ensures !SkippedLine(raw) && ':' !in CleanBullet(Strip(raw)) ==>
      r == Some(ContactEntry("", "", CleanBullet(Strip(raw))))
    ensures r.Some? ==> r.value.labelKey == Lower(r.value.labelText)
    ensures r.Some? && r.value.labelKey == "address" && r.value.value != "" ==>
      EndsWith(Lower(r.value.value), "india")
  {
    var line := Strip(raw);
    if line == "" || StartsWith(Lower(line), "company name:") then None
    else
      var cleaned := CleanBullet(line);
      var i := SpanUntil(cleaned, IsColon);
      if i < |cleaned| then
        var lab := Title(Strip(cleaned[..i]));
        var value := Strip(cleaned[i + 1..]);
        if value == "" then None
        else
          var key := Lower(lab);
          var v :=
            if key == "email" then NormalizeEmail(value)
            else if key == "address" then NormalizeAddress(value)
            else value;
          Some(ContactEntry(lab, key, v))
      else
        Some(ContactEntry("", "", cleaned))
  }

  /** A label as the résumé writes it: title-cased, stripped, with no
      colon and no leading bullet glyph, and not the company line's label. */
  predicate IsPlainLabel(lab: string) {
    lab != "" && Stripped(lab) && Title(lab) == lab && ':' !in lab
    && !IsBulletGlyph(lab[0]) && Lower(lab) != "company name"
    && Lower(lab) != "email" && Lower(lab) != "address"
  }

  /** Writing an entry as `Label: value` and classifying the line gives the
      entry back. */
  lemma ClassifyLineRoundTrip(lab: string, value: string)
    requires IsPlainLabel(lab)
    requires value != "" && Stripped(value)
    ensures ClassifyLine(lab + ": " + value) == Some(ContactEntry(lab, Lower(lab), value))
  {
    var line := lab + ": " + value;
    StripNoop(line);
    assert !StartsWith(Lower(line), "company name:") by {
      if StartsWith(Lower(line), "company name:") {
        LowerAppend(lab, ": " + value);
        assert line == lab + (": " + value);
        CompanyPrefix(lab, ": " + value);
      }
    }
    CleanBulletNoop(line);
    ColonSplit(lab, value);
    StripNoop(lab);
    StripLeadingSpace(value);
    StripNoop(value);
  }

  lemma CompanyPrefix(lab: string, rest: string)
    requires ':' !in lab && |rest| > 0 && rest[0] == ':'
    requires StartsWith(Lower(lab + rest), "company name:")
    ensures Lower(lab) == "company name"
  {
    LowerAppend(lab, rest);
    var l := Lower(lab + rest);
    assert l[12] == "company name:"[12] == ':';
    assert forall j :: 0 <= j < |lab| ==> l[j] == LowerChar(lab[j]) != ':';
    assert |lab| <= 12;
    assert l[|lab|] == ':';
    assert forall j :: 0 <= j < 12 ==> "company name:"[j] != ':';
    assert |lab| == 12;
    assert Lower(lab) == l[..12];
  }

  lemma CleanBulletNoop(s: string)
    requires s != "" && Stripped(s) && !IsBulletGlyph(s[0])
    ensures CleanBullet(s) == s
  {
    StripNoop(s);
  }

  lemma ColonSplit(lab: string, value: string)
    requires ':' !in lab
    ensures var line := lab + ": " + value;
      SpanUntil(line, IsColon) == |lab| && line[..|lab|] == lab && line[|lab| + 1..] == " " + value
  {
    var line := lab + ": " + value;
    assert line == lab + (": " + value);
    SpanUntilAll(lab, IsColon);
    SpanUntilAppend(lab, ": " + value, IsColon);
  }

  // ---------------------------------------------------------------------
  // The whole block
  // ---------------------------------------------------------------------

  /** An entry the classifier may keep. */
  predicate WellFormedEntry(e: ContactEntry) {
    e.value != "" && e.labelKey == Lower(e.labelText)
    && (e.labelKey == "address" ==> EndsWith(Lower(e.value), "india"))
  }

  /** The entries the lines yield that have a value, in line order. */
  function Candidates(lines: seq<string>): (cs: seq<ContactEntry>)
    ensures forall k :: 0 <= k < |cs| ==> WellFormedEntry(cs[k])
    ensures |cs| <= |lines|
  {
    if |lines| == 0 then []
    else Candidate(lines[0]) + Candidates(lines[1..])
  }

  function Candidate(raw: string): (c: seq<ContactEntry>)
    ensures |c| <= 1
    ensures forall k :: 0 <= k < |c| ==> WellFormedEntry(c[k])
  {
    match ClassifyLine(raw)
    case Some(e) => if e.value != "" then [e] else []
    case None => []
  }

  /** `build_contact_items`: the candidates in order, each kept only when
      its key was not seen before. */
  method BuildContactItems(lines: seq<string>) returns (entries: seq<ContactEntry>)
    ensures entries == DedupBy(Candidates(lines), DedupeKey)
    ensures forall i :: 0 <= i < |entries| ==> WellFormedEntry(entries[i])
    ensures forall i, j :: 0 <= i < j < |entries| ==> DedupeKey(entries[i]) != DedupeKey(entries[j])
  {
    entries := ScanContacts(lines);
    KeptAreWellFormed(lines);
  }

  /** The loop over the lines with its `seen` set. */
  method ScanContacts(lines: seq<string>) returns (entries: seq<ContactEntry>)
    ensures entries == DedupFrom(Candidates(lines), DedupeKey, {})
  {
    entries := [];
    var seen: set<(string, string)> := {};
    ghost var target := DedupFrom(Candidates(lines), DedupeKey, {});
    var i := 0;
    while i < |lines|
      invariant 0 <= i <= |lines|
      invariant entries + DedupFrom(Candidates(lines[i..]), DedupeKey, seen) == target
    {
      var c := Candidate(lines[i]);
      BuildStep(lines, i, entries, seen, target);
      if c != [] && DedupeKey(c[0]) !in seen {
        entries := entries + [c[0]];
        seen := seen + {DedupeKey(c[0])};
      }
      i := i + 1;
    }
    assert lines[i..] == [];
  }

  /** One turn of the loop keeps its invariant. */
  lemma BuildStep(lines: seq<string>, i: nat, entries: seq<ContactEntry>, seen: set<(string, string)>, target: seq<ContactEntry>)
    requires i < |lines|
    requires entries + DedupFrom(Candidates(lines[i..]), DedupeKey, seen) == target
    ensures var c := Candidate(lines[i]);
      var keep := c != [] && DedupeKey(c[0]) !in seen;
      (if keep then entries + [c[0]] else entries)
        + DedupFrom(Candidates(lines[i + 1..]), DedupeKey, if keep then seen + {DedupeKey(c[0])} else seen)
        == target
  {
    CandidatesStep(lines, i);
    DedupLoopStep(entries, Candidate(lines[i]), Candidates(lines[i + 1..]), DedupeKey, seen);
  }

  lemma CandidatesStep(lines: seq<string>, i: nat)
    requires i < |lines|
    ensures Candidates(lines[i..]) == Candidate(lines[i]) + Candidates(lines[i + 1..])
  {
    assert lines[i..][1..] == lines[i + 1..];
  }

  lemma KeptAreWellFormed(lines: seq<string>)
    ensures var entries := DedupBy(Candidates(lines), DedupeKey);
      forall i :: 0 <= i < |entries| ==> WellFormedEntry(entries[i])
  {
    var entries := DedupBy(Candidates(lines), DedupeKey);
    var cs := Candidates(lines);
    forall i | 0 <= i < |entries|
      ensures WellFormedEntry(entries[i])
    {
      assert entries[i] in cs;
      var k :| 0 <= k < |cs| && cs[k] == entries[i];
    }
  }
}

=== FILE: dedup.dfy ===
/** Order-preserving de-duplication by a key: the `seen`-set loops of the
    contact classifier (`dedupe_key not in seen`) and of the e-mail
    normaliser (`email not in unique_emails`). */
module Dedup {

  /** Keep each element whose key has not been seen yet, in order, adding
      its key to `seen`. */
  function DedupFrom<T(==), K(==)>(xs: seq<T>, key: T -> K, seen: set<K>): (r: seq<T>)
    ensures |r| <= |xs|
    ensures forall i :: 0 <= i < |r| ==> key(r[i]) !in seen
    ensures forall i, j :: 0 <= i < j < |r| ==> key(r[i]) != key(r[j])
    ensures forall i :: 0 <= i < |r| ==> r[i] in xs
    ensures forall x :: x in xs ==> key(x) in seen || HasKey(r, key, key(x))
    decreases |xs|
  {
    if |xs| == 0 then []
    else if key(xs[0]) in seen then DedupFrom(xs[1..], key, seen)
    else
      var rest := DedupFrom(xs[1..], key, seen + {key(xs[0])});
      assert forall x :: x in xs ==> x == xs[0] || x in xs[1..];
      assert forall x :: x in xs ==> key(x) in seen || HasKey([xs[0]] + rest, key, key(x)) by {
        forall x | x in xs
          ensures key(x) in seen || HasKey([xs[0]] + rest, key, key(x))
        {
          HasKeyCons(xs[0], rest, key, key(x));
        }
      }
      [xs[0]] + rest
  }

  /** The de-duplication of a whole list: nothing seen beforehand. */
  function DedupBy<T(==), K(==)>(xs: seq<T>, key: T -> K): (r: seq<T>)
    ensures |r| <= |xs|
    ensures forall i, j :: 0 <= i < j < |r| ==> key(r[i]) != key(r[j])
    ensures forall i :: 0 <= i < |r| ==> r[i] in xs
    ensures forall x :: x in xs ==> HasKey(r, key, key(x))
  {
    DedupFrom(xs, key, {})
  }

  /** Some element of `xs` has key `k`. */
  predicate HasKey<T, K(==)>(xs: seq<T>, key: T -> K, k: K) {
    exists j :: 0 <= j < |xs| && key(xs[j]) == k
  }

  /** `xs[i]` is the first element of `xs` with its key. */
  predicate FirstWithKey<T, K(==)>(xs: seq<T>, key: T -> K, i: int)
    requires 0 <= i < |xs|
  {
    !HasKey(xs[..i], key, key(xs[i]))
  }

  /** The reference: the elements that are the first with their key, in
      their original order. */
  function FirstKeyed<T, K(==)>(xs: seq<T>, key: T -> K): seq<T> {
    if |xs| == 0 then []
    else
      FirstKeyed(xs[..|xs| - 1], key)
        + (if FirstWithKey(xs, key, |xs| - 1) then [xs[|xs| - 1]] else [])
  }

  lemma HasKeyCons<T, K>(y: T, ys: seq<T>, key: T -> K, k: K)
    ensures HasKey([y] + ys, key, k) <==> key(y) == k || HasKey(ys, key, k)
  {
    var xs := [y] + ys;
    if HasKey(xs, key, k) && key(y) != k {
      var j :| 0 <= j < |xs| && key(xs[j]) == k;
      assert ys[j - 1] == xs[j];
    }
    if HasKey(ys, key, k) {
      var j :| 0 <= j < |ys| && key(ys[j]) == k;
      assert xs[j + 1] == ys[j];
    }
    if key(y) == k {
      assert xs[0] == y;
    }
  }

  /** Feeding one more element at the end keeps it exactly when its key
      is new. */
  lemma {:induction false} DedupFromSnoc<T, K>(xs: seq<T>, x: T, key: T -> K, seen: set<K>)
    ensures DedupFrom(xs + [x], key, seen)
         == DedupFrom(xs, key, seen) + (if key(x) in seen || HasKey(xs, key, key(x)) then [] else [x])
    decreases |xs|
  {
    if |xs| == 0 {
      assert xs + [x] == [x];
    } else {
      var y := xs[0];
      assert (xs + [x])[0] == y;
      assert (xs + [x])[1..] == xs[1..] + [x];
      assert xs == [y] + xs[1..];
      HasKeyCons(y, xs[1..], key, key(x));
      if key(y) in seen {
        DedupFromSnoc(xs[1..], x, key, seen);
      } else {
        DedupFromSnoc(xs[1..], x, key, seen + {key(y)});
      }
    }
  }

  /** The `seen`-set loop keeps exactly the first element with each key. */
  lemma {:induction false} DedupIsFirstKeyed<T, K>(xs: seq<T>, key: T -> K)
    ensures DedupBy(xs, key) == FirstKeyed(xs, key)
    decreases |xs|
  {
    if |xs| > 0 {
      var init := xs[..|xs| - 1];
      var x := xs[|xs| - 1];
      assert xs == init + [x];
      DedupIsFirstKeyed(init, key);
      DedupFromSnoc(init, x, key, {});
    }
  }

  /** One step of the loop: at most one element in front of the rest. */
  lemma DedupFromStep<T, K>(c: seq<T>, rest: seq<T>, key: T -> K, seen: set<K>)
    requires |c| <= 1
    ensures DedupFrom(c + rest, key, seen)
         == if c != [] && key(c[0]) !in seen then [c[0]] + DedupFrom(rest, key, seen + {key(c[0])})
            else DedupFrom(rest, key, seen)
  {
    if c == [] {
      assert c + rest == rest;
    } else {
      assert (c + rest)[0] == c[0];
      assert (c + rest)[1..] == rest;
    }
  }

  /** The loop's invariant `done + DedupFrom(todo, key, seen)` survives
      one step that keeps the next element exactly when its key is new. */
  lemma DedupLoopStep<T, K>(done: seq<T>, c: seq<T>, rest: seq<T>, key: T -> K, seen: set<K>)
    requires |c| <= 1
    ensures c != [] && key(c[0]) !in seen ==>
      done + DedupFrom(c + rest, key, seen) == (done + [c[0]]) + DedupFrom(rest, key, seen + {key(c[0])})
    ensures !(c != [] && key(c[0]) !in seen) ==>
      done + DedupFrom(c + rest, key, seen) == done + DedupFrom(rest, key, seen)
  {
    DedupFromStep(c, rest, key, seen);
    if c != [] && key(c[0]) !in seen {
      assert done + ([c[0]] + DedupFrom(rest, key, seen + {key(c[0])}))
          == (done + [c[0]]) + DedupFrom(rest, key, seen + {key(c[0])});
    }
  }

  /** A list whose keys are already distinct is left as it is. */
  lemma {:induction false} DedupDistinct<T, K>(xs: seq<T>, key: T -> K, seen: set<K>)
    requires forall i, j :: 0 <= i < j < |xs| ==> key(xs[i]) != key(xs[j])
    requires forall i :: 0 <= i < |xs| ==> key(xs[i]) !in seen
    ensures DedupFrom(xs, key, seen) == xs
    decreases |xs|
  {
    if |xs| > 0 {
      DedupDistinct(xs[1..], key, seen + {key(xs[0])});
    }
  }
}

=== FILE: example.dfy ===
/** A worked example of `parse_resume`: a résumé laid out as a name, one
    contact line, a blank line, a title, a summary section and an
    experience section with one job, the general theorem about that
    layout and the short résumé that instantiates it. */
module WorkedExample {
  import opened Text
  import opened Normalize
  import opened Parser

  /** A short résumé in that layout. */
  const JaneLines: seq<string> := [
    "Jane Doe", "Phone: 555-1234", "", "Software Engineer",
    "Professional Summary", "Built things.",
    "Experience", "Acme Corp", "2020-2022", "- Did X", "- Did Y"]

  /** The one job the example describes. */
  const JaneJob := Job("Acme Corp", Some("2020-2022"), ["Did X", "Did Y"])

  /** The example gives its name, its contact line, its title, its summary
      and one job with a duration and two bullets; every other field stays
      empty. */
  lemma {:induction false} ParseJane()
    ensures ParseResume(JaneLines) == EmptyDoc.(name := "Jane Doe", contact := ["Phone: 555-1234"],
      title := "Software Engineer", summary := "Built things.", experience := [JaneJob])
  {
    JaneLayout();
    ParseTwoSections(JaneLines, JaneLines[5], JaneLines[7..]);
    JaneFields();
    AcmeJob();
  }

  /** The lines of the example the parsed fields come from. */
  lemma {:induction false} JaneFields()
    ensures JaneLines[0] == "Jane Doe" && JaneLines[1] == "Phone: 555-1234"
    ensures JaneLines[3] == "Software Engineer" && JaneLines[5] == "Built things."
    ensures JaneLines[7..] == ["Acme Corp", "2020-2022", "- Did X", "- Did Y"]
  {
  }

  /** The job block: a header, a four-digit duration and two dash bullets. */
  lemma {:induction false} AcmeJob()
    ensures ParseJob(JaneLines[7..]) == JaneJob
  {
    JaneFields();
    AcmeLines();
    JobOfFour(JaneLines[7..], "Did X", "Did Y");
  }

  /** The character facts the job block needs. */
  lemma {:induction false} AcmeLines()
    ensures Stripped("Acme Corp") && !IsBulletGlyph('A')
    ensures var d := "2020-2022"; |d| >= 4 && IsDigit(d[0]) && IsDigit(d[1]) && IsDigit(d[2]) && IsDigit(d[3])
    ensures "- Did X" == "- " + "Did X" && "- Did Y" == "- " + "Did Y"
    ensures IsCleanItem("Did X") && IsCleanItem("Did Y")
  {
    DashLines();
    CleanWords();
  }

  /** Each bullet line is a dash, a space and the item. */
  lemma {:induction false} DashLines()
    ensures "- Did X" == "- " + "Did X" && "- Did Y" == "- " + "Did Y"
  {
  }

  /** The bullet items are already clean. */
  lemma {:induction false} CleanWords()
    ensures IsCleanItem("Did X") && IsCleanItem("Did Y")
  {
  }

  /** The example is laid out as the theorem needs. */
  lemma {:induction false} JaneLayout()
    ensures TwoSections(JaneLines, JaneLines[5], JaneLines[7..])
  {
    JaneHeader();
    JaneHeadings();
    JaneBlock();
  }

  /** The name, contact and title lines, and the summary line. */
  lemma {:induction false} JaneHeader()
    ensures HeaderShape(JaneLines) && PlainShape(JaneLines[5])
  {
  }

  /** The two section headings. */
  lemma {:induction false} JaneHeadings()
    ensures HeadingShape(JaneLines[4], "summary", "professional summary")
    ensures HeadingShape(JaneLines[6], "experience", "professional experience")
  {
  }

  /** The job lines are plain, single-line text. */
  lemma {:induction false} JaneBlock()
    ensures var js := JaneLines[7..];
      forall k :: 0 <= k < |js| ==> PlainShape(js[k]) && AllChars(js[k], NotLineBreak)
  {
  }

  // ---------------------------------------------------------------------
  // The layout
  // ---------------------------------------------------------------------

  /** Stripped, non-empty text, not ending in a colon, whose first letter
      and length match no section key: text that opens no section. */
  predicate PlainShape(ln: string) {
    && ln != "" && Stripped(ln) && ln[|ln| - 1] != ':'
    && LowerChar(ln[0]) != 'c' && !KeyShaped(LowerChar(ln[0]), |ln|)
  }

  /** The (first letter, length) pairs of the section keys other than the
      `certificat` ones. */
  predicate KeyShaped(c: char, n: nat) {
    || (c == 'p' && (n == 20 || n == 23)) || (c == 's' && (n == 7 || n == 6))
    || (c == 'e' && (n == 10 || n == 9)) || (c == 't' && n == 16) || (c == 'q' && n == 13)
  }

  /** A stripped line that reads as one of `keys` in lower case. */
  predicate HeadingShape(ln: string, key1: string, key2: string) {
    Stripped(ln) && (Lower(ln) == key1 || Lower(ln) == key2)
  }

  /** A one-line name, a one-line contact block that is neither a
      nationality nor a company line, a blank line, a title, and a
      stripped line after it. */
  predicate HeaderShape(L: seq<string>) {
    && |L| >= 5
    && L[0] != "" && Stripped(L[0])
    && |L[1]| > 1 && Stripped(L[1]) && LowerChar(L[1][0]) != 'n' && LowerChar(L[1][0]) != 'c'
    && L[2] == ""
    && PlainShape(L[3])
    && L[4] != "" && Stripped(L[4])
  }

  /** The résumé in the layout: the header, a summary heading and one
      line, an experience heading and one block of plain lines. */
  predicate TwoSections(L: seq<string>, s: string, js: seq<string>) {
    && |L| == 7 + |js| && |js| >= 1
    && HeaderShape(L)
    && HeadingShape(L[4], "summary", "professional summary")
    && L[5] == s && PlainShape(s)
    && HeadingShape(L[6], "experience", "professional experience")
    && L[7..] == js
    && forall k :: 0 <= k < |js| ==> PlainShape(js[k]) && AllChars(js[k], NotLineBreak)
  }

  /** A résumé in the layout parses into its name, its one contact line,
      its title, its summary and the one job of its experience block, and
      no other field is filled. */
  lemma {:induction false} ParseTwoSections(L: seq<string>, s: string, js: seq<string>)
    requires TwoSections(L, s, js)
    ensures ParseResume(L) == EmptyDoc.(name := L[0], contact := [L[1]], title := L[3],
      summary := s, experience := [ParseJob(js)])
  {
    HeaderLayout(L);
    PlainContact(L[1]);
    var doc := EmptyDoc.(name := L[0], contact := [L[1]], title := L[3]);
    assert ParseResume(L) == Scan(Kinds(L[4..]), NoSection, [], doc);
    LayoutKinds(L, s, js);
    ScanSummaryThenJobs(Kinds(L[4..]), s, js, doc);
    OneBlockJobs(js);
  }

  /** The layout of a résumé that opens with a one-line name, a one-line
      contact block, a blank line, a title and then a heading: each part
      is read from its own line and the scan starts at the heading. */
  lemma {:induction false} HeaderLayout(L: seq<string>)
    requires HeaderShape(L)
    ensures ParseName(L, 0) == (L[0], 1)
    ensures RunEnd(L, 1, IsNonBlank) == 2
    ensures ContactLines(L) == [L[1]]
    ensures ParseTitle(L, 2) == (L[3], 4)
  {
    StripNoop(L[0]);
    StripNoop(L[1]);
    StripNoop(L[3]);
    StripNoop(L[4]);
    assert RunEnd(L, 0, IsBlank) == 0;
    assert RunEnd(L, 1, IsSingleChar) == 1;
    ParseNameFound(L, 0, 1);
    assert L[0..1] == [L[0]];
    assert RunEnd(L, 1, IsNonBlank) == 2 by {
      assert Strip(L[2]) == "";
    }
    assert L[1..2] == [L[1]];
    assert RunEnd(L, 2, IsBlank) == 3 by {
      assert Strip(L[2]) == "";
    }
    PlainLine(L[3]);
    SectionKeyIsHeading(L[3]);
  }

  /** A contact line that opens neither `nationality:` nor `company name:`
      gets no blank after it and names no company. */
  lemma {:induction false} PlainContact(c: string)
    requires |c| > 1 && Stripped(c) && LowerChar(c[0]) != 'n' && LowerChar(c[0]) != 'c'
    ensures InsertNationalityBlanks([c]) == [c]
    ensures CompanyOf([c], "") == ""
  {
    StripNoop(c);
    assert Lower(c)[0] == LowerChar(c[0]);
    assert !StartsWith(Lower(c), "company name:");
    assert !IsNationality(c);
    assert CompanyOf([c], "") == CompanyOf([], CompanyLine(c, ""));
  }

  /** The scanned lines of the layout: two headings, each followed by its
      body lines. */
  lemma {:induction false} LayoutKinds(L: seq<string>, s: string, js: seq<string>)
    requires TwoSections(L, s, js)
    ensures var ks := Kinds(L[4..]);
      && |ks| == 3 + |js|
      && ks[0] == Heading(Summary) && ks[1] == Body(s) && ks[2] == Heading(Experience)
      && forall k :: 0 <= k < |js| ==> ks[3 + k] == Body(js[k])
  {
    var ks := Kinds(L[4..]);
    StripNoop(L[4]);
    StripNoop(L[6]);
    SummaryLine(L[4]);
    ExperienceLine(L[6]);
    PlainLine(s);
    forall k | 0 <= k < |js|
      ensures ks[3 + k] == Body(js[k])
    {
      assert L[4..][3 + k] == js[k];
      PlainLine(js[k]);
    }
  }

  /** The summary heading and its line, then the experience heading and
      the job lines: the document gets the summary and the jobs of the one
      block. */
  lemma {:induction false} ScanSummaryThenJobs(ks: seq<Line>, s: string, js: seq<string>, doc: Doc)
    requires |ks| == 3 + |js|
    requires ks[0] == Heading(Summary) && ks[1] == Body(s) && ks[2] == Heading(Experience)
    requires forall k :: 0 <= k < |js| ==> ks[3 + k] == Body(js[k])
    requires s != "" && Stripped(s) && doc.experience == []
    ensures Scan(ks, NoSection, [], doc)
         == doc.(summary := s, experience := ExperienceJobs(Strip(Join(js, "\n"))))
  {
    var doc1 := doc.(summary := s);
    ScanSummary(ks, s, doc);
    ScanBodies(ks[3..], js, Experience, [], doc1);
    assert [] + js == js;
  }

  /** The first three lines fill the summary and open the experience
      section with an empty buffer. */
  lemma {:induction false} ScanSummary(ks: seq<Line>, s: string, doc: Doc)
    requires |ks| >= 3
    requires ks[0] == Heading(Summary) && ks[1] == Body(s) && ks[2] == Heading(Experience)
    requires s != "" && Stripped(s)
    ensures Scan(ks, NoSection, [], doc) == Scan(ks[3..], Experience, [], doc.(summary := s))
  {
    assert Flush(Summary, [s], doc) == doc.(summary := s) by {
      StripNoop(s);
    }
    ScanHeading(ks, NoSection, [], doc);
    ScanBody(ks[1..], Summary, [], doc);
    assert ks[1..][1..] == ks[2..];
    ScanHeading(ks[2..], Summary, [] + [s], doc);
    assert ks[2..][1..] == ks[3..];
  }

  /** One step of the scan over a heading. */
  lemma {:induction false} ScanHeading(ls: seq<Line>, sec: Section, buf: seq<string>, doc: Doc)
    requires |ls| > 0 && ls[0].Heading?
    ensures Scan(ls, sec, buf, doc) == Scan(ls[1..], ls[0].opens, [], Flush(sec, buf, doc))
  {
  }

  /** One step of the scan over body text. */
  lemma {:induction false} ScanBody(ls: seq<Line>, sec: Section, buf: seq<string>, doc: Doc)
    requires |ls| > 0 && ls[0].Body?
    ensures Scan(ls, sec, buf, doc) == Scan(ls[1..], sec, buf + [ls[0].text], doc)
  {
  }

  /** The experience text of one block of stripped, non-empty lines is
      that one job. */
  lemma {:induction false} OneBlockJobs(js: seq<string>)
    requires |js| >= 1
    requires forall k :: 0 <= k < |js| ==> js[k] != "" && Stripped(js[k]) && AllChars(js[k], NotLineBreak)
    ensures ExperienceJobs(Strip(Join(js, "\n"))) == [ParseJob(js)]
  {
    var t := Join(js, "\n");
    assert Strip(t) == t by {
      JoinEnds(js, "\n");
      StripNoop(t);
    }
    assert SplitOn(t, "\n\n") == [t] by {
      assert forall k :: 0 <= k < |js| ==> '\n' !in js[k];
      JoinNoBlankLine(js);
      SplitOnNoBlankLine(t);
    }
    assert StrippedNonBlank([t]) == [t];
    assert NonBlankOnly(SplitLines(t)) == js by {
      SplitLinesJoin(js);
      NonBlankOnlyAll(js);
    }
    assert JobsOf([t]) == [ParseJob(js)];
  }

  /** Keeping the non-blank lines of lines that all are changes nothing. */
  lemma {:induction false} NonBlankOnlyAll(xs: seq<string>)
    requires forall k :: 0 <= k < |xs| ==> xs[k] != "" && Stripped(xs[k])
    ensures NonBlankOnly(xs) == xs
  {
    if |xs| > 0 {
      StripNoop(xs[0]);
      NonBlankOnlyAll(xs[1..]);
      assert xs == [xs[0]] + xs[1..];
    }
  }

  /** A stripped line that ends without a colon and whose first letter and
      length match no section key is body text. */
  lemma {:induction false} PlainLine(ln: string)
    requires PlainShape(ln)
    ensures HeadingOf(ln).None?
    ensures LineKind(Strip(ln)) == Body(ln)
  {
    StripNoop(ln);
    var key := Lower(ln);
    assert HeadingKey(ln) == key by {
      BackSpanNone(key, IsColonChar);
    }
    assert |key| == |ln| && key[0] == LowerChar(ln[0]);
    assert !StartsWith(key, "certificat") by {
      if |key| >= 10 {
        assert key[..10][0] == key[0];
      }
    }
    assert key != "professional summary" && key != "summary";
    assert key != "professional experience" && key != "experience";
    assert key != "technical skills" && key != "skills";
    assert key != "education" && key != "qualification";
  }

  /** A line whose lower-cased form is `key`, with no colon at its end, has
      `key` as its heading key. */
  lemma {:induction false} KeyedLine(ln: string, key: string)
    requires Lower(ln) == key && key != "" && key[|key| - 1] != ':'
    ensures HeadingKey(ln) == key
  {
    BackSpanNone(key, IsColonChar);
  }

  /** A line that reads `summary` or `professional summary` in lower case
      opens the summary section. */
  lemma {:induction false} SummaryLine(ln: string)
    requires HeadingShape(ln, "summary", "professional summary")
    ensures HeadingOf(ln) == Some(Summary)
  {
    KeyedLine(ln, Lower(ln));
  }

  /** A line that reads `experience` or `professional experience` in lower
      case opens the experience section. */
  lemma {:induction false} ExperienceLine(ln: string)
    requires HeadingShape(ln, "experience", "professional experience")
    ensures HeadingOf(ln) == Some(Experience)
  {
    KeyedLine(ln, Lower(ln));
  }

  /** A job block of a header, a duration opening with four digits and
      two dash bullets: the bullets lose their dashes. */
  lemma {:induction false} JobOfFour(J: seq<string>, w1: string, w2: string)
    requires |J| == 4 && J[0] != "" && Stripped(J[0]) && !IsBulletGlyph(J[0][0])
    requires |J[1]| >= 4 && IsDigit(J[1][0]) && IsDigit(J[1][1]) && IsDigit(J[1][2]) && IsDigit(J[1][3])
    requires J[2] == "- " + w1 && J[3] == "- " + w2 && IsCleanItem(w1) && IsCleanItem(w2)
    ensures ParseJob(J) == Job(J[0], Some(J[1]), [w1, w2])
  {
    assert !StartsWithGlyph(J[0]) by {
      StripNoop(J[0]);
    }
    assert HasFourDigits(J[1]) by {
      assert IsDigit(J[1][0 + 1]) && IsDigit(J[1][0 + 2]) && IsDigit(J[1][0 + 3]);
    }
    DashBullets(J[2..], w1, w2);
    HeaderAndDuration(J);
  }

  /** A job whose header is no bullet and whose second line holds four
      digits: the rest are its bullets. */
  lemma {:induction false} HeaderAndDuration(J: seq<string>)
    requires |J| >= 2 && !StartsWithGlyph(J[0]) && HasFourDigits(J[1])
    ensures ParseJob(J) == Job(J[0], Some(J[1]), CleanEntries(J[2..]))
  {
  }

  /** Two dash bullets lose their dashes. */
  lemma {:induction false} DashBullets(bs: seq<string>, w1: string, w2: string)
    requires |bs| == 2 && bs[0] == "- " + w1 && bs[1] == "- " + w2 && IsCleanItem(w1) && IsCleanItem(w2)
    ensures CleanEntries(bs) == [w1, w2]
  {
    CleanDashItem(w1);
    CleanDashItem(w2);
    assert bs[1..] == [bs[1]];
  }
}

=== FILE: filenames.dfy ===
/** The file-name helpers of the converter and of the Android front end:
    the metadata read off a source file name (`first-last-role-company`),
    the name splitter, the component sanitiser that builds the
    `name-role-company` output stem, and `sanitize_filename`.

    Paths are POSIX paths: `/` is the only separator. */
module FileNames {
  import opened Text

  // ---------------------------------------------------------------------
  // Path(p).stem
  // ---------------------------------------------------------------------

  /** A component `PurePath` keeps: empty ones (from `//`) and `.` vanish. */
  predicate IsPathPart(part: string) {
    part != "" && part != "."
  }

  /** The last kept component, or `""` when there is none. */
  function LastPart(parts: seq<string>): (name: string)
    ensures name == "" || (IsPathPart(name) && name in parts)
  {
    if |parts| == 0 then ""
    else if IsPathPart(parts[|parts| - 1]) then parts[|parts| - 1]
    else LastPart(parts[..|parts| - 1])
  }

  /** `PurePath(p).name` */
  function BaseName(p: string): (name: string)
    ensures '/' !in name
  {
    SplitOnCharParts(p, '/');
    LastPart(SplitOn(p, "/"))
  }

  /** `PurePath(p).stem`: the name without its last suffix; a dot that
      opens the name or ends it does not start a suffix. */
  function Stem(p: string): (stem: string)
    ensures '/' !in stem
  {
    var name := BaseName(p);
    var i := RFind(name, '.');
    if 0 < i < |name| - 1 then name[..i] else name
  }

  /** A file name `stem.ext` with a plain extension has stem `stem`. */
  lemma StemOfName(stem: string, ext: string)
    requires stem != "" && '/' !in stem
    requires ext != "" && '/' !in ext && '.' !in ext
    ensures Stem(stem + "." + ext) == stem
  {
    var name := stem + "." + ext;
    assert BaseName(name) == name by {
      assert '/' !in name by {
        forall k | 0 <= k < |name|
          ensures name[k] != '/'
        {
          if k < |stem| {
            assert name[k] == stem[k];
          } else if k > |stem| {
            assert name[k] == ext[k - |stem| - 1];
          }
        }
      }
      SplitOnNoSep(name, '/');
      assert LastPart([name]) == name;
    }
    assert RFind(name, '.') == |stem| by {
      assert name[|stem|] == '.';
      forall j | |stem| < j < |name|
        ensures name[j] != '.'
      {
        assert name[j] == ext[j - |stem| - 1];
      }
    }
    assert name[..|stem|] == stem;
  }

  // ---------------------------------------------------------------------
  // _clean_filename_token and extract_filename_metadata
  // ---------------------------------------------------------------------

  predicate IsUnderscore(c: char) { c == '_' }

  /** `_clean_filename_token`: underscores read as spaces, and the words
      of the result joined by single spaces. */
  function CleanFilenameToken(token: string): (r: string)
    ensures r == Join(Words(ReplaceWhere(token, IsUnderscore, ' ')), " ")
  {
    CollapseSpaces(ReplaceWhere(token, IsUnderscore, ' '))
  }

  /** A metadata field as a clean file name spells it: single-spaced
      words with no underscore, hyphen or slash. */
  predicate IsFieldText(t: string) {
    t != "" && SingleSpaced(t) && '_' !in t && '-' !in t && '/' !in t
  }

  /** Cleaning a clean field gives it back. */
  lemma CleanFilenameTokenNoop(t: string)
    requires SingleSpaced(t) && '_' !in t
    ensures CleanFilenameToken(t) == t
  {
    assert ReplaceWhere(t, IsUnderscore, ' ') == t;
    CollapseSpacesNoop(t);
  }

  datatype Metadata = Metadata(first: string, last: string, role: string, company: string)

  const NoMetadata := Metadata("", "", "", "")

  /** `[p for p in parts if p.strip()]` */
  function NonBlank(parts: seq<string>): (r: seq<string>)
    ensures forall k :: 0 <= k < |r| ==> !IsBlank(r[k]) && r[k] in parts
    ensures (forall k :: 0 <= k < |parts| ==> !IsBlank(parts[k])) ==> r == parts
  {
    if |parts| == 0 then []
    else
      var rest := NonBlank(parts[1..]);
      assert parts == [parts[0]] + parts[1..];
      if IsBlank(parts[0]) then rest else [parts[0]] + rest
  }

  /** `[_clean_filename_token(p) for p in parts]`.
      It exists to give callers' quantifiers a term to trigger on. */
  function CleanAll(parts: seq<string>): (r: seq<string>)
    ensures |r| == |parts|
    ensures forall k :: 0 <= k < |r| ==> r[k] == CleanFilenameToken(parts[k])
  {
    seq(|parts|, k requires 0 <= k < |parts| => CleanFilenameToken(parts[k]))
  }

  /** The role: the cleaned, non-empty middle parts joined by spaces. */
  function RoleOf(parts: seq<string>): string {
    Join(NonEmpty(CleanAll(parts)), " ")
  }

  /** The non-blank hyphen-separated parts of a path's stem. */
  function PathParts(path: string): seq<string> {
    NonBlank(SplitOn(Stem(path), "-"))
  }

  /** The metadata the parts spell: first name, last name, role and
      company; with exactly three parts the third is the role; with more,
      the parts between the second and the last make up the role. */
  function MetadataOf(parts: seq<string>): (m: Metadata)
    ensures parts == [] ==> m == NoMetadata
    ensures m.company != "" ==> |parts| >= 4
    ensures m.role != "" ==> |parts| >= 3
    ensures m.last != "" ==> |parts| >= 2
  {
    if |parts| == 0 then NoMetadata
    else
      var first := CleanFilenameToken(parts[0]);
      var last := if |parts| >= 2 then CleanFilenameToken(parts[1]) else "";
      var role :=
        if |parts| >= 4 then RoleOf(parts[2..|parts| - 1])
        else if |parts| == 3 then RoleOf(parts[2..])
        else "";
      var company := if |parts| >= 4 then CleanFilenameToken(parts[|parts| - 1]) else "";
      Metadata(first, last, role, company)
  }

  /** `extract_filename_metadata`; a stem without words gives no metadata. */
  function ExtractFilenameMetadata(path: string): (m: Metadata)
    ensures Words(Stem(path)) == [] ==> m == NoMetadata
  {
    assert Words(Stem(path)) == [] ==> PathParts(path) == [] by {
      if Words(Stem(path)) == [] {
        NoWordsNoPart(Stem(path));
      }
    }
    MetadataOf(PathParts(path))
  }

  /** A stem without words has no non-blank hyphen part. */
  lemma NoWordsNoPart(stem: string)
    requires Words(stem) == []
    ensures NonBlank(SplitOn(stem, "-")) == []
  {
    TokensEmpty(stem, IsSpace);
    BlankIffAllSpace(stem);
    var parts := SplitOn(stem, "-");
    forall k | 0 <= k < |parts|
      ensures IsBlank(parts[k])
    {
      SplitOnAllSpace(stem, k);
    }
    NonBlankOfBlanks(parts);
  }

  lemma {:induction false} SplitOnAllSpace(s: string, k: nat)
    requires forall i :: 0 <= i < |s| ==> IsSpace(s[i])
    requires k < |SplitOn(s, "-")|
    ensures IsBlank(SplitOn(s, "-")[k])
    decreases |s|
  {
    var parts := SplitOn(s, "-");
    if |s| < 1 {
      BlankIffAllSpace(s);
    } else {
      assert s[..1] != "-" by {
        assert s[..1][0] == s[0];
      }
      var rest := SplitOn(s[1..], "-");
      if k == 0 {
        SplitOnAllSpace(s[1..], 0);
        BlankIffAllSpace(rest[0]);
        BlankIffAllSpace([s[0]] + rest[0]);
      } else {
        SplitOnAllSpace(s[1..], k);
      }
    }
  }

  lemma {:induction false} NonBlankOfBlanks(parts: seq<string>)
    requires forall k :: 0 <= k < |parts| ==> IsBlank(parts[k])
    ensures NonBlank(parts) == []
  {
    if |parts| > 0 {
      NonBlankOfBlanks(parts[1..]);
    }
  }

  lemma FieldsAreParts(xs: seq<string>)
    requires forall k :: 0 <= k < |xs| ==> IsFieldText(xs[k])
    ensures NonBlank(xs) == xs
    ensures CleanAll(xs) == xs
    ensures NonEmpty(xs) == xs
  {
    forall k | 0 <= k < |xs|
      ensures !IsBlank(xs[k]) && CleanFilenameToken(xs[k]) == xs[k]
    {
      StripNoop(xs[k]);
      CleanFilenameTokenNoop(xs[k]);
    }
    NonEmptyKeeps(xs);
  }

  /** The parts of a file name built from clean fields are the fields. */
  lemma PartsOfFileName(fields: seq<string>, ext: string)
    requires |fields| >= 1
    requires forall k :: 0 <= k < |fields| ==> IsFieldText(fields[k])
    requires ext != "" && '/' !in ext && '.' !in ext
    ensures PathParts(Join(fields, "-") + "." + ext) == fields
  {
    var stem := Join(fields, "-");
    JoinNoChar(fields, "-", '/');
    JoinNonEmpty(fields, "-");
    StemOfName(stem, ext);
    SplitOnJoin(fields, '-');
    FieldsAreParts(fields);
  }

  lemma {:induction false} JoinNoChar(xs: seq<string>, sep: string, c: char)
    requires c !in sep
    requires forall k :: 0 <= k < |xs| ==> c !in xs[k]
    ensures c !in Join(xs, sep)
  {
    if |xs| > 1 {
      JoinNoChar(xs[1..], sep, c);
    }
  }

  lemma JoinNonEmpty(xs: seq<string>, sep: string)
    requires |xs| >= 1 && xs[0] != ""
    ensures Join(xs, sep) != ""
  {
  }

  /** `first-last-role…-company.ext` reads back as those fields, the role
      parts joined by spaces. */
  lemma MetadataRoundTrip(first: string, last: string, roleParts: seq<string>, company: string, ext: string)
    requires IsFieldText(first) && IsFieldText(last) && IsFieldText(company)
    requires |roleParts| >= 1 && forall k :: 0 <= k < |roleParts| ==> IsFieldText(roleParts[k])
    requires ext != "" && '/' !in ext && '.' !in ext
    ensures ExtractFilenameMetadata(Join([first, last] + roleParts + [company], "-") + "." + ext)
         == Metadata(first, last, Join(roleParts, " "), company)
  {
    var fields := [first, last] + roleParts + [company];
    FieldsOfName(first, last, roleParts, company);
    PartsOfFileName(fields, ext);
    MetadataOfFields(fields, roleParts);
  }

  lemma FieldsOfName(first: string, last: string, roleParts: seq<string>, company: string)
    requires IsFieldText(first) && IsFieldText(last) && IsFieldText(company)
    requires |roleParts| >= 1 && forall k :: 0 <= k < |roleParts| ==> IsFieldText(roleParts[k])
    ensures var fields := [first, last] + roleParts + [company];
      (forall k :: 0 <= k < |fields| ==> IsFieldText(fields[k])) && fields[2..|fields| - 1] == roleParts
  {
    var fields := [first, last] + roleParts + [company];
    forall k | 0 <= k < |fields|
      ensures IsFieldText(fields[k])
    {
      if 2 <= k < |fields| - 1 {
        assert fields[k] == roleParts[k - 2];
      }
    }
    assert fields[2..|fields| - 1] == roleParts;
  }

  lemma MetadataOfFields(fields: seq<string>, roleParts: seq<string>)
    requires |fields| >= 4 && fields[2..|fields| - 1] == roleParts
    requires IsFieldText(fields[0]) && IsFieldText(fields[1]) && IsFieldText(fields[|fields| - 1])
    requires forall k :: 0 <= k < |roleParts| ==> IsFieldText(roleParts[k])
    ensures MetadataOf(fields) == Metadata(fields[0], fields[1], Join(roleParts, " "), fields[|fields| - 1])
  {
    CleanFilenameTokenNoop(fields[0]);
    CleanFilenameTokenNoop(fields[1]);
    CleanFilenameTokenNoop(fields[|fields| - 1]);
    RoleOfFields(roleParts);
  }

  lemma RoleOfFields(parts: seq<string>)
    requires forall k :: 0 <= k < |parts| ==> IsFieldText(parts[k])
    ensures RoleOf(parts) == Join(parts, " ")
  {
    FieldsAreParts(parts);
  }

  /** `first-last-role.ext` has no company. */
  lemma MetadataRoundTripNoCompany(first: string, last: string, role: string, ext: string)
    requires IsFieldText(first) && IsFieldText(last) && IsFieldText(role)
    requires ext != "" && '/' !in ext && '.' !in ext
    ensures ExtractFilenameMetadata(Join([first, last, role], "-") + "." + ext)
         == Metadata(first, last, role, "")
  {
    var fields := [first, last, role];
    PartsOfFileName(fields, ext);
    MetadataOfThree(fields);
  }

  /** Three clean fields are the first name, the last name and the role. */
  lemma MetadataOfThree(fields: seq<string>)
    requires |fields| == 3
    requires forall k :: 0 <= k < 3 ==> IsFieldText(fields[k])
    ensures MetadataOf(fields) == Metadata(fields[0], fields[1], fields[2], "")
  {
    CleanFilenameTokenNoop(fields[0]);
    CleanFilenameTokenNoop(fields[1]);
    assert fields[2..] == [fields[2]];
    RoleOfFields([fields[2]]);
  }

  // ---------------------------------------------------------------------
  // _split_name
  // ---------------------------------------------------------------------

  /** `_split_name`: the first and the last word of a name (`""` when
      missing). Newlines are already word breaks to `split()`, so the
      source's `replace('\n', ' ')` changes nothing. */
  function SplitName(name: string): (r: (string, string))
    ensures r.0 == "" || IsWord(r.0)
    ensures r.1 == "" || IsWord(r.1)
    ensures r.1 != "" ==> r.0 != ""
  {
    var parts := Words(name);
    if |parts| == 0 then ("", "")
    else if |parts| == 1 then (parts[0], "")
    else (parts[0], parts[|parts| - 1])
  }

  /** Words written out with single spaces split back into the first and
      the last of them. */
  lemma SplitNameRoundTrip(ws: seq<string>)
    requires forall k :: 0 <= k < |ws| ==> IsWord(ws[k])
    ensures SplitName(Join(ws, " ")) ==
      if |ws| == 0 then ("", "") else if |ws| == 1 then (ws[0], "") else (ws[0], ws[|ws| - 1])
  {
    assert Words(Join(ws, " ")) == ws by {
      WordsOfJoin(ws);
    }
  }

  // ---------------------------------------------------------------------
  // sanitize_component and _derive_output_stem
  // ---------------------------------------------------------------------

  /** The characters `sanitize_component` turns into spaces. */
  predicate IsComponentForbidden(c: char) {
    c == '<' || c == '>' || c == ':' || c == '"' || c == '/' || c == '\\' || c == '|' || c == '?' || c == '*' || c == '_'
  }

  predicate IsHyphen(c: char) { c == '-' }

  /** The characters the final `strip('-. ')` removes. */
  predicate IsComponentEdge(c: char) {
    c == '-' || c == '.' || c == ' '
  }

  /** What a hyphen-mode component looks like: no whitespace, no forbidden
      character, no doubled hyphen, and no hyphen, dot or space at either end. */
  predicate IsSafeComponent(s: string) {
    (forall i :: 0 <= i < |s| ==> !IsSpace(s[i]) && !IsComponentForbidden(s[i])) &&
    (forall i :: 0 <= i < |s| - 1 ==> !(s[i] == '-' && s[i + 1] == '-')) &&
    (s == "" || (!IsComponentEdge(s[0]) && !IsComponentEdge(s[|s| - 1])))
  }

  /** `sanitize_component(text, replace_space_with_hyphen)`. */
  function SanitizeComponent(text: string, hyphens: bool): (r: string)
    ensures hyphens ==> IsSafeComponent(r)
    ensures forall i :: 0 <= i < |r| ==> !IsComponentForbidden(r[i])
  {
    var t := Strip(text);
    if t == "" then ""
    else
      var single := ReplaceRuns(t, IsSpace, " ");
      var safe := ReplaceWhere(single, IsComponentForbidden, ' ');
      var spaced := Strip(ReplaceRuns(safe, IsSpace, if hyphens then "-" else " "));
      var dashed := ReplaceRuns(spaced, IsHyphen, "-");
      var r := TrimEnd(TrimStart(dashed, IsComponentEdge), IsComponentEdge);
      SanitizeComponentShape(safe, hyphens, spaced, dashed, r);
      r
  }

  /** A character a component may keep: never a forbidden one, and in
      hyphen mode never whitespace. */
  predicate ComponentChar(hyphens: bool, c: char) {
    !IsComponentForbidden(c) && (hyphens ==> !IsSpace(c))
  }

  lemma SanitizeComponentShape(safe: string, hyphens: bool, spaced: string, dashed: string, r: string)
    requires forall i :: 0 <= i < |safe| ==> !IsComponentForbidden(safe[i])
    requires spaced == Strip(ReplaceRuns(safe, IsSpace, if hyphens then "-" else " "))
    requires dashed == ReplaceRuns(spaced, IsHyphen, "-")
    requires r == TrimEnd(TrimStart(dashed, IsComponentEdge), IsComponentEdge)
    ensures hyphens ==> IsSafeComponent(r)
    ensures forall i :: 0 <= i < |r| ==> !IsComponentForbidden(r[i])
  {
    SpacedChars(safe, hyphens, spaced);
    DashedChars(spaced, hyphens, dashed);
    ReplaceRunsNoAdjacent(spaced, IsHyphen, '-');
    TrimmedShape(dashed, hyphens, r);
  }

  lemma SpacedChars(safe: string, hyphens: bool, spaced: string)
    requires forall i :: 0 <= i < |safe| ==> !IsComponentForbidden(safe[i])
    requires spaced == Strip(ReplaceRuns(safe, IsSpace, if hyphens then "-" else " "))
    ensures forall i :: 0 <= i < |spaced| ==> ComponentChar(hyphens, spaced[i])
  {
    if hyphens {
      HyphenSpacedChars(safe);
    } else {
      BlankSpacedChars(safe);
    }
  }

  /** With `hyphens`, the whitespace runs become `-` and no space is left. */
  lemma HyphenSpacedChars(safe: string)
    requires forall i :: 0 <= i < |safe| ==> !IsComponentForbidden(safe[i])
    ensures forall i :: 0 <= i < |Strip(ReplaceRuns(safe, IsSpace, "-"))| ==>
      IsHyphenedAllowed(Strip(ReplaceRuns(safe, IsSpace, "-"))[i])
  {
    assert IsHyphenedAllowed("-"[0]);
    ReplaceRunsKeeps(safe, IsSpace, "-", IsHyphenedAllowed);
    StripKeeps(ReplaceRuns(safe, IsSpace, "-"), IsHyphenedAllowed);
  }

  /** Without `hyphens`, the whitespace runs become one blank. */
  lemma BlankSpacedChars(safe: string)
    requires forall i :: 0 <= i < |safe| ==> !IsComponentForbidden(safe[i])
    ensures forall i :: 0 <= i < |Strip(ReplaceRuns(safe, IsSpace, " "))| ==>
      IsComponentAllowed(Strip(ReplaceRuns(safe, IsSpace, " "))[i])
  {
    assert IsComponentAllowed(" "[0]);
    ReplaceRunsKeepsAll(safe, IsSpace, " ", IsComponentAllowed);
    StripKeeps(ReplaceRuns(safe, IsSpace, " "), IsComponentAllowed);
  }

  /** A property of every character survives stripping. */
  lemma StripKeeps(s: string, q: char -> bool)
    requires forall i :: 0 <= i < |s| ==> q(s[i])
    ensures forall i :: 0 <= i < |Strip(s)| ==> q(Strip(s)[i])
  {
    var a := TrimmedEnds(s, IsSpace);
    SliceKeeps(s, a, Strip(s), q);
  }

  predicate IsComponentAllowed(c: char) { !IsComponentForbidden(c) }

  predicate IsHyphenedAllowed(c: char) { !IsComponentForbidden(c) && !IsSpace(c) }

  lemma DashedChars(spaced: string, hyphens: bool, dashed: string)
    requires forall i :: 0 <= i < |spaced| ==> ComponentChar(hyphens, spaced[i])
    requires dashed == ReplaceRuns(spaced, IsHyphen, "-")
    ensures forall i :: 0 <= i < |dashed| ==> ComponentChar(hyphens, dashed[i])
  {
    forall i | 0 <= i < |dashed|
      ensures ComponentChar(hyphens, dashed[i])
    {
      ReplaceRunsChars(spaced, IsHyphen, "-", dashed[i]);
    }
  }

  lemma TrimmedShape(dashed: string, hyphens: bool, r: string)
    requires forall i :: 0 <= i < |dashed| ==> ComponentChar(hyphens, dashed[i])
    requires forall i :: 0 <= i < |dashed| - 1 ==> !(IsHyphen(dashed[i]) && IsHyphen(dashed[i + 1]))
    requires r == TrimEnd(TrimStart(dashed, IsComponentEdge), IsComponentEdge)
    ensures hyphens ==> IsSafeComponent(r)
    ensures forall i :: 0 <= i < |r| ==> !IsComponentForbidden(r[i])
  {
    var a := TrimmedEnds(dashed, IsComponentEdge);
    forall i | 0 <= i < |r|
      ensures ComponentChar(hyphens, r[i])
    {
      assert r[i] == dashed[a + i];
    }
    SliceKeepsNoAdjacent(dashed, a, r, IsHyphen);
  }

  /** Trimming both ends leaves a slice of the input whose ends fail `p`. */
  lemma TrimmedEnds(s: string, p: char -> bool) returns (a: nat)
    ensures var r := TrimEnd(TrimStart(s, p), p);
      a + |r| <= |s| && r == s[a..a + |r|]
    ensures var r := TrimEnd(TrimStart(s, p), p);
      r == "" || (!p(r[0]) && !p(r[|r| - 1]))
  {
    a := Span(s, p);
    var t := s[a..];
    var r := TrimEnd(t, p);
    assert r == s[a..a + |r|];
  }

  /** A property of every character survives taking a slice. */
  lemma SliceKeeps(s: string, a: nat, r: string, p: char -> bool)
    requires a + |r| <= |s| && r == s[a..a + |r|]
    requires forall i :: 0 <= i < |s| ==> p(s[i])
    ensures forall i :: 0 <= i < |r| ==> p(r[i])
  {
    forall i | 0 <= i < |r|
      ensures p(r[i])
    {
      assert r[i] == s[a + i];
    }
  }

  /** Having neither of two properties survives taking a slice. */
  lemma SliceKeepsNeither(s: string, a: nat, r: string, q: char -> bool, p: char -> bool)
    requires a + |r| <= |s| && r == s[a..a + |r|]
    requires forall i :: 0 <= i < |s| ==> !q(s[i]) && !p(s[i])
    ensures forall i :: 0 <= i < |r| ==> !q(r[i]) && !p(r[i])
  {
    forall i | 0 <= i < |r|
      ensures !q(r[i]) && !p(r[i])
    {
      assert r[i] == s[a + i];
    }
  }

  /** No two adjacent characters satisfying `q` survives taking a slice. */
  lemma SliceKeepsNoAdjacent(s: string, a: nat, r: string, q: char -> bool)
    requires a + |r| <= |s| && r == s[a..a + |r|]
    requires forall i :: 0 <= i < |s| - 1 ==> !(q(s[i]) && q(s[i + 1]))
    ensures forall i :: 0 <= i < |r| - 1 ==> !(q(r[i]) && q(r[i + 1]))
  {
    forall i | 0 <= i < |r| - 1
      ensures !(q(r[i]) && q(r[i + 1]))
    {
      assert r[i] == s[a + i] && r[i + 1] == s[a + i + 1];
    }
  }

  /** A safe component passes through the sanitiser unchanged. */
  lemma SanitizeComponentFixedPoint(s: string)
    requires IsSafeComponent(s)
    ensures SanitizeComponent(s, true) == s
  {
    if s != "" {
      StripNoop(s);
      ReplaceRunsNoop(s, IsSpace, " ");
      assert ReplaceWhere(s, IsComponentForbidden, ' ') == s;
      ReplaceRunsNoop(s, IsSpace, "-");
      ReplaceRunsIsolated(s, IsHyphen, '-');
      SpanNone(s, IsComponentEdge);
      BackSpanNone(s, IsComponentEdge);
    }
  }

  /** Sanitising twice is sanitising once. */
  lemma SanitizeComponentIdempotent(text: string)
    ensures SanitizeComponent(SanitizeComponent(text, true), true) == SanitizeComponent(text, true)
  {
    SanitizeComponentFixedPoint(SanitizeComponent(text, true));
  }

  /** Safe, non-empty components joined by hyphens form a safe component. */
  lemma {:induction false} JoinSafeComponents(cs: seq<string>)
    requires forall k :: 0 <= k < |cs| ==> cs[k] != "" && IsSafeComponent(cs[k])
    ensures IsSafeComponent(Join(cs, "-"))
    ensures |cs| > 0 ==> Join(cs, "-") != ""
  {
    if |cs| > 1 {
      JoinSafeComponents(cs[1..]);
      JoinTwoSafe(cs[0], Join(cs[1..], "-"));
    }
  }

  lemma JoinTwoSafe(x: string, y: string)
    requires x != "" && IsSafeComponent(x)
    requires y != "" && IsSafeComponent(y)
    ensures IsSafeComponent(x + "-" + y)
  {
    var s := x + "-" + y;
    forall i | 0 <= i < |s| - 1
      ensures !(s[i] == '-' && s[i + 1] == '-')
    {
      if i < |x| - 1 {
        assert s[i] == x[i] && s[i + 1] == x[i + 1];
      } else if i == |x| - 1 {
        assert s[i] == x[|x| - 1];
      } else if i == |x| {
        assert s[i + 1] == y[0];
      } else {
        assert s[i] == y[i - |x| - 1] && s[i + 1] == y[i - |x|];
      }
    }
    forall i | 0 <= i < |s|
      ensures !IsSpace(s[i]) && !IsComponentForbidden(s[i])
    {
      if i < |x| {
        assert s[i] == x[i];
      } else if i > |x| {
        assert s[i] == y[i - |x| - 1];
      }
    }
    assert s[|s| - 1] == y[|y| - 1];
  }

  /** `_derive_output_stem`: the sanitised name, role and company joined
      by hyphens, each taken from the parsed résumé when present and from
      the file-name metadata otherwise; with none of them, the sanitised
      fallback, or the fallback itself when that sanitises to nothing. */
  function DeriveOutputStem(name: string, title: string, company: string, meta: Metadata, fallback: string): (r: string)
    ensures r == "" <==> Components(name, title, company, meta) == [] && fallback == ""
    ensures Components(name, title, company, meta) != [] ==>
      IsSafeComponent(r) && SanitizeComponent(r, true) == r
  {
    var components := Components(name, title, company, meta);
    if components != [] then
      JoinSafeComponents(components);
      SanitizeComponentFixedPoint(Join(components, "-"));
      Join(components, "-")
    else
      var safe := SanitizeComponent(fallback, true);
      assert fallback == "" ==> safe == "";
      if safe != "" then safe else fallback
  }

  /** The mandatory `name-role-companyname` format: when the résumé's own
      name, title and company each sanitise to something, the stem is the
      three sanitised values joined by hyphens, whatever the metadata and
      the fallback are. */
  lemma StemFormat(name: string, title: string, company: string, meta: Metadata, fallback: string)
    requires SanitizeComponent(Strip(name), true) != ""
    requires SanitizeComponent(Strip(title), true) != ""
    requires SanitizeComponent(Strip(company), true) != ""
    ensures DeriveOutputStem(name, title, company, meta, fallback)
         == SanitizeComponent(Strip(name), true) + "-" + SanitizeComponent(Strip(title), true)
            + "-" + SanitizeComponent(Strip(company), true)
  {
    var a := SanitizeComponent(Strip(name), true);
    var b := SanitizeComponent(Strip(title), true);
    var c := SanitizeComponent(Strip(company), true);
    assert Strip(name) != "" && Strip(title) != "" && Strip(company) != "" by {
      assert SanitizeComponent("", true) == "";
    }
    assert Components(name, title, company, meta) == NonEmpty([a, b, c]);
    NonEmptyThree(a, b, c);
    JoinThree(a, b, c, "-");
  }

  lemma SafeNonEmptyThree(a: string, b: string, c: string)
    requires IsSafeComponent(a) && IsSafeComponent(b) && IsSafeComponent(c)
    ensures forall k :: 0 <= k < |NonEmpty([a, b, c])| ==>
      NonEmpty([a, b, c])[k] != "" && IsSafeComponent(NonEmpty([a, b, c])[k])
  {
    NonEmptyKeeps([a, b, c]);
    var r := NonEmpty([a, b, c]);
    forall k | 0 <= k < |r|
      ensures r[k] != "" && IsSafeComponent(r[k])
    {
      assert r[k] in [a, b, c];
    }
  }

  lemma NonEmptyThree(a: string, b: string, c: string)
    requires a != "" && b != "" && c != ""
    ensures NonEmpty([a, b, c]) == [a, b, c]
  {
    NonEmptyKeeps([a, b, c]);
  }

  /** The résumé's values come first: where the résumé has a name, a title
      or a company, the metadata's name parts, role or company make no
      difference to the stem. */
  lemma ResumeValuesPreferred(name: string, title: string, company: string, m1: Metadata, m2: Metadata, fallback: string)
    requires Strip(name) != "" || (m1.first == m2.first && m1.last == m2.last)
    requires Strip(title) != "" || m1.role == m2.role
    requires Strip(company) != "" || m1.company == m2.company
    ensures DeriveOutputStem(name, title, company, m1, fallback) == DeriveOutputStem(name, title, company, m2, fallback)
  {
    assert Components(name, title, company, m1) == Components(name, title, company, m2);
  }

  /** The value a stem component is made of: the résumé's own, else the metadata's. */
  function Prefer(own: string, fromMeta: string): string {
    var v := Strip(own);
    if v != "" then v else Strip(fromMeta)
  }

  /** The non-empty sanitised components, in the order name, role, company. */
  function Components(name: string, title: string, company: string, meta: Metadata): (cs: seq<string>)
    ensures forall k :: 0 <= k < |cs| ==> cs[k] != "" && IsSafeComponent(cs[k])
  {
    var nameValue :=
      if Strip(name) != "" then Strip(name)
      else Join(NonEmpty([Strip(meta.first), Strip(meta.last)]), " ");
    var a := SanitizeComponent(nameValue, true);
    var b := SanitizeComponent(Prefer(title, meta.role), true);
    var c := SanitizeComponent(Prefer(company, meta.company), true);
    SafeNonEmptyThree(a, b, c);
    NonEmpty([a, b, c])
  }

  // ---------------------------------------------------------------------
  // sanitize_filename (main.py)
  // ---------------------------------------------------------------------

  /** The characters the first substitution turns into `_`: `<>:"/\|?*`
      and the control characters `\x00`–`\x1f`. */
  predicate IsFilenameForbidden(c: char) {
    c == '<' || c == '>' || c == ':' || c == '"' || c == '/' || c == '\\' || c == '|' || c == '?' || c == '*' || c < '\U{20}'
  }

  /** The characters the final `strip("._ ")` removes. */
  predicate IsFilenameEdge(c: char) {
    c == '.' || c == '_' || c == ' '
  }

  const DefaultStem := "resume"

  /** The stem before the suffix check: forbidden runs and whitespace runs
      become `_`, the ends are trimmed of `._ `, and nothing left means
      `resume`. */
  function FilenameStem(filename: string): (c: string)
    ensures c != ""
    ensures forall i :: 0 <= i < |c| ==> !IsSpace(c[i]) && !IsFilenameForbidden(c[i])
    ensures !IsFilenameEdge(c[0]) && !IsFilenameEdge(c[|c| - 1])
  {
    var a := ReplaceRuns(Strip(filename), IsFilenameForbidden, "_");
    var b := ReplaceRuns(a, IsSpace, "_");
    var c := TrimEnd(TrimStart(b, IsFilenameEdge), IsFilenameEdge);
    FilenameStemShape(filename, a, b, c);
    if c == "" then DefaultStemShape(); DefaultStem else c
  }

  /** The fallback stem is made of safe characters and has no edge
      characters at its ends. */
  lemma DefaultStemShape()
    ensures forall i :: 0 <= i < |DefaultStem| ==> !IsSpace(DefaultStem[i]) && !IsFilenameForbidden(DefaultStem[i])
    ensures !IsFilenameEdge(DefaultStem[0]) && !IsFilenameEdge(DefaultStem[|DefaultStem| - 1])
  {
    forall i | 0 <= i < |DefaultStem|
      ensures !IsSpace(DefaultStem[i]) && !IsFilenameForbidden(DefaultStem[i])
    {
      assert 'a' <= DefaultStem[i] <= 'z';
    }
  }

  predicate IsFilenameSafe(c: char) {
    !IsSpace(c) && !IsFilenameForbidden(c)
  }

  lemma FilenameStemShape(filename: string, a: string, b: string, c: string)
    requires a == ReplaceRuns(Strip(filename), IsFilenameForbidden, "_")
    requires b == ReplaceRuns(a, IsSpace, "_")
    requires c == TrimEnd(TrimStart(b, IsFilenameEdge), IsFilenameEdge)
    ensures forall i :: 0 <= i < |c| ==> !IsSpace(c[i]) && !IsFilenameForbidden(c[i])
    ensures c == "" || (!IsFilenameEdge(c[0]) && !IsFilenameEdge(c[|c| - 1]))
  {
    assert forall i :: 0 <= i < |b| ==> !IsSpace(b[i]) && !IsFilenameForbidden(b[i]) by {
      UnderscoreSafe();
      ReplaceTwiceKeeps(Strip(filename), IsFilenameForbidden, IsSpace, '_');
    }
    TrimKeepsNeither(b, IsFilenameEdge, IsSpace, IsFilenameForbidden);
  }

  lemma UnderscoreSafe()
    ensures !IsFilenameForbidden('_') && !IsSpace('_')
  {
  }

  /** Trimming the ends of `e`-characters keeps a string free of `q`- and
      `p`-characters, and leaves no `e`-character at either end. */
  lemma TrimKeepsNeither(s: string, e: char -> bool, q: char -> bool, p: char -> bool)
    requires forall i :: 0 <= i < |s| ==> !q(s[i]) && !p(s[i])
    ensures var c := TrimEnd(TrimStart(s, e), e);
      (forall i :: 0 <= i < |c| ==> !q(c[i]) && !p(c[i]))
      && (c == "" || (!e(c[0]) && !e(c[|c| - 1])))
  {
    var k := TrimmedEnds(s, e);
    SliceKeepsNeither(s, k, TrimEnd(TrimStart(s, e), e), q, p);
  }

  /** Replacing the runs of `p` and then the runs of `q` by a character
      that is neither leaves no character of either kind. */
  lemma ReplaceTwiceKeeps(x: string, p: char -> bool, q: char -> bool, u: char)
    requires !p(u) && !q(u)
    ensures var b := ReplaceRuns(ReplaceRuns(x, p, [u]), q, [u]);
      forall i :: 0 <= i < |b| ==> !q(b[i]) && !p(b[i])
  {
    var a := ReplaceRuns(x, p, [u]);
    var b := ReplaceRuns(a, q, [u]);
    forall i | 0 <= i < |b|
      ensures !q(b[i]) && !p(b[i])
    {
      ReplaceRunsChars(a, q, [u], b[i]);
      if b[i] != u {
        ReplaceRunsChars(x, p, [u], b[i]);
      }
    }
  }

  /** The suffix check: `.pdf` is appended exactly when missing. */
  lemma AppendPdf(c: string)
    ensures EndsWith(Lower(c + ".pdf"), ".pdf")
    ensures StartsWith(c + ".pdf", c)
  {
    LowerAppend(c, ".pdf");
    assert Lower(".pdf") == ".pdf";
    assert (c + ".pdf")[..|c|] == c;
  }

  /** `sanitize_filename`: the cleaned stem, with `.pdf` appended unless
      it already ends that way in any letter case. */
  function SanitizeFilename(filename: string): (r: string)
    ensures EndsWith(Lower(r), ".pdf")
    ensures StartsWith(r, FilenameStem(filename))
    ensures r == FilenameStem(filename) <==> EndsWith(Lower(FilenameStem(filename)), ".pdf")
    ensures r == FilenameStem(filename) || r == FilenameStem(filename) + ".pdf"
  {
    var c := FilenameStem(filename);
    if EndsWith(Lower(c), ".pdf") then c
    else
      AppendPdf(c);
      c + ".pdf"
  }

  /** The name has no whitespace, forbidden or control character, and
      neither starts nor ends with `.`, `_` or a space. */
  lemma SanitizeFilenameChars(filename: string)
    ensures var r := SanitizeFilename(filename);
      forall i :: 0 <= i < |r| ==> IsFilenameSafe(r[i])
    ensures var r := SanitizeFilename(filename);
      !IsFilenameEdge(r[0]) && !IsFilenameEdge(r[|r| - 1])
  {
    var c := FilenameStem(filename);
    var r := SanitizeFilename(filename);
    assert forall i :: 0 <= i < |c| ==> IsFilenameSafe(c[i]);
    if r != c {
      assert r == c + ".pdf";
      SuffixSafe();
      SafeAppend(c, ".pdf");
    }
  }

  lemma SuffixSafe()
    ensures forall j :: 0 <= j < |".pdf"| ==> IsFilenameSafe(".pdf"[j])
    ensures !IsFilenameEdge(".pdf"[3])
  {
  }

  lemma SafeAppend(a: string, b: string)
    requires |a| > 0 && |b| > 0
    requires forall i :: 0 <= i < |a| ==> IsFilenameSafe(a[i])
    requires forall i :: 0 <= i < |b| ==> IsFilenameSafe(b[i])
    ensures forall i :: 0 <= i < |a + b| ==> IsFilenameSafe((a + b)[i])
    ensures (a + b)[0] == a[0] && (a + b)[|a + b| - 1] == b[|b| - 1]
  {
  }

  /** Blank input, or input made only of forbidden characters, whitespace
      and the trimmed `._ `, names the file `resume.pdf`. */
  lemma SanitizeFilenameDefault(filename: string)
    requires forall i :: 0 <= i < |filename| ==> IsJunk(filename[i])
    ensures SanitizeFilename(filename) == "resume.pdf"
  {
    JunkStem(filename);
    DefaultName();
  }

  /** `resume` lacks the suffix, so it gets one. */
  lemma DefaultName()
    ensures !EndsWith(Lower(DefaultStem), ".pdf")
    ensures DefaultStem + ".pdf" == "resume.pdf"
  {
    var l := Lower(DefaultStem);
    assert l[2] == LowerChar('s') == 's';
    assert l[|l| - 4..][0] == l[2];
  }

  lemma JunkStem(filename: string)
    requires forall i :: 0 <= i < |filename| ==> IsJunk(filename[i])
    ensures FilenameStem(filename) == DefaultStem
  {
    var s := Strip(filename);
    var a := ReplaceRuns(s, IsFilenameForbidden, "_");
    var b := ReplaceRuns(a, IsSpace, "_");
    JunkEdges(filename, s, a, b);
    SpanAll(b, IsFilenameEdge);
  }

  lemma JunkEdges(filename: string, s: string, a: string, b: string)
    requires forall i :: 0 <= i < |filename| ==> IsJunk(filename[i])
    requires s == Strip(filename)
    requires a == ReplaceRuns(s, IsFilenameForbidden, "_")
    requires b == ReplaceRuns(a, IsSpace, "_")
    ensures forall i :: 0 <= i < |b| ==> IsFilenameEdge(b[i])
  {
    var k := TrimmedEnds(filename, IsSpace);
    SliceKeeps(filename, k, s, IsJunk);
    forall i | 0 <= i < |b|
      ensures IsFilenameEdge(b[i])
    {
      ReplaceRunsChars(a, IsSpace, "_", b[i]);
      if b[i] != '_' {
        ReplaceRunsChars(s, IsFilenameForbidden, "_", b[i]);
      }
    }
  }

  predicate IsJunk(c: char) {
    IsFilenameForbidden(c) || IsSpace(c) || IsFilenameEdge(c)
  }

  /** A name that is already clean is its own stem. */
  lemma FilenameStemNoop(s: string)
    requires s != ""
    requires forall i :: 0 <= i < |s| ==> IsFilenameSafe(s[i])
    requires !IsFilenameEdge(s[0]) && !IsFilenameEdge(s[|s| - 1])
    ensures FilenameStem(s) == s
  {
    StripNoop(s);
    ReplaceRunsNoop(s, IsFilenameForbidden, "_");
    ReplaceRunsNoop(s, IsSpace, "_");
    SpanNone(s, IsFilenameEdge);
    BackSpanNone(s, IsFilenameEdge);
  }

  /** Sanitising a sanitised name returns it unchanged. */
  lemma SanitizeFilenameIdempotent(filename: string)
    ensures SanitizeFilename(SanitizeFilename(filename)) == SanitizeFilename(filename)
  {
    var r := SanitizeFilename(filename);
    SanitizeFilenameChars(filename);
    FilenameStemNoop(r);
  }
}

=== FILE: layout.dfy ===
/** The draw-item list of the built-in PDF renderer: the parsed résumé
    becomes a flat list of lines, paragraphs, key/value paragraphs,
    experience header lines, rules and vertical spacers, in reading
    order. Every text an item carries has been passed through the
    code-page conversion already. */
module Layout {
  import opened Text
  import opened Normalize
  import opened PdfText
  import opened Dedup
  import opened Contacts
  import opened Parser

  datatype Align = Left | Center | Right

  datatype DrawItem =
    | LineItem(text: string, size: real, bold: bool, align: Align, indent: real, gapAfter: real)
    | ParaItem(text: string, size: real, bold: bool, indent: real, bullet: bool, gapAfter: real)
    | ExpMeta(left: string, right: string, size: real, gapAfter: real)
    | KvPara(key: string, value: string, size: real, indent: real, gapAfter: real)
    | KvBlock(key: string, value: string, size: real, indent: real, valueIndent: real, gapAfter: real)
    | Spacer(height: real)
    | Rule(gapAfter: real)

  function MaxReal(a: real, b: real): real { if a >= b then a else b }

  /** `line_item`, `para_item`, `expmeta_item`, `kv_para_item`: the texts
      are made safe for the code page when the item is built. */
  function Line(text: string, size: real, bold: bool, align: Align, indent: real, gap: real): DrawItem {
    LineItem(SafeText(text), size, bold, align, indent, gap)
  }

  function Para(text: string, size: real, bold: bool, indent: real, bullet: bool, gap: real): DrawItem {
    ParaItem(SafeText(text), size, bold, indent, bullet, gap)
  }

  function Meta(left: string, right: string, size: real, gap: real): DrawItem {
    ExpMeta(SafeText(left), SafeText(right), size, gap)
  }

  function KeyValue(caption: string, value: string, size: real, indent: real, gap: real): DrawItem {
    KvPara(SafeText(caption), SafeText(value), size, indent, gap)
  }

  /** Section headings are the only left-aligned plain lines. */
  predicate IsHeading(it: DrawItem) {
    it.LineItem? && it.align == Left
  }

  /** The texts of the section headings, in order. */
  function Headings(items: seq<DrawItem>): seq<string> {
    if |items| == 0 then []
    else (if IsHeading(items[0]) then [items[0].text] else []) + Headings(items[1..])
  }

  lemma {:induction false} HeadingsAppend(a: seq<DrawItem>, b: seq<DrawItem>)
    ensures Headings(a + b) == Headings(a) + Headings(b)
  {
    if |a| == 0 {
      assert a + b == b;
    } else {
      assert (a + b)[1..] == a[1..] + b;
      HeadingsAppend(a[1..], b);
    }
  }

  predicate NoAdjacentSpacers(items: seq<DrawItem>) {
    forall k :: 0 <= k < |items| - 1 ==> !(items[k].Spacer? && items[k + 1].Spacer?)
  }

  /** `add_section_heading`: whitespace above (an existing final spacer is
      raised to at least 18 points, otherwise an 18-point spacer is added,
      and nothing at the very top), the upper-cased bold title, a rule. */
  function AddSectionHeading(items: seq<DrawItem>, title: string): (r: seq<DrawItem>)
    ensures |r| >= 2
    ensures r[|r| - 2] == Line(Upper(title), 11.5, true, Left, 0.0, 2.0) && r[|r| - 1] == Rule(6.0)
    ensures items == [] ==> |r| == 2
    ensures items != [] ==> |r| >= 3 && r[|r| - 3].Spacer? && r[|r| - 3].height >= 18.0
    ensures items != [] ==> |r| - 3 >= |items| - 1 && r[..|items| - 1] == items[..|items| - 1]
    ensures items != [] && !items[|items| - 1].Spacer? ==> r[..|items|] == items && |r| == |items| + 3
    ensures items != [] && items[|items| - 1].Spacer? ==> |r| == |items| + 2
  {
    var spaced :=
      if items == [] then []
      else if items[|items| - 1].Spacer? then
        items[..|items| - 1] + [Spacer(MaxReal(items[|items| - 1].height, 18.0))]
      else items + [Spacer(18.0)];
    spaced + [Line(Upper(title), 11.5, true, Left, 0.0, 2.0), Rule(6.0)]
  }

  /** A heading never puts two spacers next to each other. */
  lemma AddSectionHeadingSpacers(items: seq<DrawItem>, title: string)
    requires NoAdjacentSpacers(items)
    ensures NoAdjacentSpacers(AddSectionHeading(items, title))
  {
    var r := AddSectionHeading(items, title);
    if items != [] {
      forall k | 0 <= k < |r| - 1
        ensures !(r[k].Spacer? && r[k + 1].Spacer?)
      {
        if k < |items| - 2 {
          assert r[k] == items[k] && r[k + 1] == items[k + 1];
        } else if k == |items| - 2 {
          assert r[k] == items[k];
          if items[|items| - 1].Spacer? {
            assert !items[k].Spacer?;
          } else {
            assert r[k + 1] == items[k + 1];
          }
        }
      }
    }
  }

  /** The one heading `add_section_heading` adds. */
  lemma AddSectionHeadingHeadings(items: seq<DrawItem>, title: string)
    ensures Headings(AddSectionHeading(items, title)) == Headings(items) + [SafeText(Upper(title))]
  {
    var tail := [Line(Upper(title), 11.5, true, Left, 0.0, 2.0), Rule(6.0)];
    var r := AddSectionHeading(items, title);
    assert Headings(tail) == [SafeText(Upper(title))] by { HeadingThenRule(Upper(title)); }
    if items == [] {
      assert r == tail;
    } else {
      var init := items[..|items| - 1];
      var last := items[|items| - 1];
      var pre := if last.Spacer? then init else items;
      var sp := if last.Spacer? then Spacer(MaxReal(last.height, 18.0)) else Spacer(18.0);
      assert Headings(pre) == Headings(items) by {
        if last.Spacer? {
          assert items == init + [last];
          HeadingsAppend(init, [last]);
          NotHeadingAlone(last);
        }
      }
      assert r == pre + ([sp] + tail);
      HeadingsAppend(pre, [sp] + tail);
      HeadingsAppend([sp], tail);
      NotHeadingAlone(sp);
    }
  }

  /** A heading line followed by its rule shows the heading once. */
  lemma HeadingThenRule(text: string)
    ensures Headings([Line(text, 11.5, true, Left, 0.0, 2.0), Rule(6.0)]) == [SafeText(text)]
  {
    var xs := [Line(text, 11.5, true, Left, 0.0, 2.0), Rule(6.0)];
    assert Headings(xs[1..]) == [] by {
      assert xs[1..] == [Rule(6.0)];
      NotHeadingAlone(Rule(6.0));
    }
    assert IsHeading(xs[0]) && xs[0].text == SafeText(text);
  }

  lemma NotHeadingAlone(it: DrawItem)
    requires !IsHeading(it)
    ensures Headings([it]) == []
  {
    assert [it][1..] == [];
  }

  // ---------------------------------------------------------------------
  // The sections
  // ---------------------------------------------------------------------

  /** The centred name line; a blank name becomes a placeholder. */
  function NameItems(name: string): (r: seq<DrawItem>)
    ensures |r| == 1 && BodyOnly(r)
    ensures r[0].LineItem? && r[0].align == Center && r[0].bold && r[0].size == 22.0
    ensures Strip(name) != "" ==> r[0].text == SafeText(Strip(name))
    ensures Strip(name) == "" ==> r[0].text == SafeText("Candidate Name")
  {
    var n := Strip(name);
    [Line(if n == "" then "Candidate Name" else n, 22.0, true, Center, 0.0, 3.0)]
  }

  /** The headline: the title and the file name's role, the role dropped
      when it repeats the title in another letter case, and repeats removed. */
  function HeadlineBits(title: string, role: string): (bits: seq<string>)
    ensures forall k :: 0 <= k < |bits| ==> bits[k] != ""
    ensures |bits| <= 2
  {
    var t := Strip(title);
    var r0 := Strip(role);
    var r := if r0 != "" && t != "" && Lower(r0) == Lower(t) then "" else r0;
    var present := (if t != "" then [t] else []) + (if r != "" then [r] else []);
    DedupBy(present, Id)
  }

  function HeadlineItems(title: string, role: string): (r: seq<DrawItem>)
    ensures BodyOnly(r)
  {
    var bits := HeadlineBits(title, role);
    if bits == [] then [] else [Line(Join(bits, " | "), 11.5, true, Center, 0.0, 2.0)]
  }

  /** The labels the contact block prints for known label keys. */
  function LabelTitle(key: string): Option<string> {
    if key == "phone" then Some("Phone")
    else if key == "email" then Some("Email")
    else if key == "address" then Some("Address")
    else if key == "nationality" then Some("Nationality")
    else None
  }

  /** One item per classified contact with a non-blank value: a bold label
      and the value for the four known keys, a plain paragraph otherwise. */
  function ContactItems(entries: seq<ContactEntry>): (r: seq<DrawItem>)
    ensures |r| <= |entries|
    ensures forall k :: 0 <= k < |r| ==> r[k].KvPara? || r[k].ParaItem?
    ensures BodyOnly(r)
  {
    if |entries| == 0 then []
    else
      var e := entries[0];
      var v := Strip(e.value);
      var item :=
        if v == "" then []
        else match LabelTitle(e.labelKey)
          case Some(t) => [KeyValue(t + ": ", v, 10.0, 0.0, 1.0)]
          case None => [Para(v, 10.0, false, 0.0, false, 1.0)];
      assert BodyOnly(item);
      BodyOnlyAppend(item, ContactItems(entries[1..]));
      item + ContactItems(entries[1..])
  }

  /** A classified entry's value is stripped already, so every entry
      gets its item. */
  lemma ContactItemsCount(entries: seq<ContactEntry>)
    requires forall k :: 0 <= k < |entries| ==> entries[k].value != "" && Stripped(entries[k].value)
    ensures |ContactItems(entries)| == |entries|
  {
    if |entries| > 0 {
      StripNoop(entries[0].value);
      ContactItemsCount(entries[1..]);
    }
  }

  /** The items of one experience entry: its header line when it has a
      header or a duration, one bullet paragraph per non-empty bullet,
      then a 4-point spacer. */
  function JobItems(j: Job): (r: seq<DrawItem>)
    ensures |r| >= 1 && r[|r| - 1] == Spacer(4.0)
    ensures BodyOnly(r)
    ensures ShowsJob(j, r)
  {
    var h := JobHeader(j);
    var d := JobDuration(j);
    var meta := if HasMeta(j) then [Meta(h, d, 10.2, 2.0)] else [];
    var bullets := CleanEntries(j.bullets);
    var paras := BulletParas(bullets);
    assert BodyOnly(meta) by { MetaIsBody(h, d, 10.2, 2.0); }
    BodyOnlyAppend(meta, paras);
    BodyOnlyAppend(meta + paras, [Spacer(4.0)]);
    JobItemsShow(j, meta, paras, bullets);
    meta + paras + [Spacer(4.0)]
  }

  /** The entry shows a header line: it has a header or a duration. */
  predicate HasMeta(j: Job) {
    JobHeader(j) != "" || JobDuration(j) != ""
  }

  /** The cleaned header of an experience entry. */
  function JobHeader(j: Job): string { CleanBullet(j.header) }

  /** The cleaned duration of an experience entry, empty when it has none. */
  function JobDuration(j: Job): string {
    match j.duration
    case None => ""
    case Some(v) => CleanBullet(v)
  }

  /** `r` opens with the header and duration exactly when either is
      non-empty, then holds one bullet paragraph per cleaned bullet, in
      order, and one closing item. */
  predicate ShowsJob(j: Job, r: seq<DrawItem>) {
    var m := if HasMeta(j) then 1 else 0;
    var bullets := CleanEntries(j.bullets);
    && |r| == m + |bullets| + 1
    && (m == 1 ==> r[0].ExpMeta? && r[0].left == SafeText(JobHeader(j)) && r[0].right == SafeText(JobDuration(j)))
    && BulletsAt(r, m, bullets)
  }

  /** From offset `m` on, `r` holds one bullet paragraph per entry of
      `bullets`, showing it, in order. */
  predicate BulletsAt(r: seq<DrawItem>, m: nat, bullets: seq<string>) {
    m + |bullets| <= |r|
    && forall k :: 0 <= k < |bullets| ==>
         r[m + k].ParaItem? && r[m + k].bullet && r[m + k].text == SafeText(bullets[k])
  }

  lemma JobItemsShow(j: Job, meta: seq<DrawItem>, paras: seq<DrawItem>, bullets: seq<string>)
    requires meta == if HasMeta(j) then [Meta(JobHeader(j), JobDuration(j), 10.2, 2.0)] else []
    requires bullets == CleanEntries(j.bullets) && paras == BulletParas(bullets)
    ensures ShowsJob(j, meta + paras + [Spacer(4.0)])
  {
    var r := meta + paras + [Spacer(4.0)];
    var m := if HasMeta(j) then 1 else 0;
    OptionalOne(HasMeta(j), Meta(JobHeader(j), JobDuration(j), 10.2, 2.0), meta);
    ParasAfter(meta, bullets);
    assert m == 1 ==> r[0].ExpMeta? && r[0].left == SafeText(JobHeader(j)) && r[0].right == SafeText(JobDuration(j));
  }

  lemma OptionalOne<T>(c: bool, x: T, xs: seq<T>)
    requires xs == if c then [x] else []
    ensures |xs| == (if c then 1 else 0) && (c ==> xs[0] == x)
  {
  }

  /** Bullet paragraphs after an opening part and before a closing spacer
      sit at their own offset. */
  lemma ParasAfter(meta: seq<DrawItem>, bullets: seq<string>)
    ensures var r := meta + BulletParas(bullets) + [Spacer(4.0)];
      && |r| == |meta| + |bullets| + 1
      && (|meta| > 0 ==> r[0] == meta[0])
      && BulletsAt(r, |meta|, bullets)
  {
    var paras := BulletParas(bullets);
    var r := meta + paras + [Spacer(4.0)];
    forall k | 0 <= k < |bullets|
      ensures r[|meta| + k] == paras[k]
    {
    }
  }

  lemma MetaIsBody(left: string, right: string, size: real, gap: real)
    ensures BodyOnly([Meta(left, right, size, gap)])
  {
    assert IsBodyItem(Meta(left, right, size, gap));
  }

  function BulletParas(xs: seq<string>): (r: seq<DrawItem>)
    ensures |r| == |xs|
    ensures forall k :: 0 <= k < |r| ==> r[k] == Para(xs[k], 10.0, false, 12.0, true, 0.8)
    ensures BodyOnly(r)
  {
    seq(|xs|, k requires 0 <= k < |xs| => Para(xs[k], 10.0, false, 12.0, true, 0.8))
  }

  function JobsItems(jobs: seq<Job>): (r: seq<DrawItem>)
    ensures BodyOnly(r)
  {
    if |jobs| == 0 then []
    else
      var first := JobItems(jobs[0]);
      var rest := JobsItems(jobs[1..]);
      BodyOnlyAppend(first, rest);
      first + rest
  }

  /** A skills line with a colon is a bold label and its value; any other
      line is a bullet. */
  function SkillItem(entry: string): DrawItem {
    var k := SpanUntil(entry, IsColon);
    if k < |entry| then KeyValue(Strip(entry[..k]) + ": ", Strip(entry[k + 1..]), 10.0, 0.0, 1.2)
    else Para(entry, 10.0, false, 12.0, true, 0.8)
  }

  /** One plain paragraph per entry.
      It exists to give callers' quantifiers a term to trigger on. */
  function PlainParas(xs: seq<string>): (r: seq<DrawItem>)
    ensures |r| == |xs|
    ensures forall k :: 0 <= k < |r| ==> r[k] == Para(xs[k], 10.0, false, 0.0, false, 0.8)
    ensures BodyOnly(r)
  {
    seq(|xs|, k requires 0 <= k < |xs| => Para(xs[k], 10.0, false, 0.0, false, 0.8))
  }

  /** A section: its heading and body, or nothing when it has no body. */
  function WithSection(items: seq<DrawItem>, present: bool, title: string, body: seq<DrawItem>): seq<DrawItem> {
    if present then AddSectionHeading(items, title) + body else items
  }

  function SkillLinesOf(d: Doc): seq<string> { CleanEntries(SplitLines(d.skillsRaw)) }

  /** One item per skill line.
      It exists to give callers' quantifiers a term to trigger on. */
  function SkillItems(skills: seq<string>): (r: seq<DrawItem>)
    ensures |r| == |skills|
    ensures forall k :: 0 <= k < |r| ==> r[k] == SkillItem(skills[k])
  {
    seq(|skills|, k requires 0 <= k < |skills| => SkillItem(skills[k]))
  }

  /** The name, the headline, the contact block. */
  function TopItems(d: Doc, role: string): (r: seq<DrawItem>)
    ensures |r| >= 2 && r[0] == NameItems(d.name)[0]
    ensures BodyOnly(r)
  {
    Stack(NameItems(d.name), HeadlineItems(d.title, role), ContactBlock(DedupBy(Candidates(d.contact), DedupeKey)))
  }

  /** The block above the sections: name, headline, a 28-point spacer,
      contacts. */
  function Stack(name: seq<DrawItem>, headline: seq<DrawItem>, contacts: seq<DrawItem>): (r: seq<DrawItem>)
    requires |name| == 1 && BodyOnly(name) && BodyOnly(headline) && BodyOnly(contacts)
    ensures |r| >= 2 && r[0] == name[0]
    ensures BodyOnly(r)
  {
    var top := name + (headline + [Spacer(28.0)]);
    assert BodyOnly([Spacer(28.0)]);
    BodyOnlyAppend(headline, [Spacer(28.0)]);
    BodyOnlyAppend(name, headline + [Spacer(28.0)]);
    BodyOnlyAppend(top, contacts);
    top + contacts
  }

  lemma BodyOnlyAppend(a: seq<DrawItem>, b: seq<DrawItem>)
    requires BodyOnly(a) && BodyOnly(b)
    ensures BodyOnly(a + b)
  {
    forall k | 0 <= k < |a + b|
      ensures IsBodyItem((a + b)[k])
    {
      if k < |a| {
        assert (a + b)[k] == a[k];
      } else {
        assert (a + b)[k] == b[k - |a|];
      }
    }
  }

  /** The contact items and a 6-point spacer, when there are contacts. */
  function ContactBlock(entries: seq<ContactEntry>): (r: seq<DrawItem>)
    ensures BodyOnly(r)
  {
    if entries == [] then []
    else
      BodyOnlyAppend(ContactItems(entries), [Spacer(6.0)]);
      ContactItems(entries) + [Spacer(6.0)]
  }

  /** One section after the contact block: present only when it has
      content. */
  datatype SectionBlock = SectionBlock(present: bool, title: string, body: seq<DrawItem>)

  predicate IsPlainTitle(t: string) {
    forall i :: 0 <= i < |t| ==> IsUpper(t[i]) || t[i] == ' '
  }

  /** A block adds exactly one heading, its title, when present. */
  predicate WellFormedBlock(b: SectionBlock) {
    BodyOnly(b.body) && IsPlainTitle(b.title)
  }

  predicate AllWellFormed(ss: seq<SectionBlock>) {
    |ss| == 0 || (WellFormedBlock(ss[0]) && AllWellFormed(ss[1..]))
  }

  /** The sections in page order: summary, experience, skills,
      certifications, education. */
  function SectionsOf(d: Doc): (ss: seq<SectionBlock>)
    ensures |ss| == 5 && AllWellFormed(ss)
  {
    var summary := CleanBullet(d.summary);
    var skills := SkillLinesOf(d);
    var certs := CleanEntries(d.certifications);
    var edu := CleanEntries(d.education);
    var b0 := SectionBlock(summary != "", "PROFESSIONAL SUMMARY", [Para(summary, 10.0, false, 0.0, false, 2.0)]);
    var b1 := SectionBlock(d.experience != [], "PROFESSIONAL EXPERIENCE", JobsItems(d.experience));
    var b2 := SectionBlock(skills != [], "SKILLS", SkillItems(skills));
    var b3 := SectionBlock(certs != [], "CERTIFICATIONS", BulletParas(certs));
    var b4 := SectionBlock(edu != [], "EDUCATION", PlainParas(edu));
    TitlesArePlain();
    assert BodyOnly(b0.body);
    SkillItemsBodyOnly(skills);
    FiveWellFormed(b0, b1, b2, b3, b4);
    [b0, b1, b2, b3, b4]
  }

  lemma FiveWellFormed(b0: SectionBlock, b1: SectionBlock, b2: SectionBlock, b3: SectionBlock, b4: SectionBlock)
    requires WellFormedBlock(b0) && WellFormedBlock(b1) && WellFormedBlock(b2)
    requires WellFormedBlock(b3) && WellFormedBlock(b4)
    ensures AllWellFormed([b0, b1, b2, b3, b4])
  {
    assert [b4][1..] == [] && AllWellFormed([b4]);
    assert [b3, b4][1..] == [b4] && AllWellFormed([b3, b4]);
    assert [b2, b3, b4][1..] == [b3, b4] && AllWellFormed([b2, b3, b4]);
    assert [b1, b2, b3, b4][1..] == [b2, b3, b4] && AllWellFormed([b1, b2, b3, b4]);
    assert [b0, b1, b2, b3, b4][1..] == [b1, b2, b3, b4];
  }

  lemma TitlesArePlain()
    ensures IsPlainTitle("PROFESSIONAL SUMMARY") && IsPlainTitle("PROFESSIONAL EXPERIENCE")
    ensures IsPlainTitle("SKILLS") && IsPlainTitle("CERTIFICATIONS") && IsPlainTitle("EDUCATION")
  {
  }

  lemma SkillItemsBodyOnly(skills: seq<string>)
    ensures BodyOnly(SkillItems(skills))
  {
    forall k | 0 <= k < |skills|
      ensures IsBodyItem(SkillItems(skills)[k])
    {
      var e := skills[k];
      var i := SpanUntil(e, IsColon);
      if i < |e| {
        assert SkillItems(skills)[k].KvPara?;
      } else {
        assert SkillItems(skills)[k].ParaItem?;
      }
    }
  }

  /** The sections appended in order, each with its heading. */
  function SectionItems(base: seq<DrawItem>, ss: seq<SectionBlock>): seq<DrawItem>
    decreases |ss|
  {
    if |ss| == 0 then base
    else SectionItems(WithSection(base, ss[0].present, ss[0].title, ss[0].body), ss[1..])
  }

  function PresentTitles(ss: seq<SectionBlock>): seq<string> {
    if |ss| == 0 then [] else TitleIfPresent(ss[0]) + PresentTitles(ss[1..])
  }

  /** The item list of `_render_pdf_builtin`, from the name down to the
      education section; it always opens with the name line. */
  function BuildItems(d: Doc, role: string): (items: seq<DrawItem>)
    ensures |items| >= 2 && items[0] == NameItems(d.name)[0]
  {
    var top := TopItems(d, role);
    SectionItemsKeepFirst(top, SectionsOf(d));
    SectionItems(top, SectionsOf(d))
  }

  lemma {:induction false} SectionItemsKeepFirst(base: seq<DrawItem>, ss: seq<SectionBlock>)
    requires |base| >= 2
    ensures var r := SectionItems(base, ss); |r| >= 2 && r[0] == base[0]
    decreases |ss|
  {
    if |ss| > 0 {
      WithSectionKeepsFirst(base, ss[0].present, ss[0].title, ss[0].body);
      SectionItemsKeepFirst(WithSection(base, ss[0].present, ss[0].title, ss[0].body), ss[1..]);
    }
  }

  lemma WithSectionKeepsFirst(items: seq<DrawItem>, present: bool, title: string, body: seq<DrawItem>)
    requires |items| >= 2
    ensures var r := WithSection(items, present, title, body); |r| >= 2 && r[0] == items[0]
  {
    if present {
      var h := AddSectionHeading(items, title);
      assert h[..|items| - 1][0] == items[..|items| - 1][0];
    }
  }

  /** The section titles the document has content for, in page order. */
  function SectionTitles(d: Doc): seq<string> {
    (if CleanBullet(d.summary) != "" then ["PROFESSIONAL SUMMARY"] else [])
    + ((if d.experience != [] then ["PROFESSIONAL EXPERIENCE"] else [])
    + ((if SkillLinesOf(d) != [] then ["SKILLS"] else [])
    + ((if CleanEntries(d.certifications) != [] then ["CERTIFICATIONS"] else [])
    + (if CleanEntries(d.education) != [] then ["EDUCATION"] else []))))
  }

  /** The paginator divides by the size of paragraphs and of key/value
      items that have a value to wrap; those sizes are non-zero. */
  predicate Drawable(it: DrawItem) {
    match it
    case ParaItem(_, size, _, _, _, _) => size != 0.0
    case KvPara(_, _, size, _, _) => size != 0.0
    case KvBlock(_, value, size, _, _, _) => value == "" || size != 0.0
    case _ => true
  }

  /** An item of a section body or of the block above the sections: not a
      heading, and drawable. */
  predicate IsBodyItem(it: DrawItem) {
    !IsHeading(it) && Drawable(it)
  }

  predicate BodyOnly(xs: seq<DrawItem>) {
    forall k :: 0 <= k < |xs| ==> IsBodyItem(xs[k])
  }

  lemma {:induction false} BodyOnlyBodyOnly(xs: seq<DrawItem>)
    requires BodyOnly(xs)
    ensures Headings(xs) == []
  {
    if |xs| > 0 {
      BodyOnlyBodyOnly(xs[1..]);
    }
  }

  /** Upper-case ASCII titles survive upper-casing and the code page. */
  lemma PlainTitle(t: string)
    requires IsPlainTitle(t)
    ensures SafeText(Upper(t)) == t
  {
    assert Upper(t) == t;
  }

  lemma WithSectionHeadings(items: seq<DrawItem>, present: bool, title: string, body: seq<DrawItem>)
    requires BodyOnly(body)
    requires IsPlainTitle(title)
    ensures Headings(WithSection(items, present, title, body))
         == Headings(items) + (if present then [title] else [])
  {
    if present {
      AddSectionHeadingHeadings(items, title);
      PlainTitle(title);
      HeadingsAppend(AddSectionHeading(items, title), body);
      BodyOnlyBodyOnly(body);
    }
  }

  /** The page shows a section heading exactly for each section with
      content, in the fixed order summary, experience, skills,
      certifications, education. */
  lemma BuildItemsHeadings(d: Doc, role: string)
    ensures Headings(BuildItems(d, role)) == SectionTitles(d)
  {
    var top := TopItems(d, role);
    var ss := SectionsOf(d);
    BodyOnlyBodyOnly(top);
    SectionItemsHeadings(top, ss);
    SectionsOfTitles(d);
  }

  /** The five blocks carry the section titles in page order. */
  lemma SectionsOfTitles(d: Doc)
    ensures PresentTitles(SectionsOf(d)) == SectionTitles(d)
  {
    PresentTitlesFive(SectionsOf(d));
  }

  function TitleIfPresent(b: SectionBlock): seq<string> {
    if b.present then [b.title] else []
  }

  lemma PresentTitlesFrom(ss: seq<SectionBlock>, k: nat)
    requires k < |ss|
    ensures PresentTitles(ss[k..]) == TitleIfPresent(ss[k]) + PresentTitles(ss[k + 1..])
  {
    assert ss[k..][1..] == ss[k + 1..];
  }

  lemma PresentTitlesFive(ss: seq<SectionBlock>)
    requires |ss| == 5
    ensures PresentTitles(ss)
         == TitleIfPresent(ss[0]) + (TitleIfPresent(ss[1]) + (TitleIfPresent(ss[2])
          + (TitleIfPresent(ss[3]) + TitleIfPresent(ss[4]))))
  {
    PresentTitlesFrom(ss, 4);
    PresentTitlesFrom(ss, 3);
    PresentTitlesFrom(ss, 2);
    PresentTitlesFrom(ss, 1);
    PresentTitlesFrom(ss, 0);
    assert ss[0..] == ss;
    assert PresentTitles(ss[5..]) == [];
  }

  lemma {:induction false} SectionItemsHeadings(base: seq<DrawItem>, ss: seq<SectionBlock>)
    requires AllWellFormed(ss)
    ensures Headings(SectionItems(base, ss)) == Headings(base) + PresentTitles(ss)
    decreases |ss|
  {
    if |ss| > 0 {
      var b := ss[0];
      var next := WithSection(base, b.present, b.title, b.body);
      assert WellFormedBlock(b) && AllWellFormed(ss[1..]);
      WithSectionHeadings(base, b.present, b.title, b.body);
      SectionItemsHeadings(next, ss[1..]);
      assert PresentTitles(ss) == TitleIfPresent(b) + PresentTitles(ss[1..]);
      AppendAssoc(Headings(base), TitleIfPresent(b), PresentTitles(ss[1..]));
    }
  }

  predicate AllDrawable(xs: seq<DrawItem>) {
    forall k :: 0 <= k < |xs| ==> Drawable(xs[k])
  }

  lemma AddSectionHeadingDrawable(items: seq<DrawItem>, title: string)
    requires AllDrawable(items)
    ensures AllDrawable(AddSectionHeading(items, title))
  {
    var r := AddSectionHeading(items, title);
    forall k | 0 <= k < |r|
      ensures Drawable(r[k])
    {
      if k < |items| - 1 {
        assert r[k] == r[..|items| - 1][k] == items[k];
      } else if items != [] && !items[|items| - 1].Spacer? && k == |items| - 1 {
        assert r[k] == r[..|items|][k] == items[k];
      }
    }
  }

  lemma {:induction false} SectionItemsDrawable(base: seq<DrawItem>, ss: seq<SectionBlock>)
    requires AllDrawable(base) && AllWellFormed(ss)
    ensures AllDrawable(SectionItems(base, ss))
    decreases |ss|
  {
    if |ss| > 0 {
      var b := ss[0];
      if b.present {
        var h := AddSectionHeading(base, b.title);
        AddSectionHeadingDrawable(base, b.title);
        forall k | 0 <= k < |h + b.body|
          ensures Drawable((h + b.body)[k])
        {
          if k >= |h| {
            assert (h + b.body)[k] == b.body[k - |h|];
          }
        }
      }
      SectionItemsDrawable(WithSection(base, b.present, b.title, b.body), ss[1..]);
    }
  }

  /** Every item of the list can be drawn: the paginator never divides by
      a zero size. */
  lemma BuildItemsDrawable(d: Doc, role: string)
    ensures AllDrawable(BuildItems(d, role))
  {
    var top := TopItems(d, role);
    SectionItemsDrawable(top, SectionsOf(d));
  }
}

=== FILE: normalize.dfy ===
/** Text normalisation shared by the parser, the contact classifier and the
    layout engine: bullet-glyph stripping (`clean_bullet_text`), the
    four-digit test that recognises a duration line, and the camel-case
    repair applied to legacy skill tokens. */
module Normalize {
  import opened Text

  /** The glyphs a résumé uses to mark list items: `*`, `-` and `•`. */
  predicate IsBulletGlyph(c: char) {
    c == '*' || c == '-' || c == '\U{2022}'
  }

  predicate IsGlyphOrSpace(c: char) {
    IsBulletGlyph(c) || IsSpace(c)
  }

  /** The `while s.startswith(('*', '-', '•')): s = s[1:].strip()` loop,
      entered with an already stripped string. */
  function StripGlyphs(s: string): (r: string)
    requires Stripped(s)
    ensures Stripped(r)
    ensures r == [] || !IsBulletGlyph(r[0])
    ensures |r| <= |s|
    decreases |s|
  {
    if |s| > 0 && IsBulletGlyph(s[0]) then StripGlyphs(Strip(s[1..])) else s
  }

  /** `clean_bullet_text`: strip, then strip leading bullet glyphs (and the
      whitespace after each) until none is left. */
  function CleanBullet(text: string): (r: string)
    ensures Stripped(r)
    ensures r == [] || !IsBulletGlyph(r[0])
  {
    StripGlyphs(Strip(text))
  }

  /** A list item as stored: non-empty, no outer whitespace, no leading glyph. */
  predicate IsCleanItem(s: string) {
    s != "" && Stripped(s) && !IsBulletGlyph(s[0])
  }

  /** An independent description of `clean_bullet_text`: drop every leading
      glyph or whitespace character, then the trailing whitespace. */
  function CleanBulletSpec(text: string): string {
    TrimEnd(TrimStart(text, IsGlyphOrSpace), IsSpace)
  }

  /** The iterative strip-and-drop loop computes exactly `CleanBulletSpec`. */
  lemma {:induction false} CleanBulletMatchesSpec(text: string)
    ensures CleanBullet(text) == CleanBulletSpec(text)
    decreases |text|
  {
    if |text| == 0 {
    } else if IsGlyphOrSpace(text[0]) {
      CleanBulletMatchesSpec(text[1..]);
      SpecDropsLeading(text);
      CleanBulletDropsLeading(text);
    } else {
      SpanNone(text, IsSpace);
      SpanNone(text, IsGlyphOrSpace);
      var v := Strip(text);
      assert v == TrimEnd(text, IsSpace);
      assert BackSpan(text, IsSpace) < |text|;
      assert v[0] == text[0];
    }
  }

  lemma SpecDropsLeading(text: string)
    requires |text| > 0 && IsGlyphOrSpace(text[0])
    ensures CleanBulletSpec(text) == CleanBulletSpec(text[1..])
  {
    assert TrimStart(text, IsGlyphOrSpace) == TrimStart(text[1..], IsGlyphOrSpace);
  }

  lemma CleanBulletDropsLeading(text: string)
    requires |text| > 0 && IsGlyphOrSpace(text[0])
    ensures CleanBullet(text) == CleanBullet(text[1..])
  {
    if IsSpace(text[0]) {
      assert TrimStart(text, IsSpace) == TrimStart(text[1..], IsSpace);
    } else {
      SpanNone(text, IsSpace);
      var b := BackSpan(text, IsSpace);
      var v := Strip(text);
      assert v == text[..|text| - b];
      assert b < |text|;
      assert v[0] == text[0];
      assert v[1..] == text[1..][..|text| - 1 - b];
      StripDropTrailing(text[1..], |text| - 1 - b);
    }
  }

  /** Cleaning a cleaned string changes nothing. */
  lemma CleanBulletIdempotent(text: string)
    ensures CleanBullet(CleanBullet(text)) == CleanBullet(text)
  {
    var r := CleanBullet(text);
    CleanBulletMatchesSpec(r);
    SpanNone(r, IsGlyphOrSpace);
    BackSpanNone(r, IsSpace);
  }

  /** The cleaned, non-empty lines of a block, in order: the loop
      `l = l.strip(); while glyph: ...; if l: out.append(l)`. */
  function CleanEntries(lines: seq<string>): (r: seq<string>)
    ensures forall k :: 0 <= k < |r| ==> IsCleanItem(r[k])
    ensures |r| <= |lines|
    ensures r == NonEmpty(CleanEach(lines))
  {
    if |lines| == 0 then []
    else
      var c := CleanBullet(lines[0]);
      (if c != "" then [c] else []) + CleanEntries(lines[1..])
  }

  /** Every line cleaned, the empty results kept in place. */
  function CleanEach(lines: seq<string>): seq<string> {
    if |lines| == 0 then [] else [CleanBullet(lines[0])] + CleanEach(lines[1..])
  }

  /** A `- ` list item loses its dash and the space after it. */
  lemma CleanDashItem(w: string)
    requires IsCleanItem(w)
    ensures CleanBullet("- " + w) == w
  {
    var s := "- " + w;
    DashItemStripped(w);
    assert StripGlyphs(s) == StripGlyphs(Strip(s[1..])) by {
      assert s[0] == '-';
    }
    assert StripGlyphs(w) == w;
  }

  /** The item with its dash has no outer whitespace, and dropping the
      dash leaves the item once stripped. */
  lemma DashItemStripped(w: string)
    requires IsCleanItem(w)
    ensures Strip("- " + w) == "- " + w
    ensures Strip(("- " + w)[1..]) == w
  {
    var s := "- " + w;
    assert s[|s| - 1] == w[|w| - 1];
    StripNoop(s);
    assert s[1..] == " " + w;
    StripLeadingSpace(w);
    StripNoop(w);
  }

  /** `re.search(r"\d{4}", s)`: four consecutive digits somewhere. */
  predicate HasFourDigits(s: string) {
    exists i :: 0 <= i && i + 4 <= |s| && IsDigit(s[i]) && IsDigit(s[i + 1]) && IsDigit(s[i + 2]) && IsDigit(s[i + 3])
  }

  /** `re.sub(r'([a-z])([A-Z])', r'\1 \2', s)`: a space between every
      lower-case letter and an upper-case letter right after it. */
  function SplitCamel(s: string): (r: string)
    ensures |r| == |s| + CamelJoints(s)
  {
    if |s| < 2 then s
    else if IsLower(s[0]) && IsUpper(s[1]) then [s[0], ' '] + SplitCamel(s[1..])
    else [s[0]] + SplitCamel(s[1..])
  }

  /** The number of lower-then-upper letter pairs in `s`. */
  function CamelJoints(s: string): nat {
    if |s| < 2 then 0 else (if IsLower(s[0]) && IsUpper(s[1]) then 1 else 0) + CamelJoints(s[1..])
  }

  /** Removing the inserted spaces gives the token back. */
  lemma {:induction false} SplitCamelKeepsLetters(s: string)
    ensures Remove(SplitCamel(s), c => c == ' ') == Remove(s, c => c == ' ')
    decreases |s|
  {
    if |s| >= 2 {
      SplitCamelKeepsLetters(s[1..]);
      var rest := SplitCamel(s[1..]);
      if IsLower(s[0]) && IsUpper(s[1]) {
        assert ([s[0], ' '] + rest)[1..] == [' '] + rest;
        assert ([' '] + rest)[1..] == rest;
      } else {
        assert ([s[0]] + rest)[1..] == rest;
      }
    }
  }
}

=== FILE: paginator.dfy ===
/** The paginator of the built-in PDF renderer: it walks the draw items
    top to bottom on A4 pages with 40-point margins, emitting content
    stream operators (`BT`/`Tf`/`Tm`/`Tj`/`ET` for text, `m`/`l`/`S` for
    rules), and starts a new page whenever the next line would run into
    the bottom margin. Coordinates are exact reals here. */
module Paginator {
  import opened Text
  import opened PdfText
  import opened Layout

  // ---------------------------------------------------------------------
  // Page geometry, in points
  // ---------------------------------------------------------------------

  const PageW: real := 595.0
  const PageH: real := 842.0
  const MarginL: real := 40.0
  const MarginR: real := 40.0
  const MarginT: real := 40.0
  const MarginB: real := 40.0
  const ContentW: real := PageW - MarginL - MarginR
  /** Where the first line of every page sits. */
  const Top: real := PageH - MarginT

  // ---------------------------------------------------------------------
  // Shown text
  // ---------------------------------------------------------------------

  /** The text-showing operator for a literal string. */
  function ShowCmd(text: string): string {
    "(" + EscapePdfText(text) + ") Tj"
  }

  /** An operator that shows a literal string. */
  predicate IsShow(c: string) {
    |c| >= 5 && c[0] == '(' && c[|c| - 4..] == ") Tj"
  }

  /** What a reader shows for such an operator. */
  function ShownText(c: string): string
    requires IsShow(c)
  {
    Unescape(c[1..|c| - 4])
  }

  /** The strings a list of operators shows, in order. */
  function Texts(cmds: seq<string>): seq<string> {
    if |cmds| == 0 then []
    else
      var last := cmds[|cmds| - 1];
      Texts(cmds[..|cmds| - 1]) + (if IsShow(last) then [ShownText(last)] else [])
  }

  lemma {:induction false} TextsAppend(a: seq<string>, b: seq<string>)
    ensures Texts(a + b) == Texts(a) + Texts(b)
    decreases |b|
  {
    if |b| == 0 {
      assert a + b == a;
    } else {
      var last := b[|b| - 1];
      assert (a + b)[..|a + b| - 1] == a + b[..|b| - 1];
      TextsAppend(a, b[..|b| - 1]);
    }
  }

  /** An operator ending in anything but `j` shows nothing. */
  lemma TextsOfOther(c: string)
    requires |c| > 0 && c[|c| - 1] != 'j'
    ensures Texts([c]) == []
  {
    var none: seq<string> := [];
    assert [c][..0] == none;
  }

  /** The show operator shows the safe text, exactly. */
  lemma TextsOfShow(text: string)
    ensures Texts([ShowCmd(text)]) == [SafeText(text)]
  {
    var c := ShowCmd(text);
    var e := EscapePdfText(text);
    assert c[|c| - 4..] == ") Tj";
    assert c[1..|c| - 4] == e;
    var none: seq<string> := [];
    assert [c][..0] == none;
  }

  // ---------------------------------------------------------------------
  // The pager
  // ---------------------------------------------------------------------

  /** The closed pages, the operators of the open page, and the current
      baseline. */
  datatype Pager = Pager(pages: seq<seq<string>>, cmds: seq<string>, y: real)

  function Flatten(pages: seq<seq<string>>): seq<string> {
    if |pages| == 0 then [] else Flatten(pages[..|pages| - 1]) + pages[|pages| - 1]
  }

  /** Every operator emitted so far, page after page. */
  function AllCmds(p: Pager): seq<string> {
    Flatten(p.pages) + p.cmds
  }

  predicate PagesNonEmpty(pages: seq<seq<string>>) {
    forall k :: 0 <= k < |pages| ==> pages[k] != []
  }

  const Fresh: Pager := Pager([], [], Top)

  /** `flush_page`: the open page is closed when it has operators (an
      empty one is dropped); either way drawing resumes at the top. */
  function FlushPage(p: Pager): (r: Pager)
    ensures r.cmds == [] && r.y == Top
    ensures AllCmds(r) == AllCmds(p)
    ensures PagesNonEmpty(p.pages) ==> PagesNonEmpty(r.pages)
    ensures p.cmds == [] ==> r.pages == p.pages
    ensures p.cmds != [] ==> r.pages == p.pages + [p.cmds]
  {
    if p.cmds == [] then Pager(p.pages, [], Top)
    else
      var pages := p.pages + [p.cmds];
      assert pages[..|pages| - 1] == p.pages;
      Pager(pages, [], Top)
  }

  /** `ensure_space`: when `h` more points would cross the bottom margin,
      a new page is started. Afterwards there is room for `h` points, or
      the page is a fresh one; nothing is emitted. */
  function EnsureSpace(p: Pager, h: real): (r: Pager)
    ensures AllCmds(r) == AllCmds(p)
    ensures PagesNonEmpty(p.pages) ==> PagesNonEmpty(r.pages)
    ensures r.y - h >= MarginB || (r.cmds == [] && r.y == Top)
    ensures p.y - h >= MarginB ==> r == p
    ensures p.y - h < MarginB ==> r == FlushPage(p)
  {
    if p.y - h < MarginB then FlushPage(p) else p
  }

  /** A spacer, and the gap after an item: make room, then move down. */
  function Advance(p: Pager, h: real): (r: Pager)
    ensures AllCmds(r) == AllCmds(p)
    ensures PagesNonEmpty(p.pages) ==> PagesNonEmpty(r.pages)
    ensures r.y >= MarginB || (r.cmds == [] && r.y + h == Top)
    ensures p.y - h >= MarginB ==> r == p.(y := p.y - h)
    ensures p.y - h < MarginB ==> r == FlushPage(p).(y := Top - h)
  {
    var q := EnsureSpace(p, h);
    q.(y := q.y - h)
  }

  /** `if item.get("gap_after", 0)`: a zero gap is skipped. */
  function GapAfter(p: Pager, gap: real): (r: Pager)
    ensures AllCmds(r) == AllCmds(p)
    ensures PagesNonEmpty(p.pages) ==> PagesNonEmpty(r.pages)
    ensures gap == 0.0 ==> r == p
    ensures gap != 0.0 && p.y - gap >= MarginB ==> r == p.(y := p.y - gap)
    ensures gap != 0.0 && p.y - gap < MarginB ==> r == FlushPage(p).(y := Top - gap)
  {
    if gap != 0.0 then Advance(p, gap) else p
  }

  // ---------------------------------------------------------------------
  // Metrics
  // ---------------------------------------------------------------------

  function LineHeight(size: real): (h: real)
    ensures h >= 12.0 && h >= size * 1.35
    ensures h == 12.0 || h == size * 1.35
  {
    MaxReal(12.0, size * 1.35)
  }

  /** `approx_text_width`: Helvetica approximated by a fixed advance per
      character of the safe text. */
  function ApproxWidth(text: string, size: real, bold: bool): real {
    (|SafeText(text)| as real) * size * (if bold then 0.56 else 0.52)
  }

  /** Python's `int()` of a float: truncation toward zero. */
  function Trunc(r: real): (n: int)
    ensures 0.0 <= r ==> n as real <= r < n as real + 1.0
    ensures r < 0.0 ==> n as real - 1.0 < r <= n as real
  {
    if r >= 0.0 then r.Floor else -((-r).Floor)
  }

  /** `max(20, int(avail / (size * 0.52)))`: the characters per wrapped
      line that fit the available width at the narrow advance. */
  function MaxChars(avail: real, size: real): (n: int)
    requires size != 0.0
    ensures n >= 20
    ensures n == 20 || n == Trunc(avail / (size * 0.52))
    ensures Trunc(avail / (size * 0.52)) >= 20 ==> n == Trunc(avail / (size * 0.52))
  {
    var m := Trunc(avail / (size * 0.52));
    if m >= 20 then m else 20
  }

  function FontName(bold: bool): string {
    if bold then "/F2" else "/F1"
  }

  /** The horizontal start of a text line. */
  function TextX(text: string, size: real, bold: bool, align: Align, indent: real): real {
    match align
    case Center => MaxReal(MarginL, (PageW - ApproxWidth(text, size, bold)) / 2.0)
    case Right => MaxReal(MarginL + indent, PageW - MarginR - ApproxWidth(text, size, bold))
    case Left => MarginL + indent
  }

  /** A centred line that fits is centred on the page; a right-aligned one
      that fits ends at the right margin; nothing starts left of the left
      margin (plus its indent, when not centred). */
  lemma TextXPlacement(text: string, size: real, bold: bool, align: Align, indent: real)
    ensures var x := TextX(text, size, bold, align, indent);
      var w := ApproxWidth(text, size, bold);
      && x >= MarginL + (if align == Center then 0.0 else indent)
      && (align == Center && w <= PageW - 2.0 * MarginL ==> x + w / 2.0 == PageW / 2.0)
      && (align == Right && w <= ContentW - indent ==> x + w == PageW - MarginR)
  {
  }

  // ---------------------------------------------------------------------
  // Operators
  // ---------------------------------------------------------------------

  /** One text object: font and size, position, the string. */
  function TextCmds(text: string, size: real, bold: bool, x: real, y: real): (r: seq<string>)
    ensures |r| == 5
    ensures Texts(r) == [SafeText(text)]
  {
    var font := FontName(bold) + " " + Fixed2(size) + " Tf";
    var pos := "1 0 0 1 " + Fixed2(x) + " " + Fixed2(y) + " Tm";
    TextsOfOther("BT");
    TextsOfOther(font);
    TextsOfOther(pos);
    TextsOfShow(text);
    TextsOfOther("ET");
    TextsAppend(["BT"], [font]);
    TextsAppend(["BT"] + [font], [pos]);
    TextsAppend(["BT"] + [font] + [pos], [ShowCmd(text)]);
    TextsAppend(["BT"] + [font] + [pos] + [ShowCmd(text)], ["ET"]);
    ["BT"] + [font] + [pos] + [ShowCmd(text)] + ["ET"]
  }

  /** The thin rule under a section heading, from margin to margin. */
  function RuleCmds(ry: real): (r: seq<string>)
    ensures |r| == 6
    ensures Texts(r) == []
  {
    var from := Fixed2(MarginL) + " " + Fixed2(ry) + " m";
    var to := Fixed2(PageW - MarginR) + " " + Fixed2(ry) + " l";
    TextsOfOther("q");
    TextsOfOther("0.75 w");
    TextsOfOther(from);
    TextsOfOther(to);
    TextsOfOther("S");
    TextsOfOther("Q");
    TextsAppend(["q"], ["0.75 w"]);
    TextsAppend(["q"] + ["0.75 w"], [from]);
    TextsAppend(["q"] + ["0.75 w"] + [from], [to]);
    TextsAppend(["q"] + ["0.75 w"] + [from] + [to], ["S"]);
    TextsAppend(["q"] + ["0.75 w"] + [from] + [to] + ["S"], ["Q"]);
    ["q"] + ["0.75 w"] + [from] + [to] + ["S"] + ["Q"]
  }

  // ---------------------------------------------------------------------
  // Drawing primitives
  // ---------------------------------------------------------------------

  /** The safe form of each string.
      It exists to give callers' quantifiers a term to trigger on. */
  function SafeAll(xs: seq<string>): (r: seq<string>)
    ensures |r| == |xs|
    ensures forall k :: 0 <= k < |r| ==> r[k] == SafeText(xs[k])
  {
    seq(|xs|, k requires 0 <= k < |xs| => SafeText(xs[k]))
  }

  lemma SafeAllAppend(a: seq<string>, b: seq<string>)
    ensures SafeAll(a + b) == SafeAll(a) + SafeAll(b)
  {
  }

  /** Operators appended to the open page, the baseline moved to `y`. */
  function Emit(q: Pager, cmds: seq<string>, y: real): (r: Pager)
    ensures r.pages == q.pages && r.cmds == q.cmds + cmds && r.y == y
    ensures AllCmds(r) == AllCmds(q) + cmds
    ensures Texts(AllCmds(r)) == Texts(AllCmds(q)) + Texts(cmds)
  {
    TextsAppend(AllCmds(q), cmds);
    Pager(q.pages, q.cmds + cmds, y)
  }

  /** Where `add_text_line` puts a line's operators `cmds`: when one
      line height `lh` still fits above the bottom margin, they go to the
      end of the open page and the cursor moves down by `lh`; otherwise the
      open page is closed (when it has operators), they start the next
      page, and the cursor ends `lh` below the top. */
  predicate LinePlaced(p: Pager, lh: real, cmds: seq<string>, r: Pager) {
    if p.y - lh >= MarginB then
      r.pages == p.pages && r.cmds == p.cmds + cmds && r.y == p.y - lh
    else
      && r.pages == (if p.cmds == [] then p.pages else p.pages + [p.cmds])
      && r.cmds == cmds
      && r.y == Top - lh
  }

  /** `add_text_line`: make room for one line, draw the text at the
      current baseline, move down a line. The operators go to the end of
      the open page, and the line stays above the bottom margin unless it
      is the first thing on a fresh page. */
  method AddTextLine(p: Pager, text: string, size: real, bold: bool, align: Align, indent: real) returns (r: Pager)
    ensures AllCmds(r) == AllCmds(p) + TextCmds(text, size, bold, TextX(text, size, bold, align, indent), r.y + LineHeight(size))
    ensures r.y >= MarginB || r.cmds == TextCmds(text, size, bold, TextX(text, size, bold, align, indent), Top)
    ensures PagesNonEmpty(p.pages) ==> PagesNonEmpty(r.pages)
    ensures Texts(AllCmds(r)) == Texts(AllCmds(p)) + [SafeText(text)]
    ensures LinePlaced(p, LineHeight(size), TextCmds(text, size, bold, TextX(text, size, bold, align, indent), r.y + LineHeight(size)), r)
  {
    var lh := LineHeight(size);
    var q := EnsureSpace(p, lh);
    var cmds := TextCmds(text, size, bold, TextX(text, size, bold, align, indent), q.y);
    r := Emit(q, cmds, q.y - lh);
  }

  /** One piece of a line drawn in its own font. */
  datatype Segment = Segment(text: string, bold: bool)

  /** The text of each segment.
      It exists to give callers' quantifiers a term to trigger on. */
  function SegmentTexts(segs: seq<Segment>): (r: seq<string>)
    ensures |r| == |segs|
    ensures forall k :: 0 <= k < |r| ==> r[k] == segs[k].text
  {
    seq(|segs|, k requires 0 <= k < |segs| => segs[k].text)
  }

  /** The segments of one line, left to right from `x`; an empty segment
      is skipped and takes no width. */
  function DrawSegments(segs: seq<Segment>, size: real, x: real, y: real): (r: seq<string>)
    ensures Texts(r) == SafeAll(NonEmpty(SegmentTexts(segs)))
    decreases |segs|
  {
    if |segs| == 0 then []
    else
      var s := segs[0];
      assert SegmentTexts(segs)[1..] == SegmentTexts(segs[1..]);
      if s.text == "" then DrawSegments(segs[1..], size, x, y)
      else
        var head := TextCmds(s.text, size, s.bold, x, y);
        var rest := DrawSegments(segs[1..], size, x + ApproxWidth(s.text, size, s.bold), y);
        TextsAppend(head, rest);
        SafeAllAppend([s.text], NonEmpty(SegmentTexts(segs[1..])));
        head + rest
  }

  /** `add_text_segments_line`: several segments on one baseline. */
  method AddSegments(p: Pager, segs: seq<Segment>, size: real, indent: real) returns (r: Pager)
    ensures AllCmds(r) == AllCmds(p) + DrawSegments(segs, size, MarginL + indent, r.y + LineHeight(size))
    ensures r.y >= MarginB || r.cmds == DrawSegments(segs, size, MarginL + indent, Top)
    ensures PagesNonEmpty(p.pages) ==> PagesNonEmpty(r.pages)
    ensures Texts(AllCmds(r)) == Texts(AllCmds(p)) + SafeAll(NonEmpty(SegmentTexts(segs)))
  {
    var lh := LineHeight(size);
    var q := EnsureSpace(p, lh);
    var cmds := DrawSegments(segs, size, MarginL + indent, q.y);
    r := Emit(q, cmds, q.y - lh);
  }

  /** `add_rule_line`: a rule one point below the baseline, then six
      points down. */
  method AddRule(p: Pager) returns (r: Pager)
    ensures AllCmds(r) == AllCmds(p) + RuleCmds(r.y + 5.0)
    ensures r.y >= MarginB || r.cmds == RuleCmds(Top - 1.0)
    ensures PagesNonEmpty(p.pages) ==> PagesNonEmpty(r.pages)
    ensures Texts(AllCmds(r)) == Texts(AllCmds(p))
  {
    var q := EnsureSpace(p, 6.0);
    r := Emit(q, RuleCmds(q.y - 1.0), q.y - 6.0);
  }

  /** Left-aligned lines one below the other. */
  method AddLines(p: Pager, lines: seq<string>, size: real, bold: bool, indent: real) returns (r: Pager)
    ensures PagesNonEmpty(p.pages) ==> PagesNonEmpty(r.pages)
    ensures Texts(AllCmds(r)) == Texts(AllCmds(p)) + SafeAll(lines)
  {
    r := p;
    var i := 0;
    while i < |lines|
      invariant 0 <= i <= |lines|
      invariant PagesNonEmpty(p.pages) ==> PagesNonEmpty(r.pages)
      invariant Texts(AllCmds(r)) == Texts(AllCmds(p)) + SafeAll(lines[..i])
    {
      ghost var shown := Texts(AllCmds(r));
      r := AddTextLine(r, lines[i], size, bold, Left, indent);
      LineShownStep(Texts(AllCmds(p)), shown, Texts(AllCmds(r)), lines, i);
      i := i + 1;
    }
    assert lines[..i] == lines;
  }

  /** One more line shown extends the shown prefix of `lines` by one. */
  lemma LineShownStep(before: seq<string>, shown: seq<string>, after: seq<string>, lines: seq<string>, i: nat)
    requires i < |lines|
    requires shown == before + SafeAll(lines[..i])
    requires after == shown + [SafeText(lines[i])]
    ensures after == before + SafeAll(lines[..i + 1])
  {
    SafeAllAppend(lines[..i], [lines[i]]);
    TakeSnoc(lines, i);
  }

  // ---------------------------------------------------------------------
  // What each item shows
  // ---------------------------------------------------------------------

  /** The bullet drawn in front of a bulleted paragraph. */
  const BulletPrefix: string := "\U{2022} "

  lemma BulletPrefixIsSafe()
    ensures SafeText(BulletPrefix) == BulletPrefix
  {
    assert AllChars(BulletPrefix, IsSafeChar);
    SafeTextOfSafe(BulletPrefix);
  }

  /** The wrap width of a paragraph: its indent and the bullet's room
      come off the content width. */
  function ParaChars(size: real, indent: real, bullet: bool): int
    requires size != 0.0
  {
    MaxChars(ContentW - indent - (if bullet then 10.0 else 0.0), size)
  }

  /** The value lines of a key/value paragraph, which continue under the
      value's start; none for an empty value. */
  function KvLines(key: string, value: string, size: real, indent: real): seq<string>
    requires size != 0.0
  {
    if value != "" then WrapPdfText(value, MaxChars(ContentW - (indent + ApproxWidth(key, size, true)), size))
    else []
  }

  /** The value lines of a key/value block, under the key. */
  function BlockLines(value: string, size: real, valueIndent: real): seq<string>
    requires value == "" || size != 0.0
  {
    if value != "" then WrapPdfText(value, MaxChars(ContentW - valueIndent, size)) else []
  }

  /** The strings an item shows, top to bottom, whatever page each line
      lands on: empty segments are not drawn, a bulleted paragraph starts
      with the bullet. */
  function ItemTexts(it: DrawItem): seq<string>
    requires Drawable(it)
  {
    match it
    case Spacer(_) => []
    case Rule(_) => []
    case LineItem(text, _, _, _, _, _) => [SafeText(text)]
    case ExpMeta(left, right, _, _) => NonEmpty([SafeText(left), SafeText(right)])
    case KvPara(key, value, size, indent, _) => NonEmpty([SafeText(key)] + KvLines(key, value, size, indent))
    case KvBlock(key, value, size, _, valueIndent, _) => [SafeText(key)] + BlockLines(value, size, valueIndent)
    case ParaItem(text, size, _, indent, bullet, _) => ParaTexts(text, size, indent, bullet)
  }

  /** The strings a list of items shows, in order. */
  function AllTexts(items: seq<DrawItem>): seq<string>
    requires AllDrawable(items)
  {
    if |items| == 0 then [] else ItemTexts(items[0]) + AllTexts(items[1..])
  }

  // ---------------------------------------------------------------------
  // Facts about wrapped lines
  // ---------------------------------------------------------------------

  lemma {:induction false} SafeAllNonEmpty(xs: seq<string>)
    ensures SafeAll(NonEmpty(xs)) == NonEmpty(SafeAll(xs))
    decreases |xs|
  {
    if |xs| > 0 {
      SafeAllNonEmpty(xs[1..]);
      assert SafeAll(xs)[1..] == SafeAll(xs[1..]);
      SafeAllAppend(if xs[0] != "" then [xs[0]] else [], NonEmpty(xs[1..]));
    }
  }

  lemma {:induction false} NonEmptyNoop(xs: seq<string>)
    requires forall k :: 0 <= k < |xs| ==> xs[k] != ""
    ensures NonEmpty(xs) == xs
    decreases |xs|
  {
    if |xs| > 0 {
      NonEmptyNoop(xs[1..]);
    }
  }

  /** Wrapped lines are safe already, and only the first can be empty. */
  lemma WrapFacts(text: string, maxChars: int)
    ensures var lines := WrapPdfText(text, maxChars);
      && SafeAll(lines) == lines
      && SafeText(lines[0]) == lines[0]
      && SafeAll(lines[1..]) == lines[1..]
      && NonEmpty(lines[1..]) == lines[1..]
  {
    var lines := WrapPdfText(text, maxChars);
    WrapPdfTextSpec(text, maxChars);
    WrapIsSafe(text, maxChars);
    forall k | 0 <= k < |lines|
      ensures SafeText(lines[k]) == lines[k]
    {
      SafeTextOfSafe(lines[k]);
    }
    SafeAllNoop(lines);
    SafeAllNoop(lines[1..]);
    if lines != [""] {
      NonEmptyNoop(lines[1..]);
    }
  }

  lemma SafeAllNoop(xs: seq<string>)
    requires forall k :: 0 <= k < |xs| ==> SafeText(xs[k]) == xs[k]
    ensures SafeAll(xs) == xs
  {
  }

  lemma NonEmptyCons2(a: string, b: string, rest: seq<string>)
    requires NonEmpty(rest) == rest
    ensures NonEmpty([a, b]) + rest == NonEmpty([a] + ([b] + rest))
  {
    assert [a] + ([b] + rest) == [a, b] + rest;
    NonEmptyAppend([a, b], rest);
  }

  lemma PairTexts(first: string, second: string, b1: bool, b2: bool)
    ensures SafeAll(NonEmpty(SegmentTexts([Segment(first, b1), Segment(second, b2)])))
         == NonEmpty([SafeText(first), SafeText(second)])
  {
    assert SegmentTexts([Segment(first, b1), Segment(second, b2)]) == [first, second];
    SafeAllNonEmpty([first, second]);
    assert SafeAll([first, second]) == [SafeText(first), SafeText(second)];
  }

  /** A first segment, a second one holding the first wrapped line, and
      the remaining lines below: together they show the non-empty strings
      of the list. */
  lemma SegmentsThenLines(first: string, lines: seq<string>, b1: bool, b2: bool)
    requires |lines| >= 1
    requires SafeText(lines[0]) == lines[0] && SafeAll(lines[1..]) == lines[1..]
    requires NonEmpty(lines[1..]) == lines[1..]
    ensures SafeAll(NonEmpty(SegmentTexts([Segment(first, b1), Segment(lines[0], b2)]))) + SafeAll(lines[1..])
         == NonEmpty([SafeText(first)] + lines)
  {
    var l0, rest := lines[0], lines[1..];
    var x := SafeText(first);
    assert SafeAll(NonEmpty(SegmentTexts([Segment(first, b1), Segment(l0, b2)]))) == NonEmpty([x, l0]) by {
      PairTexts(first, l0, b1, b2);
    }
    NonEmptyCons2(x, l0, rest);
    HeadTail(lines);
  }

  /** A single segment shows its text when that is not empty. */
  lemma SingleTexts(first: string, b: bool)
    ensures SafeAll(NonEmpty(SegmentTexts([Segment(first, b)]))) == NonEmpty([SafeText(first)])
  {
    assert SegmentTexts([Segment(first, b)]) == [first];
    SafeAllNonEmpty([first]);
    assert SafeAll([first]) == [SafeText(first)];
  }

  /** What the key/value paragraph's drawing shows, per branch. */
  lemma KvParaTexts(key: string, value: string, size: real, indent: real)
    requires size != 0.0
    ensures var lines := KvLines(key, value, size, indent);
      && (|lines| > 0 ==>
           SafeAll(NonEmpty(SegmentTexts([Segment(key, true), Segment(lines[0], false)]))) + SafeAll(lines[1..])
           == NonEmpty([SafeText(key)] + lines))
      && (|lines| == 0 ==>
           SafeAll(NonEmpty(SegmentTexts([Segment(key, true)]))) == NonEmpty([SafeText(key)] + lines))
  {
    var lines := KvLines(key, value, size, indent);
    if value != "" {
      WrapFacts(value, MaxChars(ContentW - (indent + ApproxWidth(key, size, true)), size));
      SegmentsThenLines(key, lines, true, false);
    } else {
      SingleTexts(key, true);
      assert [SafeText(key)] + lines == [SafeText(key)];
    }
  }

  /** What the bulleted paragraph's drawing shows. */
  lemma BulletTexts(lines: seq<string>, bold: bool)
    requires |lines| >= 1
    requires SafeText(lines[0]) == lines[0] && SafeAll(lines[1..]) == lines[1..]
    requires NonEmpty(lines[1..]) == lines[1..]
    ensures SafeAll(NonEmpty(SegmentTexts([Segment(BulletPrefix, false), Segment(lines[0], bold)]))) + SafeAll(lines[1..])
         == [BulletPrefix] + NonEmpty(lines)
  {
    SegmentsThenLines(BulletPrefix, lines, false, bold);
    BulletPrefixIsSafe();
    NonEmptyAppend([BulletPrefix], lines);
  }

  lemma ParaLinesTexts(text: string, size: real, indent: real, bullet: bool, bold: bool)
    requires size != 0.0
    ensures var lines := WrapPdfText(text, ParaChars(size, indent, bullet));
      && SafeAll(lines) == lines
      && SafeAll(NonEmpty(SegmentTexts([Segment(BulletPrefix, false), Segment(lines[0], bold)]))) + SafeAll(lines[1..])
         == [BulletPrefix] + NonEmpty(lines)
  {
    var lines := WrapPdfText(text, ParaChars(size, indent, bullet));
    WrapFacts(text, ParaChars(size, indent, bullet));
    BulletTexts(lines, bold);
  }

  lemma BlockTexts(value: string, size: real, valueIndent: real)
    requires value == "" || size != 0.0
    ensures SafeAll(BlockLines(value, size, valueIndent)) == BlockLines(value, size, valueIndent)
  {
    if value != "" {
      WrapFacts(value, MaxChars(ContentW - valueIndent, size));
    }
  }

  // ---------------------------------------------------------------------
  // Drawing the items
  // ---------------------------------------------------------------------

  lemma NonEmptyPair(a: string, b: string)
    ensures NonEmpty([a, b]) == (if a != "" then [a] else []) + (if b != "" then [b] else [])
  {
    var none: seq<string> := [];
    assert [a, b][1..] == [b];
    assert [b][1..] == none;
    assert NonEmpty([b]) == (if b != "" then [b] else []) + NonEmpty(none);
  }

  /** The experience header: the role bold on the left and the dates on
      the right of the same baseline when both fit side by side, the dates
      on a smaller indented line below otherwise; either alone on its own
      line. */
  method DrawExpMeta(p: Pager, left: string, right: string, size: real) returns (r: Pager)
    ensures PagesNonEmpty(p.pages) ==> PagesNonEmpty(r.pages)
    ensures Texts(AllCmds(r)) == Texts(AllCmds(p)) + NonEmpty([SafeText(left), SafeText(right)])
  {
    ghost var sl, sr := SafeText(left), SafeText(right);
    NonEmptyPair(sl, sr);
    assert sl == "" <==> left == "";
    assert sr == "" <==> right == "";
    ghost var t0 := Texts(AllCmds(p));
    var lh := LineHeight(size);
    r := EnsureSpace(p, lh);
    if left != "" && right != "" {
      r := AddTextLine(r, left, size, true, Left, 0.0);
      ghost var t1 := Texts(AllCmds(r));
      if ApproxWidth(left, size, true) + ApproxWidth(right, size, false) + 18.0 <= ContentW {
        r := r.(y := r.y + lh);
        r := AddTextLine(r, right, size, false, Right, 0.0);
      } else {
        r := AddTextLine(r, right, MaxReal(9.5, size - 0.2), false, Left, 12.0);
      }
      ShownStep(t1, Texts(AllCmds(r)), t0, [sl], [sr]);
      assert NonEmpty([sl, sr]) == [sl] + [sr];
    } else if left != "" {
      r := AddTextLine(r, left, size, true, Left, 0.0);
      assert NonEmpty([sl, sr]) == [sl];
    } else if right != "" {
      r := AddTextLine(r, right, size, false, Right, 0.0);
      assert NonEmpty([sl, sr]) == [sr];
    } else {
      assert NonEmpty([sl, sr]) == [];
    }
  }

  /** The caption bold with the value's first line beside it, the other
      value lines aligned under the value's start. */
  method DrawKvPara(p: Pager, key: string, value: string, size: real, indent: real) returns (r: Pager)
    requires size != 0.0
    ensures PagesNonEmpty(p.pages) ==> PagesNonEmpty(r.pages)
    ensures Texts(AllCmds(r)) == Texts(AllCmds(p)) + NonEmpty([SafeText(key)] + KvLines(key, value, size, indent))
  {
    var lines := KvLines(key, value, size, indent);
    KvParaTexts(key, value, size, indent);
    if |lines| > 0 {
      ghost var t0 := Texts(AllCmds(p));
      var segs := [Segment(key, true), Segment(lines[0], false)];
      r := AddSegments(p, segs, size, indent);
      ghost var t1 := Texts(AllCmds(r));
      r := AddLines(r, lines[1..], size, false, indent + ApproxWidth(key, size, true));
      ShownStep(t1, Texts(AllCmds(r)), t0, SafeAll(NonEmpty(SegmentTexts(segs))), SafeAll(lines[1..]));
    } else {
      r := AddSegments(p, [Segment(key, true)], size, indent);
    }
  }

  /** The caption bold on its own line, the value wrapped below it. */
  method DrawKvBlock(p: Pager, key: string, value: string, size: real, indent: real, valueIndent: real) returns (r: Pager)
    requires value == "" || size != 0.0
    ensures PagesNonEmpty(p.pages) ==> PagesNonEmpty(r.pages)
    ensures Texts(AllCmds(r)) == Texts(AllCmds(p)) + ([SafeText(key)] + BlockLines(value, size, valueIndent))
  {
    ghost var t0 := Texts(AllCmds(p));
    var lines := BlockLines(value, size, valueIndent);
    r := AddTextLine(p, key, size, true, Left, indent);
    ghost var t1 := Texts(AllCmds(r));
    BlockTexts(value, size, valueIndent);
    r := AddLines(r, lines, size, false, valueIndent);
    ShownStep(t1, Texts(AllCmds(r)), t0, [SafeText(key)], lines);
  }

  /** The strings a paragraph shows: its wrapped lines, after the bullet
      for a bulleted one (where an empty first line is not drawn). */
  function ParaTexts(text: string, size: real, indent: real, bullet: bool): seq<string>
    requires size != 0.0
  {
    var lines := WrapPdfText(text, ParaChars(size, indent, bullet));
    if bullet then [BulletPrefix] + NonEmpty(lines) else lines
  }

  /** A wrapped paragraph; a bulleted one has the bullet in front of its
      first line and its other lines aligned under the text. */
  method DrawPara(p: Pager, text: string, size: real, bold: bool, indent: real, bullet: bool) returns (r: Pager)
    requires size != 0.0
    ensures PagesNonEmpty(p.pages) ==> PagesNonEmpty(r.pages)
    ensures Texts(AllCmds(r)) == Texts(AllCmds(p)) + ParaTexts(text, size, indent, bullet)
  {
    var lines := WrapPdfText(text, ParaChars(size, indent, bullet));
    ParaLinesTexts(text, size, indent, bullet, bold);
    if bullet {
      ghost var t0 := Texts(AllCmds(p));
      var segs := [Segment(BulletPrefix, false), Segment(lines[0], bold)];
      r := AddSegments(p, segs, size, indent);
      ghost var t1 := Texts(AllCmds(r));
      r := AddLines(r, lines[1..], size, bold, indent + ApproxWidth(BulletPrefix, size, false));
      ShownStep(t1, Texts(AllCmds(r)), t0, SafeAll(NonEmpty(SegmentTexts(segs))), SafeAll(lines[1..]));
    } else {
      r := AddLines(p, lines, size, bold, indent);
    }
  }

  /** One item of the drawing loop, followed by its gap. */
  method Draw(p: Pager, it: DrawItem) returns (r: Pager)
    requires Drawable(it)
    ensures PagesNonEmpty(p.pages) ==> PagesNonEmpty(r.pages)
    ensures Texts(AllCmds(r)) == Texts(AllCmds(p)) + ItemTexts(it)
  {
    match it
    case Spacer(h) =>
      r := Advance(p, h);
    case LineItem(text, size, bold, align, indent, gap) =>
      r := AddTextLine(p, text, size, bold, align, indent);
      r := GapAfter(r, gap);
    case Rule(gap) =>
      r := AddRule(p);
      r := GapAfter(r, gap);
    case ExpMeta(left, right, size, gap) =>
      r := DrawExpMeta(p, left, right, size);
      r := GapAfter(r, gap);
    case KvPara(key, value, size, indent, gap) =>
      r := DrawKvPara(p, key, value, size, indent);
      r := GapAfter(r, gap);
    case KvBlock(key, value, size, indent, valueIndent, gap) =>
      r := DrawKvBlock(p, key, value, size, indent, valueIndent);
      r := GapAfter(r, gap);
    case ParaItem(text, size, bold, indent, bullet, gap) =>
      r := DrawPara(p, text, size, bold, indent, bullet);
      r := GapAfter(r, gap);
  }

  lemma {:induction false} AllTextsAppend(a: seq<DrawItem>, b: seq<DrawItem>)
    requires AllDrawable(a) && AllDrawable(b)
    ensures AllDrawable(a + b)
    ensures AllTexts(a + b) == AllTexts(a) + AllTexts(b)
    decreases |a|
  {
    if |a| == 0 {
      assert a + b == b;
    } else {
      assert (a + b)[1..] == a[1..] + b;
      AllTextsAppend(a[1..], b);
    }
  }

  lemma ShownStep(before: seq<string>, after: seq<string>, start: seq<string>, done: seq<string>, more: seq<string>)
    requires before == start + done && after == before + more
    ensures after == start + (done + more)
  {
  }

  /** The drawing loop over all items. */
  method DrawAll(p: Pager, items: seq<DrawItem>) returns (r: Pager)
    requires AllDrawable(items)
    ensures PagesNonEmpty(p.pages) ==> PagesNonEmpty(r.pages)
    ensures Texts(AllCmds(r)) == Texts(AllCmds(p)) + AllTexts(items)
  {
    r := p;
    var i := 0;
    while i < |items|
      invariant 0 <= i <= |items|
      invariant PagesNonEmpty(p.pages) ==> PagesNonEmpty(r.pages)
      invariant Texts(AllCmds(r)) == Texts(AllCmds(p)) + AllTexts(items[..i])
    {
      ghost var before := Texts(AllCmds(r));
      r := Draw(r, items[i]);
      AllTextsAppend(items[..i], [items[i]]);
      assert AllTexts([items[i]]) == ItemTexts(items[i]);
      ShownStep(before, Texts(AllCmds(r)), Texts(AllCmds(p)), AllTexts(items[..i]), ItemTexts(items[i]));
      TakeSnoc(items, i);
      i := i + 1;
    }
    assert items[..i] == items;
  }

  /** A fresh pager has shown nothing and holds no empty page. */
  lemma FreshShowsNothing()
    ensures Texts(AllCmds(Fresh)) == [] && PagesNonEmpty(Fresh.pages)
  {
    assert AllCmds(Fresh) == [];
  }

  /** The pages left after the last flush hold every operator drawn. */
  lemma FlushedPagesShow(p: Pager)
    ensures Flatten(FlushPage(p).pages) == AllCmds(p)
  {
    var q := FlushPage(p);
    assert AllCmds(q) == Flatten(q.pages) + [];
  }

  /** The pages of a drawing: every item drawn from the top of a fresh
      page, the last page closed. No page is empty, and the pages together
      show exactly the items' strings, in order. */
  method Paginate(items: seq<DrawItem>) returns (pages: seq<seq<string>>)
    requires AllDrawable(items)
    ensures PagesNonEmpty(pages)
    ensures Texts(Flatten(pages)) == AllTexts(items)
  {
    FreshShowsNothing();
    var p := DrawAll(Fresh, items);
    pages := FlushPage(p).pages;
    FlushedPagesShow(p);
  }
}

=== FILE: parser.dfy ===
/** `parse_resume`: a line-cursor pass over the résumé text. The first
    non-blank line is the name, the following non-blank lines the contact
    block, an optional line after it the title, and the rest is scanned
    for section headings whose buffered lines are flushed into the
    document field of their section. */
module Parser {
  import opened Text
  import opened Normalize

  datatype Section = NoSection | Summary | Experience | Skills | Certifications | Education

  /** One block of the experience section. */
  datatype Job = Job(header: string, duration: Option<string>, bullets: seq<string>)

  datatype Doc = Doc(
    name: string,
    contact: seq<string>,
    title: string,
    summary: string,
    experience: seq<Job>,
    skills: seq<string>,
    skillsRaw: string,
    certifications: seq<string>,
    education: seq<string>,
    company: string)

  const EmptyDoc := Doc("", [], "", "", [], [], "", [], [], "")

  // ---------------------------------------------------------------------
  // The cursor
  // ---------------------------------------------------------------------

  predicate IsNonBlank(s: string) { !IsBlank(s) }

  /** `len(s.strip()) == 1` */
  predicate IsSingleChar(s: string) { |Strip(s)| == 1 }

  /** The first index at or after `i` whose line fails `p`: the
      `while i < len(lines) and p(lines[i]): i += 1` loops. */
  function RunEnd(lines: seq<string>, i: nat, p: string -> bool): (j: nat)
    requires i <= |lines|
    ensures i <= j <= |lines|
    ensures forall k :: i <= k < j ==> p(lines[k])
    ensures j == |lines| || !p(lines[j])
    decreases |lines| - i
  {
    if i < |lines| && p(lines[i]) then RunEnd(lines, i + 1, p) else i
  }

  /** `[s.strip() for s in xs]`.
      It exists to give callers' quantifiers a term to trigger on. */
  function StripAll(xs: seq<string>): (r: seq<string>)
    ensures |r| == |xs|
    ensures forall k :: 0 <= k < |xs| ==> r[k] == Strip(xs[k])
  {
    seq(|xs|, k requires 0 <= k < |xs| => Strip(xs[k]))
  }

  // ---------------------------------------------------------------------
  // Name, contact block, title
  // ---------------------------------------------------------------------

  /** The name and the index after it: the first non-blank line, stripped,
      with the stripped one-character lines right after it appended. */
  function ParseName(lines: seq<string>, i: nat): (r: (string, nat))
    requires i <= |lines|
    ensures i <= r.1 <= |lines|
    ensures r.0 == "" <==> RunEnd(lines, i, IsBlank) == |lines|
  {
    var s := RunEnd(lines, i, IsBlank);
    if s < |lines| then
      var j := RunEnd(lines, s + 1, IsSingleChar);
      var parts := StripAll(lines[s..j]);
      assert Concat(parts) != "" by {
        assert parts[0] == Strip(lines[s]);
        ConcatStartsWith(parts);
      }
      (Concat(parts), j)
    else ("", s)
  }

  lemma ConcatStartsWith(parts: seq<string>)
    requires |parts| > 0
    ensures StartsWith(Concat(parts), parts[0])
  {
    if |parts| > 1 {
      assert Concat(parts) == parts[0] + Concat(parts[1..]);
    }
  }

  /** A name written one letter per line is read as one word: when the
      first line and every line after it hold a single non-space
      character, the name is all of them run together. */
  lemma VerticalName(lines: seq<string>)
    requires |lines| > 0
    requires forall k :: 0 <= k < |lines| ==> |lines[k]| == 1 && !IsSpace(lines[k][0])
    ensures ParseName(lines, 0) == (Concat(lines), |lines|)
  {
    assert forall k :: 0 <= k < |lines| ==> Strip(lines[k]) == lines[k] by {
      forall k | 0 <= k < |lines|
        ensures Strip(lines[k]) == lines[k]
      {
        StripNoop(lines[k]);
      }
    }
    assert RunEnd(lines, 0, IsBlank) == 0;
    assert RunEnd(lines, 1, IsSingleChar) == |lines|;
    assert StripAll(lines[0..|lines|]) == lines;
    ParseNameFound(lines, 0, |lines|);
  }

  /** The letters J, A, N, E on four lines give the name `JANE`. */
  lemma VerticalJane()
    ensures ParseName(["J", "A", "N", "E"], 0) == ("JANE", 4)
  {
    VerticalName(["J", "A", "N", "E"]);
    ConcatLetters('J', 'A', 'N', 'E');
  }

  /** `ParseName` once the name line and the end of the letters after it
      are known. */
  lemma ParseNameFound(lines: seq<string>, s: nat, j: nat)
    requires s == RunEnd(lines, 0, IsBlank) && s < |lines|
    requires j == RunEnd(lines, s + 1, IsSingleChar)
    ensures ParseName(lines, 0) == (Concat(StripAll(lines[s..j])), j)
  {
  }

  /** Four one-letter strings run together spell the word. */
  lemma ConcatLetters(a: char, b: char, c: char, d: char)
    ensures Concat([[a], [b], [c], [d]]) == [a, b, c, d]
  {
    assert Join([[c], [d]], "") == [c, d] by {
      assert [[c], [d]][1..] == [[d]];
    }
    assert Join([[b], [c], [d]], "") == [b, c, d] by {
      assert [[b], [c], [d]][1..] == [[c], [d]];
    }
    assert Join([[a], [b], [c], [d]], "") == [a, b, c, d] by {
      assert [[a], [b], [c], [d]][1..] == [[b], [c], [d]];
    }
  }

  /** `partition(':')` of a `company name:` line: the stripped text after
      the first colon, when there is any, replaces the company. */
  function CompanyLine(c: string, company: string): string {
    if StartsWith(Lower(c), "company name:") then
      var k := SpanUntil(c, IsColonChar);
      if k < |c| && c[k + 1..] != "" then Strip(c[k + 1..]) else company
    else company
  }

  predicate IsColonChar(c: char) { c == ':' }

  /** The company after reading the contact lines `cs` in order. */
  function CompanyOf(cs: seq<string>, company: string): (r: string)
    ensures (forall k :: 0 <= k < |cs| ==> !StartsWith(Lower(cs[k]), "company name:")) ==> r == company
    decreases |cs|
  {
    if |cs| == 0 then company else CompanyOf(cs[1..], CompanyLine(cs[0], company))
  }

  /** The last `company name:` line with a value wins. */
  lemma {:induction false} CompanyOfSnoc(cs: seq<string>, c: string, company: string)
    ensures CompanyOf(cs + [c], company) == CompanyLine(c, CompanyOf(cs, company))
    decreases |cs|
  {
    if |cs| == 0 {
      assert (cs + [c])[1..] == [];
    } else {
      assert (cs + [c])[1..] == cs[1..] + [c];
      CompanyOfSnoc(cs[1..], c, CompanyLine(cs[0], company));
    }
  }

  predicate IsNationality(c: string) {
    StartsWith(Lower(Strip(c)), "nationality:")
  }

  /** One blank entry after every `Nationality:` contact, unless the next
      entry is blank already. */
  function InsertNationalityBlanks(cs: seq<string>): (r: seq<string>)
    ensures |cs| <= |r|
    ensures IsSubsequence(cs, r)
    ensures NonEmpty(r) == NonEmpty(cs)
  {
    if |cs| == 0 then []
    else
      var nextIsBlank := |cs| > 1 && Strip(cs[1]) == "";
      var b := if IsNationality(cs[0]) && !nextIsBlank then [""] else [];
      var rest := InsertNationalityBlanks(cs[1..]);
      BlankInserted(cs, b, rest);
      [cs[0]] + b + rest
  }

  /** One step of the insertion: the head, an optional blank, then the
      rest with its blanks inserted. */
  lemma BlankInserted(cs: seq<string>, b: seq<string>, rest: seq<string>)
    requires |cs| > 0 && (b == [] || b == [""])
    requires IsSubsequence(cs[1..], rest) && NonEmpty(rest) == NonEmpty(cs[1..])
    ensures IsSubsequence(cs, [cs[0]] + b + rest)
    ensures NonEmpty([cs[0]] + b + rest) == NonEmpty(cs)
  {
    var r := [cs[0]] + b + rest;
    assert r[1..] == b + rest;
    if b == [""] {
      assert (b + rest)[1..] == rest;
    } else {
      assert b + rest == rest;
    }
    NonEmptyAppend([cs[0]] + b, rest);
    NonEmptyAppend([cs[0]], b);
    assert NonEmpty(b) == [] by {
      if b == [""] {
        assert b[1..] == [];
      }
    }
    assert NonEmpty(cs) == NonEmpty([cs[0]]) + NonEmpty(cs[1..]) by {
      assert cs == [cs[0]] + cs[1..];
      NonEmptyAppend([cs[0]], cs[1..]);
    }
  }

  /** Contacts are non-blank, so dropping the inserted blanks gives them
      back; every nationality entry is followed by a blank, and every blank
      follows a nationality entry. */
  lemma {:induction false} InsertNationalityBlanksShape(cs: seq<string>)
    requires forall k :: 0 <= k < |cs| ==> IsNonBlank(cs[k])
    ensures NonEmpty(InsertNationalityBlanks(cs)) == cs
    ensures BlanksFollow(InsertNationalityBlanks(cs), IsNationality)
  {
    if |cs| > 0 {
      var c := cs[0];
      assert c != "" by {
        assert |Strip(c)| <= |c|;
      }
      InsertNationalityBlanksShape(cs[1..]);
      var rest := InsertNationalityBlanks(cs[1..]);
      var b := if IsNationality(c) then [""] else [];
      InsertUnfold(cs);
      NonEmptyStep(c, b, rest);
      assert cs == [c] + cs[1..];
      assert rest == [] || rest[0] != "" by {
        if |cs| > 1 {
          InsertUnfold(cs[1..]);
          assert rest[0] == cs[1];
          assert |Strip(cs[1])| <= |cs[1]|;
        }
      }
      InsertShapeStep(c, b, rest, IsNationality);
    }
  }

  /** Every entry `p` accepts is followed by a blank, and every blank
      follows such an entry. */
  predicate BlanksFollow(r: seq<string>, p: string -> bool) {
    && (forall k :: 0 <= k < |r| && r[k] != "" && p(r[k]) ==> k + 1 < |r| && r[k + 1] == "")
    && (forall k :: 0 <= k < |r| && r[k] == "" ==> 0 < k && p(r[k - 1]) && r[k - 1] != "")
  }

  lemma InsertUnfold(cs: seq<string>)
    requires |cs| > 0
    requires forall k :: 0 <= k < |cs| ==> IsNonBlank(cs[k])
    ensures InsertNationalityBlanks(cs)
         == [cs[0]] + (if IsNationality(cs[0]) then [""] else []) + InsertNationalityBlanks(cs[1..])
  {
    assert !(|cs| > 1 && Strip(cs[1]) == "");
  }

  lemma NonEmptyStep(c: string, b: seq<string>, rest: seq<string>)
    requires c != "" && (b == [] || b == [""])
    ensures NonEmpty([c] + b + rest) == [c] + NonEmpty(rest)
  {
    NonEmptyAppend([c] + b, rest);
    NonEmptyAppend([c], b);
    assert NonEmpty([c]) == [c] by { assert [c][1..] == []; }
    if b == [""] {
      assert b[1..] == [];
    }
  }

  lemma InsertShapeStep(c: string, b: seq<string>, rest: seq<string>, p: string -> bool)
    requires c != "" && b == (if p(c) then [""] else [])
    requires BlanksFollow(rest, p)
    requires rest == [] || rest[0] != ""
    ensures BlanksFollow([c] + b + rest, p)
  {
    var r := [c] + b + rest;
    var n := 1 + |b|;
    forall k | 0 <= k < |r| && r[k] != "" && p(r[k])
      ensures k + 1 < |r| && r[k + 1] == ""
    {
      if k >= n {
        assert r[k] == rest[k - n];
        assert r[k + 1] == rest[k + 1 - n];
      } else if k == 0 {
        assert r[1] == b[0];
      }
    }
    forall k | 0 <= k < |r| && r[k] == ""
      ensures 0 < k && p(r[k - 1]) && r[k - 1] != ""
    {
      if k > n {
        assert r[k] == rest[k - n];
        assert r[k - 1] == rest[k - 1 - n];
      }
    }
  }

  /** `ln.lower().rstrip(":")` of an already stripped line. */
  function HeadingKey(ln: string): string {
    TrimEnd(Lower(ln), IsColonChar)
  }

  const KnownSectionKeys: set<string> := {
    "professional summary", "summary", "professional experience", "experience",
    "technical skills", "skills", "certifications", "certification",
    "education", "qualification"
  }

  /** The title test: a known section key or anything starting `certificat`. */
  predicate IsSectionKey(key: string) {
    key in KnownSectionKeys || StartsWith(key, "certificat")
  }

  /** The section a stripped line opens, if it is a heading. */
  function HeadingOf(ln: string): (r: Option<Section>)
    ensures r != Some(NoSection)
  {
    var key := HeadingKey(ln);
    if key == "professional summary" || key == "summary" then Some(Summary)
    else if key == "professional experience" || key == "experience" then Some(Experience)
    else if key == "technical skills" || key == "skills" then Some(Skills)
    else if StartsWith(key, "certificat") then Some(Certifications)
    else if key == "education" || key == "qualification" then Some(Education)
    else None
  }

  /** The title's key set and the scan's heading tests agree. */
  lemma SectionKeyIsHeading(ln: string)
    ensures IsSectionKey(HeadingKey(ln)) <==> HeadingOf(ln).Some?
  {
    var key := HeadingKey(ln);
    if key == "certifications" || key == "certification" {
      assert key[..10] == "certificat";
    }
  }

  /** The title and the index after it: the first non-blank line after the
      contacts, when it is not a section heading, followed by its blanks. */
  function ParseTitle(lines: seq<string>, i: nat): (r: (string, nat))
    requires i <= |lines|
    ensures i <= r.1 <= |lines|
    ensures r.0 != "" ==> Stripped(r.0)
  {
    var s := RunEnd(lines, i, IsBlank);
    if s < |lines| && !IsSectionKey(HeadingKey(Strip(lines[s]))) then
      (Strip(lines[s]), RunEnd(lines, s + 1, IsBlank))
    else ("", s)
  }

  /** A title is captured exactly when the first non-blank line after the
      contacts is not a section heading; otherwise the cursor stays on it. */
  lemma TitleIffNotHeading(lines: seq<string>, i: nat)
    requires i <= |lines|
    ensures var s := RunEnd(lines, i, IsBlank);
      && (ParseTitle(lines, i).0 != "" <==> s < |lines| && HeadingOf(Strip(lines[s])).None?)
      && (ParseTitle(lines, i).0 == "" ==> ParseTitle(lines, i).1 == s)
  {
    var s := RunEnd(lines, i, IsBlank);
    if s < |lines| {
      SectionKeyIsHeading(Strip(lines[s]));
    }
  }

  // ---------------------------------------------------------------------
  // Flushing a section
  // ---------------------------------------------------------------------

  /** The stripped, non-blank entries, in order. */
  function StrippedNonBlank(xs: seq<string>): (r: seq<string>)
    ensures forall k :: 0 <= k < |r| ==> r[k] != "" && Stripped(r[k])
    ensures |r| <= |xs|
  {
    if |xs| == 0 then []
    else (if Strip(xs[0]) != "" then [Strip(xs[0])] else []) + StrippedNonBlank(xs[1..])
  }

  /** The non-blank entries, unchanged, in order. */
  function NonBlankOnly(xs: seq<string>): (r: seq<string>)
    ensures forall k :: 0 <= k < |r| ==> IsNonBlank(r[k])
    ensures |r| <= |xs|
  {
    if |xs| == 0 then []
    else (if IsNonBlank(xs[0]) then [xs[0]] else []) + NonBlankOnly(xs[1..])
  }

  /** One experience block, given its non-blank lines: the first is the
      header, a second line with four consecutive digits is the duration,
      the rest are bullets; a header opening with a bullet glyph becomes
      the first bullet instead. */
  function ParseJob(ls: seq<string>): (j: Job)
    requires |ls| > 0
    ensures forall k :: 0 <= k < |j.bullets| ==> IsCleanItem(j.bullets[k])
    ensures j.duration.Some? <==> |ls| > 1 && HasFourDigits(ls[1])
    ensures j.duration.Some? ==> j.duration.value == ls[1]
    ensures StartsWithGlyph(ls[0]) ==> j.header == ""
    ensures !StartsWithGlyph(ls[0]) ==> j.header == ls[0]
  {
    var hasDuration := |ls| > 1 && HasFourDigits(ls[1]);
    var duration := if hasDuration then Some(ls[1]) else None;
    var rest := ls[if hasDuration then 2 else 1..];
    if StartsWithGlyph(ls[0]) then Job("", duration, CleanEntries([ls[0]] + rest))
    else Job(ls[0], duration, CleanEntries(rest))
  }

  /** `header.strip()` starts with `*`, `•` or `-`. */
  predicate StartsWithGlyph(s: string) {
    var t := Strip(s);
    t != "" && IsBulletGlyph(t[0])
  }

  /** A header that is really a bullet is cleaned and put first. */
  lemma GlyphHeaderBecomesBullet(ls: seq<string>)
    requires |ls| > 0 && StartsWithGlyph(ls[0]) && CleanBullet(ls[0]) != ""
    ensures ParseJob(ls).header == ""
    ensures |ParseJob(ls).bullets| > 0 && ParseJob(ls).bullets[0] == CleanBullet(ls[0])
  {
    var hasDuration := |ls| > 1 && HasFourDigits(ls[1]);
    var rest := ls[if hasDuration then 2 else 1..];
    assert ([ls[0]] + rest)[1..] == rest;
  }

  /** The jobs of the experience text: blocks separated by a blank line. */
  function ExperienceJobs(text: string): seq<Job> {
    JobsOf(StrippedNonBlank(SplitOn(text, "\n\n")))
  }

  /** Every bullet of the job is a clean list item. */
  predicate CleanJob(j: Job) {
    forall b :: 0 <= b < |j.bullets| ==> IsCleanItem(j.bullets[b])
  }

  function JobsOf(parts: seq<string>): (jobs: seq<Job>)
    ensures |jobs| <= |parts|
    ensures forall k :: 0 <= k < |jobs| ==> CleanJob(jobs[k])
  {
    if |parts| == 0 then []
    else
      var ls := NonBlankOnly(SplitLines(parts[0]));
      var first := if ls == [] then [] else [ParseJob(ls)];
      var rest := JobsOf(parts[1..]);
      assert forall k :: 0 <= k < |first| ==> CleanJob(first[k]);
      first + rest
  }

  predicate IsSkillSep(c: char) { c == '-' || c == ',' || c == '\n' || c == ';' }

  /** The skills lines: non-blank lines, stripped and cleaned of glyphs
      (a line that was only glyphs stays, empty). */
  function SkillLines(lines: seq<string>): (r: seq<string>)
    ensures |r| <= |lines|
  {
    if |lines| == 0 then []
    else (if IsNonBlank(lines[0]) then [CleanBullet(lines[0])] else []) + SkillLines(lines[1..])
  }

  /** `re.split(r"[-,\n;]+", raw)`, then each piece stripped, empty ones
      dropped and camel-case joints split. */
  function SkillTokens(pieces: seq<string>): (r: seq<string>)
    ensures forall k :: 0 <= k < |r| ==> r[k] != ""
  {
    if |pieces| == 0 then []
    else
      var s := Strip(pieces[0]);
      (if s != "" then [SplitCamel(s)] else []) + SkillTokens(pieces[1..])
  }

  /** `flush_buffer`: the buffered lines, joined and stripped, fill the
      field of `sec`. Blank text and no section change nothing; experience
      jobs are appended, every other field is replaced. */
  function Flush(sec: Section, buf: seq<string>, doc: Doc): (r: Doc)
    ensures IsBlank(Join(buf, "\n")) || sec == NoSection ==> r == doc
    ensures r.name == doc.name && r.contact == doc.contact && r.title == doc.title && r.company == doc.company
    ensures sec != Summary ==> r.summary == doc.summary
    ensures sec != Experience ==> r.experience == doc.experience
    ensures sec == Experience ==> r.experience == doc.experience + ExperienceJobs(Strip(Join(buf, "\n")))
    ensures sec != Skills ==> r.skills == doc.skills && r.skillsRaw == doc.skillsRaw
    ensures sec != Certifications ==> r.certifications == doc.certifications
    ensures sec != Education ==> r.education == doc.education
    ensures sec == Summary && !IsBlank(Join(buf, "\n")) ==> r.summary == Strip(Join(buf, "\n"))
  {
    var text := Strip(Join(buf, "\n"));
    if text == "" then doc
    else
      match sec
      case NoSection => doc
      case Summary => doc.(summary := text)
      case Experience => doc.(experience := doc.experience + ExperienceJobs(text))
      case Skills =>
        var raw := Join(SkillLines(SplitLines(text)), "\n");
        doc.(skillsRaw := raw, skills := SkillTokens(Tokens(raw, IsSkillSep)))
      case Certifications => doc.(certifications := CleanEntries(SplitLines(text)))
      case Education => doc.(education := CleanEntries(SplitLines(text)))
  }

  /** A later summary, skills, certifications or education section with
      text replaces the field whatever an earlier one left in it. */
  lemma FlushOverwrites(sec: Section, buf: seq<string>, d1: Doc, d2: Doc)
    requires sec != NoSection && sec != Experience && !IsBlank(Join(buf, "\n"))
    ensures FieldOf(sec, Flush(sec, buf, d1)) == FieldOf(sec, Flush(sec, buf, d2))
  {
  }

  /** The part of the document a section fills. */
  function FieldOf(sec: Section, d: Doc): (string, seq<string>) {
    match sec
    case Summary => (d.summary, [])
    case Skills => (d.skillsRaw, d.skills)
    case Certifications => ("", d.certifications)
    case Education => ("", d.education)
    case _ => ("", [])
  }

  // ---------------------------------------------------------------------
  // The section scan and the whole parse
  // ---------------------------------------------------------------------

  /** What the scan sees in one stripped line: a heading or body text. */
  datatype Line = Heading(opens: Section) | Body(text: string)

  function LineKind(ln: string): (l: Line)
    ensures l.Body? ==> l.text == ln
  {
    match HeadingOf(ln)
    case Some(s) => Heading(s)
    case None => Body(ln)
  }

  /** The scanned lines, stripped and classified.
      It exists to give callers' quantifiers a term to trigger on. */
  function Kinds(lines: seq<string>): (ls: seq<Line>)
    ensures |ls| == |lines|
    ensures forall k :: 0 <= k < |lines| ==> ls[k] == LineKind(Strip(lines[k]))
  {
    seq(|lines|, k requires 0 <= k < |lines| => LineKind(Strip(lines[k])))
  }

  /** The `while i < len(lines)` scan, in section `sec` with the lines
      buffered so far, and the final flush. */
  function Scan(ls: seq<Line>, sec: Section, buf: seq<string>, doc: Doc): Doc
  {
    if |ls| == 0 then Flush(sec, buf, doc)
    else
      match ls[0]
      case Heading(next) => Scan(ls[1..], next, [], Flush(sec, buf, doc))
      case Body(ln) => Scan(ls[1..], sec, buf + [ln], doc)
  }

  /** The scan fills only the section fields, and experience jobs are
      only ever added after the earlier ones. */
  lemma {:induction false} ScanKeepsHeader(ls: seq<Line>, sec: Section, buf: seq<string>, doc: Doc)
    ensures var r := Scan(ls, sec, buf, doc);
      && r.name == doc.name && r.contact == doc.contact && r.title == doc.title && r.company == doc.company
      && |doc.experience| <= |r.experience| && r.experience[..|doc.experience|] == doc.experience
  {
    if |ls| > 0 {
      match ls[0]
      case Heading(next) =>
        var d := Flush(sec, buf, doc);
        ScanKeepsHeader(ls[1..], next, [], d);
        var r := Scan(ls[1..], next, [], d);
        assert r.experience[..|doc.experience|] == r.experience[..|d.experience|][..|doc.experience|];
      case Body(ln) =>
        ScanKeepsHeader(ls[1..], sec, buf + [ln], doc);
    }
  }

  /** The contact block: the stripped non-blank lines after the name. */
  function ContactLines(lines: seq<string>): (cs: seq<string>)
    ensures forall k :: 0 <= k < |cs| ==> IsNonBlank(cs[k]) && Stripped(cs[k])
  {
    var i1 := ParseName(lines, 0).1;
    var i2 := RunEnd(lines, i1, IsNonBlank);
    StripRun(lines, i1, i2);
    StripAll(lines[i1..i2])
  }

  /** Stripping a run of non-blank lines leaves them non-blank. */
  lemma StripRun(lines: seq<string>, i: nat, j: nat)
    requires i <= j <= |lines|
    requires forall k :: i <= k < j ==> IsNonBlank(lines[k])
    ensures forall k :: 0 <= k < j - i ==> IsNonBlank(StripAll(lines[i..j])[k]) && Stripped(StripAll(lines[i..j])[k])
  {
    var cs := StripAll(lines[i..j]);
    forall k | 0 <= k < |cs|
      ensures IsNonBlank(cs[k]) && Stripped(cs[k])
    {
      assert lines[i..j][k] == lines[i + k];
      StripIdempotent(lines[i + k]);
    }
  }

  /** `parse_resume` */
  function ParseResume(lines: seq<string>): (d: Doc)
    ensures d.name == "" <==> forall k :: 0 <= k < |lines| ==> IsBlank(lines[k])
    ensures d.contact == InsertNationalityBlanks(ContactLines(lines))
    ensures d.company == CompanyOf(ContactLines(lines), "")
    ensures d.title == ParseTitle(lines, RunEnd(lines, ParseName(lines, 0).1, IsNonBlank)).0
  {
    var (name, i1) := ParseName(lines, 0);
    var i2 := RunEnd(lines, i1, IsNonBlank);
    var contactLines := ContactLines(lines);
    var (title, i3) := ParseTitle(lines, i2);
    var doc := EmptyDoc.(name := name, contact := InsertNationalityBlanks(contactLines),
                         title := title, company := CompanyOf(contactLines, ""));
    ScanKeepsHeader(Kinds(lines[i3..]), NoSection, [], doc);
    Scan(Kinds(lines[i3..]), NoSection, [], doc)
  }

  /** Dropping the nationality blanks from the parsed contacts gives the
      contact block back. */
  lemma ParseResumeContacts(lines: seq<string>)
    ensures NonEmpty(ParseResume(lines).contact) == ContactLines(lines)
  {
    InsertNationalityBlanksShape(ContactLines(lines));
  }

  lemma StripIdempotent(s: string)
    ensures Strip(Strip(s)) == Strip(s)
  {
    StripNoop(Strip(s));
  }

  /** Lines before the first heading are discarded: scanning them with no
      section open is the same as starting at the heading. */
  lemma {:induction false} ScanDiscardsPreamble(ls: seq<Line>, k: nat, buf: seq<string>, doc: Doc)
    requires k <= |ls|
    requires forall m :: 0 <= m < k ==> ls[m].Body?
    requires k == |ls| || ls[k].Heading?
    ensures Scan(ls, NoSection, buf, doc) == Scan(ls[k..], NoSection, [], doc)
    decreases k
  {
    if k > 0 {
      assert ls[1..][k - 1..] == ls[k..];
      ScanDiscardsPreamble(ls[1..], k - 1, buf + [ls[0].text], doc);
    } else if |ls| > 0 {
      assert ls[0..] == ls;
    }
  }

  /** Body lines go into the buffer and nothing is flushed until the next
      heading or the end of the text. */
  lemma {:induction false} ScanBodies(ls: seq<Line>, ts: seq<string>, sec: Section, buf: seq<string>, doc: Doc)
    requires |ls| == |ts|
    requires forall k :: 0 <= k < |ls| ==> ls[k] == Body(ts[k])
    ensures Scan(ls, sec, buf, doc) == Flush(sec, buf + ts, doc)
  {
    if |ls| == 0 {
      assert buf + ts == buf;
    } else {
      ScanBodies(ls[1..], ts[1..], sec, buf + [ts[0]], doc);
      assert buf + [ts[0]] + ts[1..] == buf + ts;
    }
  }

  /** Two experience sections: the second one's jobs follow the first's. */
  lemma ExperienceAccumulates(b1: seq<string>, b2: seq<string>, doc: Doc)
    ensures Flush(Experience, b2, Flush(Experience, b1, doc)).experience
         == doc.experience + ExperienceJobs(Strip(Join(b1, "\n"))) + ExperienceJobs(Strip(Join(b2, "\n")))
  {
  }
}

=== FILE: pdftext.dfy ===
/** Text preparation for the built-in PDF writer: the Windows-1252 code page
    the content streams are encoded in, `_pdf_safe_text` (fixed punctuation
    replacements, then encode/decode with `?` for anything unencodable),
    `_pdf_escape_text` (literal-string escaping, section 7.3.4.2 of
    ISO 32000-1) and the greedy word wrap `_wrap_pdf_text`. */
module PdfText {
  import opened Text

  newtype byte = x: int | 0 <= x < 256

  // ---------------------------------------------------------------------
  // Windows-1252
  // ---------------------------------------------------------------------

  /** The 27 characters Windows-1252 places in 0x80..0x9F. */
  function HighByte(c: char): Option<byte> {
    match c
    case '\U{20ac}' => Some(0x80)
    case '\U{201a}' => Some(0x82)
    case '\U{0192}' => Some(0x83)
    case '\U{201e}' => Some(0x84)
    case '\U{2026}' => Some(0x85)
    case '\U{2020}' => Some(0x86)
    case '\U{2021}' => Some(0x87)
    case '\U{02c6}' => Some(0x88)
    case '\U{2030}' => Some(0x89)
    case '\U{0160}' => Some(0x8a)
    case '\U{2039}' => Some(0x8b)
    case '\U{0152}' => Some(0x8c)
    case '\U{017d}' => Some(0x8e)
    case '\U{2018}' => Some(0x91)
    case '\U{2019}' => Some(0x92)
    case '\U{201c}' => Some(0x93)
    case '\U{201d}' => Some(0x94)
    case '\U{2022}' => Some(0x95)
    case '\U{2013}' => Some(0x96)
    case '\U{2014}' => Some(0x97)
    case '\U{02dc}' => Some(0x98)
    case '\U{2122}' => Some(0x99)
    case '\U{0161}' => Some(0x9a)
    case '\U{203a}' => Some(0x9b)
    case '\U{0153}' => Some(0x9c)
    case '\U{017e}' => Some(0x9e)
    case '\U{0178}' => Some(0x9f)
    case _ => None
  }

  /** Characters that share their code with Latin-1. */
  predicate IsLatinDirect(c: char) {
    c as int < 0x80 || (0xa0 <= c as int <= 0xff)
  }

  /** Characters the code page can represent. */
  predicate Encodable(c: char) {
    IsLatinDirect(c) || HighByte(c).Some?
  }

  /** `c.encode("cp1252", errors="replace")`: unencodable becomes `?`. */
  function EncodeChar(c: char): byte {
    if IsLatinDirect(c) then c as int as byte
    else match HighByte(c)
      case Some(b) => b
      case None => '?' as int as byte
  }

  /** `bytes([b]).decode("cp1252")`; the five bytes the code page leaves
      undefined, which encoding never produces, read as U+FFFD. */
  function DecodeByte(b: byte): char {
    match b
    case 0x80 => '\U{20ac}'
    case 0x82 => '\U{201a}'
    case 0x83 => '\U{0192}'
    case 0x84 => '\U{201e}'
    case 0x85 => '\U{2026}'
    case 0x86 => '\U{2020}'
    case 0x87 => '\U{2021}'
    case 0x88 => '\U{02c6}'
    case 0x89 => '\U{2030}'
    case 0x8a => '\U{0160}'
    case 0x8b => '\U{2039}'
    case 0x8c => '\U{0152}'
    case 0x8e => '\U{017d}'
    case 0x91 => '\U{2018}'
    case 0x92 => '\U{2019}'
    case 0x93 => '\U{201c}'
    case 0x94 => '\U{201d}'
    case 0x95 => '\U{2022}'
    case 0x96 => '\U{2013}'
    case 0x97 => '\U{2014}'
    case 0x98 => '\U{02dc}'
    case 0x99 => '\U{2122}'
    case 0x9a => '\U{0161}'
    case 0x9b => '\U{203a}'
    case 0x9c => '\U{0153}'
    case 0x9e => '\U{017e}'
    case 0x9f => '\U{0178}'
    case _ => if 0x80 <= b < 0xa0 then '\U{fffd}' else b as int as char
  }

  /** Decoding undoes encoding for every representable character, and any
      other character comes back as `?`. */
  lemma DecodeEncodeChar(c: char)
    ensures DecodeByte(EncodeChar(c)) == if Encodable(c) then c else '?'
  {
  }

  function Encode(s: string): (bs: seq<byte>)
    ensures |bs| == |s|
  {
    seq(|s|, i requires 0 <= i < |s| => EncodeChar(s[i]))
  }

  function Decode(bs: seq<byte>): (s: string)
    ensures |s| == |bs|
  {
    seq(|bs|, i requires 0 <= i < |bs| => DecodeByte(bs[i]))
  }

  lemma EncodeAppend(a: string, b: string)
    ensures Encode(a + b) == Encode(a) + Encode(b)
  {
  }

  // ---------------------------------------------------------------------
  // _pdf_safe_text
  // ---------------------------------------------------------------------

  /** The fixed replacement table: typographic dashes, quotes and the
      no-break space become ASCII; the bullet maps to itself. */
  function Substitute(c: char): char {
    match c
    case '\U{2013}' => '-'
    case '\U{2014}' => '-'
    case '\U{2018}' => '\''
    case '\U{2019}' => '\''
    case '\U{201c}' => '"'
    case '\U{201d}' => '"'
    case '\U{2022}' => '\U{2022}'
    case '\U{a0}' => ' '
    case _ => c
  }

  /** Characters the table rewrites into something else. */
  predicate IsReplaced(c: char) {
    Substitute(c) != c
  }

  /** What one character becomes: its table entry when the code page can
      represent that, and `?` otherwise. */
  function SafeChar(c: char): char {
    if Encodable(Substitute(c)) then Substitute(c) else '?'
  }

  /** A converted character is representable and is left alone by the
      table. */
  lemma SafeCharIsSafe(c: char)
    ensures Encodable(SafeChar(c)) && !IsReplaced(SafeChar(c))
    ensures SafeChar(SafeChar(c)) == SafeChar(c)
  {
  }

  /** `_pdf_safe_text`: apply the table, then round-trip through the code
      page with replacement. */
  function SafeText(text: string): (r: string)
    ensures |r| == |text|
  {
    Decode(Encode(seq(|text|, i requires 0 <= i < |text| => Substitute(text[i]))))
  }

  /** Each character is converted on its own. */
  lemma SafeTextChars(text: string)
    ensures forall i :: 0 <= i < |text| ==> SafeText(text)[i] == SafeChar(text[i])
  {
    var replaced := seq(|text|, i requires 0 <= i < |text| => Substitute(text[i]));
    forall i | 0 <= i < |text|
      ensures SafeText(text)[i] == SafeChar(text[i])
    {
      DecodeEncodeChar(replaced[i]);
    }
  }

  /** A character the conversion leaves as it is. */
  predicate IsSafeChar(c: char) {
    SafeChar(c) == c
  }

  /** Converted text consists of characters the conversion leaves alone. */
  lemma SafeTextIsSafe(text: string)
    ensures AllChars(SafeText(text), IsSafeChar)
  {
    SafeTextChars(text);
    forall i | 0 <= i < |text|
      ensures IsSafeChar(SafeText(text)[i])
    {
      SafeCharIsSafe(text[i]);
    }
  }

  /** Text made of such characters passes through unchanged. */
  lemma SafeTextOfSafe(text: string)
    requires AllChars(text, IsSafeChar)
    ensures SafeText(text) == text
  {
    SafeTextChars(text);
  }

  /** Text that is already safe passes through unchanged, so applying the
      conversion twice is the same as once. */
  lemma SafeTextIdempotent(text: string)
    ensures SafeText(SafeText(text)) == SafeText(text)
  {
    SafeTextIsSafe(text);
    SafeTextOfSafe(SafeText(text));
  }

  lemma SafeTextAppend(a: string, b: string)
    ensures SafeText(a + b) == SafeText(a) + SafeText(b)
  {
    SafeTextChars(a + b);
    SafeTextChars(a);
    SafeTextChars(b);
  }

  /** Every character of a safe text survives the code page. */
  lemma SafeTextEncodeRoundTrip(text: string)
    ensures Decode(Encode(SafeText(text))) == SafeText(text)
  {
    var r := SafeText(text);
    SafeTextChars(text);
    forall i | 0 <= i < |r|
      ensures Encodable(r[i])
    {
      SafeCharIsSafe(text[i]);
    }
    EncodeRoundTrip(r);
  }

  /** Text the code page can represent decodes back to itself. */
  lemma EncodeRoundTrip(s: string)
    requires forall i :: 0 <= i < |s| ==> Encodable(s[i])
    ensures Decode(Encode(s)) == s
  {
    forall i | 0 <= i < |s|
      ensures Decode(Encode(s))[i] == s[i]
    {
      DecodeEncodeChar(s[i]);
    }
  }

  // ---------------------------------------------------------------------
  // _pdf_escape_text
  // ---------------------------------------------------------------------

  /** The characters a PDF literal string must escape. */
  predicate IsPdfSpecial(c: char) {
    c == '\\' || c == '(' || c == ')'
  }

  /** `s.replace(c, rep)` for a single character. */
  function ReplaceChar(s: string, c: char, rep: string): string {
    if |s| == 0 then "" else (if s[0] == c then rep else [s[0]]) + ReplaceChar(s[1..], c, rep)
  }

  lemma {:induction false} ReplaceCharAppend(a: string, b: string, c: char, rep: string)
    ensures ReplaceChar(a + b, c, rep) == ReplaceChar(a, c, rep) + ReplaceChar(b, c, rep)
    decreases |a|
  {
    if |a| > 0 {
      assert (a + b)[1..] == a[1..] + b;
      ReplaceCharAppend(a[1..], b, c, rep);
    } else {
      assert a + b == b;
    }
  }

  /** The three chained `replace` calls of `_pdf_escape_text`. */
  function EscapeChain(s: string): string {
    ReplaceChar(ReplaceChar(ReplaceChar(s, '\\', "\\\\"), '(', "\\("), ')', "\\)")
  }

  /** Reference escaping, one character at a time: a backslash before each
      special character, everything else unchanged. */
  function EscapeSpecials(s: string): string {
    if |s| == 0 then ""
    else (if IsPdfSpecial(s[0]) then ['\\', s[0]] else [s[0]]) + EscapeSpecials(s[1..])
  }

  /** The chained replacements never touch the backslashes inserted by an
      earlier one, so together they escape each character independently. */
  lemma {:induction false} EscapeChainIsPerCharacter(s: string)
    ensures EscapeChain(s) == EscapeSpecials(s)
    decreases |s|
  {
    if |s| > 0 {
      var head, tail := [s[0]], s[1..];
      assert s == head + tail;
      var r1h, r1t := ReplaceChar(head, '\\', "\\\\"), ReplaceChar(tail, '\\', "\\\\");
      ReplaceCharAppend(head, tail, '\\', "\\\\");
      var r2h, r2t := ReplaceChar(r1h, '(', "\\("), ReplaceChar(r1t, '(', "\\(");
      ReplaceCharAppend(r1h, r1t, '(', "\\(");
      ReplaceCharAppend(r2h, r2t, ')', "\\)");
      EscapeChainIsPerCharacter(tail);
      assert ReplaceChar("\\\\", '(', "\\(") == "\\\\";
      assert ReplaceChar("\\\\", ')', "\\)") == "\\\\";
      assert ReplaceChar("\\(", ')', "\\)") == "\\(";
      assert ReplaceChar(ReplaceChar("\\", '(', "\\("), ')', "\\)") == "\\";
      assert EscapeSpecials(s) == EscapeSpecials(head) + EscapeSpecials(tail);
    }
  }

  /** What a PDF reader does with a literal string body: a backslash takes
      the next character literally. */
  function Unescape(s: string): string {
    if |s| == 0 then ""
    else if s[0] == '\\' && |s| >= 2 then [s[1]] + Unescape(s[2..])
    else [s[0]] + Unescape(s[1..])
  }

  /** A literal-string body a reader can delimit: every special character
      is preceded by its own escaping backslash. */
  predicate WellEscaped(s: string) {
    if |s| == 0 then true
    else if s[0] == '\\' then |s| >= 2 && IsPdfSpecial(s[1]) && WellEscaped(s[2..])
    else !IsPdfSpecial(s[0]) && WellEscaped(s[1..])
  }

  lemma {:induction false} EscapeSpecialsProperties(s: string)
    ensures Unescape(EscapeSpecials(s)) == s
    ensures WellEscaped(EscapeSpecials(s))
    ensures |EscapeSpecials(s)| == |s| + Count(s, IsPdfSpecial)
    decreases |s|
  {
    if |s| > 0 {
      EscapeSpecialsProperties(s[1..]);
      var e := EscapeSpecials(s);
      if IsPdfSpecial(s[0]) {
        assert e[2..] == EscapeSpecials(s[1..]);
      } else {
        assert e[1..] == EscapeSpecials(s[1..]);
      }
    }
  }

  /** `_pdf_escape_text`: the safe text with `\`, `(` and `)` escaped.
      A reader recovers the safe text exactly, the body is well delimited,
      and it grows by one byte per escaped character. */
  function EscapePdfText(text: string): (r: string)
    ensures Unescape(r) == SafeText(text)
    ensures WellEscaped(r)
    ensures |r| == |text| + Count(SafeText(text), IsPdfSpecial)
  {
    var safe := SafeText(text);
    EscapeChainIsPerCharacter(safe);
    EscapeSpecialsProperties(safe);
    EscapeChain(safe)
  }

  // ---------------------------------------------------------------------
  // _wrap_pdf_text
  // ---------------------------------------------------------------------

  /** The first whitespace-free run of a line. */
  function FirstWord(s: string): string {
    s[..Span(s, NotSpace)]
  }

  /** A wrapped line fits the width, or is one word too long to break. */
  predicate LineFits(line: string, maxChars: int) {
    |line| <= maxChars || HasNoSpace(line)
  }

  lemma FirstWordExtend(current: string, w: string)
    ensures FirstWord(current + " " + w) == FirstWord(current)
  {
    SpanAppend(current, " " + w, NotSpace);
    assert current + " " + w == current + (" " + w);
  }

  lemma FirstWordOfWord(w: string)
    requires IsWord(w)
    ensures FirstWord(w) == w
  {
    SpanAll(w, NotSpace);
  }

  /** The loop of `_wrap_pdf_text` from a given open line onwards: a word
      joins the open line when the result stays within `maxChars`,
      otherwise the open line is emitted and the word opens the next one.

      The lines joined by single spaces are the words joined by single
      spaces; every line fits unless it is a single overlong word; and the
      wrap is greedy: no line could also have taken the next line's first
      word. */
  function GreedyWrap(current: string, rest: seq<string>, maxChars: int): (lines: seq<string>)
    requires current != "" && LineFits(current, maxChars)
    requires forall k :: 0 <= k < |rest| ==> IsWord(rest[k])
    ensures |lines| >= 1
    ensures Join(lines, " ") == Join([current] + rest, " ")
    ensures AllFit(lines, maxChars) && IsGreedy(lines, maxChars)
    ensures FirstWord(lines[0]) == FirstWord(current)
    decreases |rest|
  {
    if |rest| == 0 then [current]
    else if |current| + 1 + |rest[0]| <= maxChars then
      FirstWordExtend(current, rest[0]);
      var lines := GreedyWrap(current + " " + rest[0], rest[1..], maxChars);
      JoinMerge(current, rest);
      lines
    else
      FirstWordOfWord(rest[0]);
      var tail := GreedyWrap(rest[0], rest[1..], maxChars);
      JoinSplit(current, rest, tail);
      assert AllFit([current] + tail, maxChars) && IsGreedy([current] + tail, maxChars) by {
        ConsFit(current, tail, maxChars);
      }
      [current] + tail
  }

  /** Joining the open line with the next word before joining the rest
      gives the same text. */
  lemma JoinMerge(current: string, rest: seq<string>)
    requires |rest| >= 1
    ensures Join([current + " " + rest[0]] + rest[1..], " ") == Join([current] + rest, " ")
  {
    var m := [current + " " + rest[0]] + rest[1..];
    assert Join([current] + rest, " ") == current + " " + Join(rest, " ") by {
      assert ([current] + rest)[1..] == rest;
    }
    if |rest| > 1 {
      var j := Join(rest[1..], " ");
      assert m[1..] == rest[1..];
      assert Join(m, " ") == (current + " " + rest[0]) + " " + j;
      assert Join(rest, " ") == rest[0] + " " + j;
      SpacedAssoc(current, rest[0], j);
    }
  }

  /** Where the spaces bracket, the text is the same. */
  lemma SpacedAssoc(a: string, w: string, j: string)
    ensures (a + " " + w) + " " + j == a + " " + (w + " " + j)
  {
  }

  /** Emitting the open line before the lines of the rest gives the
      same text. */
  lemma JoinSplit(current: string, rest: seq<string>, tail: seq<string>)
    requires |rest| >= 1 && |tail| >= 1
    requires Join(tail, " ") == Join([rest[0]] + rest[1..], " ")
    ensures Join([current] + tail, " ") == Join([current] + rest, " ")
  {
    assert rest == [rest[0]] + rest[1..];
    assert ([current] + tail)[1..] == tail;
    assert ([current] + rest)[1..] == rest;
  }

  /** No line is empty and each fits. */
  predicate AllFit(lines: seq<string>, maxChars: int) {
    forall i :: 0 <= i < |lines| ==> lines[i] != "" && LineFits(lines[i], maxChars)
  }

  /** No line could also have taken the next line's first word. */
  predicate IsGreedy(lines: seq<string>, maxChars: int) {
    forall i :: 0 <= i < |lines| - 1 ==> |lines[i]| + 1 + |FirstWord(lines[i + 1])| > maxChars
  }

  /** A fitting line followed by fitting greedy lines whose first word
      would not have fit after it. */
  lemma ConsFit(current: string, tail: seq<string>, maxChars: int)
    requires current != "" && LineFits(current, maxChars)
    requires |tail| >= 1 && |current| + 1 + |FirstWord(tail[0])| > maxChars
    requires AllFit(tail, maxChars) && IsGreedy(tail, maxChars)
    ensures AllFit([current] + tail, maxChars) && IsGreedy([current] + tail, maxChars)
  {
    var l := [current] + tail;
    forall i | 0 <= i < |l| - 1
      ensures |l[i]| + 1 + |FirstWord(l[i + 1])| > maxChars
    {
      if i > 0 { assert l[i] == tail[i - 1] && l[i + 1] == tail[i]; }
    }
  }

  /** The open line and the words are all made of `q`-characters, and so
      is the space between them: so is every wrapped line. */
  lemma {:induction false} GreedyWrapKeeps(current: string, rest: seq<string>, maxChars: int, q: char -> bool)
    requires current != "" && LineFits(current, maxChars)
    requires forall k :: 0 <= k < |rest| ==> IsWord(rest[k])
    requires AllChars(current, q) && q(' ')
    requires forall k :: 0 <= k < |rest| ==> AllChars(rest[k], q)
    ensures forall k :: 0 <= k < |GreedyWrap(current, rest, maxChars)| ==> AllChars(GreedyWrap(current, rest, maxChars)[k], q)
    decreases |rest|
  {
    if |rest| > 0 {
      if |current| + 1 + |rest[0]| <= maxChars {
        JoinKeeps([current, rest[0]], " ", q);
        assert Join([current, rest[0]], " ") == current + " " + rest[0] by {
          assert [current, rest[0]][1..] == [rest[0]];
        }
        GreedyWrapKeeps(current + " " + rest[0], rest[1..], maxChars, q);
      } else {
        GreedyWrapKeeps(rest[0], rest[1..], maxChars, q);
        var tail := GreedyWrap(rest[0], rest[1..], maxChars);
        assert GreedyWrap(current, rest, maxChars) == [current] + tail;
      }
    }
  }

  /** A stripped non-blank text has at least one word. */
  lemma WordsNonEmpty(t: string)
    requires t != "" && Stripped(t)
    ensures |Words(t)| > 0
  {
    SpanNone(t, IsSpace);
  }

  /** `_wrap_pdf_text`: the stripped safe text split into words and
      filled greedily into lines; never empty. */
  function WrapPdfText(text: string, maxChars: int): (lines: seq<string>)
    ensures |lines| >= 1
  {
    var t := Strip(SafeText(text));
    if t == "" then
      [""]
    else
      var words := Words(t);
      if |words| == 0 then [t]
      else GreedyWrap(words[0], words[1..], maxChars)
  }

  /** The wrapped lines: `[""]` for blank input and otherwise no empty
      line, the same words in the same order, each line within `maxChars`
      unless it is a single overlong word, and greedy (the next line's
      first word would not have fit on the line before). */
  lemma WrapPdfTextSpec(text: string, maxChars: int)
    ensures var lines := WrapPdfText(text, maxChars);
      && (IsBlank(SafeText(text)) ==> lines == [""])
      && (lines == [""] || forall i :: 0 <= i < |lines| ==> lines[i] != "")
      && Join(lines, " ") == Join(Words(SafeText(text)), " ")
      && (forall i :: 0 <= i < |lines| ==> LineFits(lines[i], maxChars))
      && (forall i :: 0 <= i < |lines| - 1 ==> |lines[i]| + 1 + |FirstWord(lines[i + 1])| > maxChars)
  {
    var t := Strip(SafeText(text));
    WordsOfStrip(SafeText(text));
    if t != "" {
      var words := Words(t);
      WordsNonEmpty(t);
      assert words == [words[0]] + words[1..];
    }
  }

  /** The wrapped lines of a text are made of characters the conversion
      leaves alone, so drawing them does not change them again. */
  lemma WrapIsSafe(text: string, maxChars: int)
    ensures forall k :: 0 <= k < |WrapPdfText(text, maxChars)| ==> AllChars(WrapPdfText(text, maxChars)[k], IsSafeChar)
  {
    SafeTextIsSafe(text);
    assert IsSafeChar(' ');
    WrapKeeps(text, maxChars, IsSafeChar);
  }

  /** Wrapping only regroups the characters of the safe text and adds
      spaces: a property of all of them and of the space holds of every
      line. */
  lemma WrapKeeps(text: string, maxChars: int, q: char -> bool)
    requires AllChars(SafeText(text), q) && q(' ')
    ensures forall k :: 0 <= k < |WrapPdfText(text, maxChars)| ==> AllChars(WrapPdfText(text, maxChars)[k], q)
  {
    var safe := SafeText(text);
    var t := Strip(safe);
    AllCharsSlice(safe, Span(safe, IsSpace), |safe|, q);
    var u := TrimStart(safe, IsSpace);
    AllCharsSlice(u, 0, |u| - BackSpan(u, IsSpace), q);
    assert t == u[0..|u| - BackSpan(u, IsSpace)];
    if t != "" {
      var words := Words(t);
      WordsNonEmpty(t);
      TokensKeep(t, IsSpace, q);
      assert words == [words[0]] + words[1..];
      GreedyWrapKeeps(words[0], words[1..], maxChars, q);
    }
  }
}

=== FILE: pdfwriter.dfy ===
/** The object writer of the built-in PDF renderer (section 7.5 of ISO
    32000-1): the objects are allocated in a fixed order, serialised one
    after the other behind the header while their byte offsets are
    recorded, and closed by the cross-reference table and the trailer. */
module PdfWriter {
  import opened Text
  import opened PdfText
  import opened Paginator

  // ---------------------------------------------------------------------
  // Page streams
  // ---------------------------------------------------------------------

  /** The bytes of one page: its operators, one per line, in the code page. */
  function PageStream(cmds: seq<string>): seq<byte> {
    Encode(Join(cmds, "\n"))
  }

  /** The page streams; a drawing that produced no page still gets one
      empty page. */
  function PageStreams(pages: seq<seq<string>>): (streams: seq<seq<byte>>)
    ensures |streams| >= 1
    ensures |pages| == 0 ==> streams == [[]]
    ensures |pages| > 0 ==> |streams| == |pages|
    ensures forall k :: 0 <= k < |pages| ==> streams[k] == PageStream(pages[k])
  {
    if |pages| == 0 then [[]]
    else seq(|pages|, k requires 0 <= k < |pages| => PageStream(pages[k]))
  }

  // ---------------------------------------------------------------------
  // The objects
  // ---------------------------------------------------------------------

  /** Object numbers, in allocation order: the catalog, the page tree, the
      two fonts, then a page and its content stream for each page. */
  const CatalogId: nat := 1
  const PagesId: nat := 2
  const FontRegularId: nat := 3
  const FontBoldId: nat := 4

  function PageId(k: nat): nat { 5 + 2 * k }

  function ContentId(k: nat): nat { 6 + 2 * k }

  /** The number of objects, the unused object 0 included. */
  function ObjectCount(pageCount: nat): nat { 5 + 2 * pageCount }

  /** An indirect reference `n 0 R`. */
  function Ref(id: nat): string {
    NatToString(id) + " 0 R"
  }

  const FontRegularObj: string := "<< /Type /Font /Subtype /Type1 /BaseFont /Helvetica /Encoding /WinAnsiEncoding >>"
  const FontBoldObj: string := "<< /Type /Font /Subtype /Type1 /BaseFont /Helvetica-Bold /Encoding /WinAnsiEncoding >>"

  function CatalogObj(): string {
    "<< /Type /Catalog /Pages " + Ref(PagesId) + " >>"
  }

  /** The page dictionary of page `k`: A4 media box, the two fonts as
      `/F1` and `/F2`, its content stream. */
  function PageObj(k: nat): string {
    "<< /Type /Page /Parent " + Ref(PagesId)
      + " /MediaBox [0 0 " + Fixed0(PageW) + " " + Fixed0(PageH) + "]"
      + " /Resources << /Font << /F1 " + Ref(FontRegularId) + " /F2 " + Ref(FontBoldId) + " >> >>"
      + " /Contents " + Ref(ContentId(k)) + " >>"
  }

  /** The references to the page objects, in page order. */
  function Kids(pageCount: nat): (r: seq<string>)
    ensures |r| == pageCount
    ensures forall k :: 0 <= k < pageCount ==> r[k] == Ref(PageId(k))
  {
    seq(pageCount, k requires 0 <= k < pageCount => Ref(PageId(k)))
  }

  function PagesObj(pageCount: nat): string {
    "<< /Type /Pages /Kids [" + Join(Kids(pageCount), " ") + "] /Count " + NatToString(pageCount) + " >>"
  }

  /** The header of a content stream object. */
  function StreamHead(stream: seq<byte>): seq<byte> {
    Encode("<< /Length " + NatToString(|stream|) + " >>\nstream\n")
  }

  const StreamTail: seq<byte> := Encode("\nendstream")

  function ContentObj(stream: seq<byte>): seq<byte> {
    StreamHead(stream) + stream + StreamTail
  }

  /** The objects before the pages: the unused entry 0, the catalog, the
      page tree and the two fonts. */
  function FixedObjects(pageCount: nat): (r: seq<seq<byte>>)
    ensures |r| == 5 && r[0] == []
    ensures r[CatalogId] == Encode(CatalogObj()) && r[PagesId] == Encode(PagesObj(pageCount))
    ensures r[FontRegularId] == Encode(FontRegularObj) && r[FontBoldId] == Encode(FontBoldObj)
  {
    [[], Encode(CatalogObj()), Encode(PagesObj(pageCount)), Encode(FontRegularObj), Encode(FontBoldObj)]
  }

  /** The object table, indexed by object number; entry 0 is unused. */
  function Objects(streams: seq<seq<byte>>): (objs: seq<seq<byte>>)
    ensures |objs| == ObjectCount(|streams|)
    ensures objs[CatalogId] == Encode(CatalogObj())
    ensures objs[PagesId] == Encode(PagesObj(|streams|))
    ensures objs[FontRegularId] == Encode(FontRegularObj)
    ensures objs[FontBoldId] == Encode(FontBoldObj)
    ensures forall k :: 0 <= k < |streams| ==> objs[PageId(k)] == Encode(PageObj(k))
    ensures forall k :: 0 <= k < |streams| ==> objs[ContentId(k)] == ContentObj(streams[k])
  {
    var fixed := FixedObjects(|streams|);
    var paired := PagePairs(streams);
    var objs := fixed + paired;
    forall k | 0 <= k < |streams|
      ensures objs[PageId(k)] == Encode(PageObj(k)) && objs[ContentId(k)] == ContentObj(streams[k])
    {
      PairAt(fixed, paired, k);
    }
    objs
  }

  /** Past five fixed entries, pair `k` sits at `5 + 2k` and `6 + 2k`. */
  lemma PairAt<T>(fixed: seq<T>, paired: seq<T>, k: nat)
    requires |fixed| == 5 && 2 * k + 1 < |paired|
    ensures (fixed + paired)[PageId(k)] == paired[2 * k]
    ensures (fixed + paired)[ContentId(k)] == paired[2 * k + 1]
  {
  }

  /** Each page's object followed by its content stream's object. */
  function PagePairs(streams: seq<seq<byte>>): (r: seq<seq<byte>>)
    ensures |r| == 2 * |streams|
    ensures forall k :: 0 <= k < |streams| ==> r[2 * k] == Encode(PageObj(k)) && r[2 * k + 1] == ContentObj(streams[k])
  {
    var pages := seq(|streams|, k requires 0 <= k < |streams| => Encode(PageObj(k)));
    var contents := seq(|streams|, k requires 0 <= k < |streams| => ContentObj(streams[k]));
    var r := Pairs(pages, contents);
    forall k | 0 <= k < |streams|
      ensures r[2 * k] == Encode(PageObj(k)) && r[2 * k + 1] == ContentObj(streams[k])
    {
      assert r[2 * k] == pages[k] && r[2 * k + 1] == contents[k];
    }
    r
  }

  /** `a[0], b[0], a[1], b[1], ...` */
  function Pairs<T>(a: seq<T>, b: seq<T>): (r: seq<T>)
    requires |a| == |b|
    ensures |r| == 2 * |a|
    ensures forall k :: 0 <= k < |a| ==> r[2 * k] == a[k] && r[2 * k + 1] == b[k]
    decreases |a|
  {
    if |a| == 0 then []
    else
      var rest := Pairs(a[1..], b[1..]);
      assert forall k :: 1 <= k < |a| ==> ([a[0], b[0]] + rest)[2 * k] == rest[2 * (k - 1)];
      [a[0], b[0]] + rest
  }

  /** The content object holds the stream right after its header, and the
      header's `/Length` reads back as the stream's length. */
  lemma ContentObjLayout(stream: seq<byte>)
    ensures var obj := ContentObj(stream);
      var h := |StreamHead(stream)|;
      && obj[h..h + |stream|] == stream
      && obj[h + |stream|..] == StreamTail
      && DigitsValue(NatToString(|stream|)) == |stream|
  {
    NatToStringValue(|stream|);
    var obj := ContentObj(stream);
    var h := |StreamHead(stream)|;
    assert obj[h..h + |stream|] == stream;
  }

  /** `/Count` reads back as the number of pages, and the kids name the
      page objects, each of which lists its own content object. */
  lemma PagesObjAgrees(streams: seq<seq<byte>>)
    ensures DigitsValue(NatToString(|streams|)) == |streams|
    ensures |Kids(|streams|)| == |streams|
    ensures forall k :: 0 <= k < |streams| ==>
      Kids(|streams|)[k] == Ref(PageId(k)) && Objects(streams)[PageId(k)] == Encode(PageObj(k))
  {
    NatToStringValue(|streams|);
  }

  /** Page and content numbers are distinct from each other and from the
      fixed objects, and they fill the table exactly. */
  lemma IdsPartition(pageCount: nat, id: nat)
    requires 5 <= id < ObjectCount(pageCount)
    ensures exists k :: 0 <= k < pageCount && (id == PageId(k) || id == ContentId(k))
  {
    var k := (id - 5) / 2;
    assert id == PageId(k) || id == ContentId(k);
  }

  // ---------------------------------------------------------------------
  // Serialisation
  // ---------------------------------------------------------------------

  /** `%PDF-1.4` and a comment of four high bytes marking the file binary. */
  const Header: seq<byte> := Encode("%PDF-1.4\n%") + [0xe2, 0xe3, 0xcf, 0xd3] + Encode("\n")

  function ObjHead(id: nat): seq<byte> {
    Encode(NatToString(id) + " 0 obj\n")
  }

  const ObjTail: seq<byte> := Encode("\nendobj\n")

  /** One object as written: `n 0 obj`, its bytes, `endobj`. */
  function Framed(id: nat, data: seq<byte>): seq<byte> {
    ObjHead(id) + data + ObjTail
  }

  /** Object `id` with bytes `data` is written at `offset` of `out`. */
  predicate FramedAt(out: seq<byte>, offset: nat, id: nat, data: seq<byte>) {
    offset + |Framed(id, data)| <= |out| && out[offset..offset + |Framed(id, data)|] == Framed(id, data)
  }

  const FreeEntry: seq<byte> := Encode("0000000000 65535 f \n")

  /** The cross-reference entry of an object in use at `offset`. */
  function XrefEntry(offset: nat): seq<byte> {
    Encode(ZeroPadded(offset, 10) + " 00000 n \n")
  }

  function XrefEntries(offsets: seq<nat>): seq<byte> {
    if |offsets| == 0 then []
    else XrefEntries(offsets[..|offsets| - 1]) + XrefEntry(offsets[|offsets| - 1])
  }

  function XrefHead(count: nat): seq<byte> {
    Encode("xref\n0 " + NatToString(count) + "\n")
  }

  function Trailer(count: nat, xref: nat): seq<byte> {
    Encode("trailer\n<< /Size " + NatToString(count) + " /Root " + Ref(CatalogId) + " >>\nstartxref\n"
      + NatToString(xref) + "\n%%EOF\n")
  }

  lemma SliceOfPrefix(a: seq<byte>, b: seq<byte>, i: nat, j: nat)
    requires i <= j <= |a|
    ensures (a + b)[i..j] == a[i..j]
  {
  }

  /** Every object in `1..count` is written at its recorded offset, behind
      the header. */
  predicate AllFramed(out: seq<byte>, offsets: seq<nat>, objects: seq<seq<byte>>, count: nat)
    requires count <= |offsets| && count <= |objects|
  {
    forall id :: 1 <= id < count ==>
      |Header| <= offsets[id] && FramedAt(out, offsets[id], id, objects[id])
  }

  /** Writing more bytes leaves what was written where it was. */
  lemma AllFramedAppend(out: seq<byte>, more: seq<byte>, offsets: seq<nat>, objects: seq<seq<byte>>, count: nat)
    requires count <= |offsets| && count <= |objects|
    requires AllFramed(out, offsets, objects, count)
    ensures AllFramed(out + more, offsets, objects, count)
  {
    forall id | 1 <= id < count
      ensures FramedAt(out + more, offsets[id], id, objects[id])
    {
      SliceOfPrefix(out, more, offsets[id], offsets[id] + |Framed(id, objects[id])|);
    }
  }

  /** The object loop: each object is framed and appended, its offset
      recorded first. */
  method WriteObjects(objects: seq<seq<byte>>) returns (out: seq<byte>, offsets: seq<nat>)
    requires |objects| >= 1
    ensures |offsets| == |objects| && offsets[0] == 0
    ensures |Header| <= |out| && out[..|Header|] == Header
    ensures AllFramed(out, offsets, objects, |objects|)
  {
    out := Header;
    offsets := [0];
    var id := 1;
    while id < |objects|
      invariant 1 <= id <= |objects|
      invariant |offsets| == id && offsets[0] == 0
      invariant |Header| <= |out| && out[..|Header|] == Header
      invariant AllFramed(out, offsets, objects, id)
    {
      var before := out;
      var framed := Framed(id, objects[id]);
      offsets := offsets + [|out|];
      out := out + framed;
      AllFramedAppend(before, framed, offsets[..id], objects, id);
      SliceOfPrefix(before, framed, 0, |Header|);
      assert out[|before|..|before| + |framed|] == framed;
      id := id + 1;
    }
  }

  /** The table's entries for objects `1..`, in object order. */
  method WriteEntries(offsets: seq<nat>) returns (table: seq<byte>)
    requires |offsets| >= 1
    ensures table == XrefEntries(offsets[1..])
  {
    table := [];
    var i := 1;
    while i < |offsets|
      invariant 1 <= i <= |offsets|
      invariant table == XrefEntries(offsets[1..i])
    {
      assert offsets[1..i + 1][..i - 1] == offsets[1..i];
      table := table + XrefEntry(offsets[i]);
      i := i + 1;
    }
    assert offsets[1..i] == offsets[1..];
  }

  /** The serialisation: each object is written behind the header at the
      offset recorded for it, and after the last one comes the table,
      which starts with the free entry and has one entry per object in
      use, then the trailer, whose `startxref` names where the table
      begins. */
  method WritePdf(objects: seq<seq<byte>>) returns (out: seq<byte>, offsets: seq<nat>, xref: nat)
    requires |objects| >= 1
    ensures |offsets| == |objects| && offsets[0] == 0
    ensures |Header| <= |out| && out[..|Header|] == Header
    ensures AllFramed(out, offsets, objects, |objects|)
    ensures forall id :: 1 <= id < |objects| ==> offsets[id] + |Framed(id, objects[id])| <= xref
    ensures xref <= |out|
    ensures out[xref..] == XrefHead(|objects|) + FreeEntry + XrefEntries(offsets[1..]) + Trailer(|objects|, xref)
  {
    var body;
    body, offsets := WriteObjects(objects);
    xref := |body|;
    var table := WriteEntries(offsets);
    var rest := XrefHead(|objects|) + FreeEntry + table + Trailer(|objects|, xref);
    out := body + rest;
    AllFramedAppend(body, rest, offsets, objects, |objects|);
    SliceOfPrefix(body, rest, 0, |Header|);
    assert out[xref..] == rest;
  }

  // ---------------------------------------------------------------------
  // Reading the table back
  // ---------------------------------------------------------------------

  /** Every table entry is 20 bytes while offsets stay below 10^10. */
  lemma {:induction false} XrefEntriesLength(offsets: seq<nat>)
    requires forall k :: 0 <= k < |offsets| ==> offsets[k] < Power10(10)
    ensures |XrefEntries(offsets)| == 20 * |offsets|
    decreases |offsets|
  {
    if |offsets| > 0 {
      var last := offsets[|offsets| - 1];
      NatToStringLength(last, 10);
      XrefEntriesLength(offsets[..|offsets| - 1]);
    }
  }

  /** Entry `k` of the table sits at byte `20 * k` and its first ten
      digits read back as the offset. */
  lemma {:induction false} XrefEntryAt(offsets: seq<nat>, k: nat)
    requires forall j :: 0 <= j < |offsets| ==> offsets[j] < Power10(10)
    requires k < |offsets|
    ensures 20 * k + 20 <= |XrefEntries(offsets)|
    ensures XrefEntries(offsets)[20 * k..20 * k + 20] == XrefEntry(offsets[k])
    ensures DigitsValue(ZeroPadded(offsets[k], 10)) == offsets[k]
    decreases |offsets|
  {
    ZeroPaddedValue(offsets[k], 10);
    var init := offsets[..|offsets| - 1];
    XrefEntriesLength(offsets);
    XrefEntriesLength(init);
    if k < |offsets| - 1 {
      XrefEntryAt(init, k);
      SliceOfPrefix(XrefEntries(init), XrefEntry(offsets[|offsets| - 1]), 20 * k, 20 * k + 20);
    }
  }

  lemma FreeEntryLength()
    ensures |FreeEntry| == 20
  {
  }
}

=== FILE: renderer.dfy ===
/** `_render_pdf_builtin` end to end: the parsed résumé becomes draw
    items, the items are paginated into content streams, and the streams
    are wrapped in the object table and serialised. */
module Renderer {
  import opened Text
  import opened PdfText
  import opened Parser
  import opened Layout
  import opened Paginator
  import opened PdfWriter

  /** The first string a reader meets is the candidate's name, stripped,
      or the placeholder when there is none. */
  lemma FirstShownIsName(d: Doc, role: string)
    ensures AllDrawable(BuildItems(d, role))
    ensures var n := Strip(d.name);
      var items := BuildItems(d, role);
      |AllTexts(items)| >= 1 && AllTexts(items)[0] == SafeText(if n == "" then "Candidate Name" else n)
  {
    var items := BuildItems(d, role);
    BuildItemsDrawable(d, role);
    var n := Strip(d.name);
    var shown := if n == "" then "Candidate Name" else n;
    SafeTextIdempotent(shown);
    assert items[0] == LineItem(SafeText(shown), 22.0, true, Center, 0.0, 3.0);
    assert ItemTexts(items[0]) == [SafeText(shown)];
  }

  /** Where the written file holds each object: the catalog, the page
      tree, and each page with its content stream, under the numbers
      allocated for them, at the offsets the table records. */
  lemma ObjectsAtTheirNumbers(pdf: seq<byte>, offsets: seq<nat>, streams: seq<seq<byte>>)
    requires |offsets| == ObjectCount(|streams|)
    requires AllFramed(pdf, offsets, Objects(streams), |offsets|)
    ensures FramedAt(pdf, offsets[CatalogId], CatalogId, Encode(CatalogObj()))
    ensures FramedAt(pdf, offsets[PagesId], PagesId, Encode(PagesObj(|streams|)))
    ensures forall k :: 0 <= k < |streams| ==>
      FramedAt(pdf, offsets[PageId(k)], PageId(k), Encode(PageObj(k)))
      && FramedAt(pdf, offsets[ContentId(k)], ContentId(k), ContentObj(streams[k]))
  {
    var objects := Objects(streams);
    assert 1 <= CatalogId < |offsets| && 1 <= PagesId < |offsets|;
    forall k | 0 <= k < |streams|
      ensures FramedAt(pdf, offsets[PageId(k)], PageId(k), Encode(PageObj(k)))
      ensures FramedAt(pdf, offsets[ContentId(k)], ContentId(k), ContentObj(streams[k]))
    {
      assert 1 <= PageId(k) < |offsets| && 1 <= ContentId(k) < |offsets|;
    }
  }

  /** The renderer: the pages it draws are never empty of operators and
      together show exactly the items' strings in order; the file has a
      page object for each of them, or one empty page when nothing was
      drawn; every object sits at the offset the table records for it;
      the table and trailer follow the last object. */
  method RenderBuiltin(d: Doc, role: string) returns (pdf: seq<byte>, pages: seq<seq<string>>, offsets: seq<nat>, xref: nat)
    ensures PagesNonEmpty(pages)
    ensures AllDrawable(BuildItems(d, role))
    ensures Texts(Flatten(pages)) == AllTexts(BuildItems(d, role))
    ensures |offsets| == ObjectCount(|PageStreams(pages)|)
    ensures AllFramed(pdf, offsets, Objects(PageStreams(pages)), |offsets|)
    ensures |Header| <= |pdf| && pdf[..|Header|] == Header
    ensures xref <= |pdf|
    ensures pdf[xref..] == XrefHead(|offsets|) + FreeEntry + XrefEntries(offsets[1..]) + Trailer(|offsets|, xref)
  {
    var items := BuildItems(d, role);
    BuildItemsDrawable(d, role);
    pages := Paginate(items);
    var objects := Objects(PageStreams(pages));
    pdf, offsets, xref := WritePdf(objects);
  }
}

=== FILE: text.dfy ===
/** The subset of Python's `str` behaviour the résumé converter relies on,
    stated over `string` (that is, `seq<char>`).

    Whitespace is exactly the set Python's `str.isspace()` accepts, so
    `Strip`, `Words` and the regex class `\s` agree with the interpreter.
    Case mapping (`lower`, `upper`, `title`) is ASCII only. */
module Text {

  /** An optional value; the converter's `None`. */
  datatype Option<+T> = None | Some(value: T)

  // ---------------------------------------------------------------------
  // Character classes
  // ---------------------------------------------------------------------

  /** Python's `str.isspace()` for one character. */
  predicate IsSpace(c: char) {
    || c == ' '
    || ('\t' <= c <= '\r')
    || ('\U{1c}' <= c <= '\U{1f}')
    || c == '\U{85}' || c == '\U{a0}' || c == '\U{1680}'
    || ('\U{2000}' <= c <= '\U{200a}')
    || c == '\U{2028}' || c == '\U{2029}' || c == '\U{202f}' || c == '\U{205f}' || c == '\U{3000}'
  }

  predicate NotSpace(c: char) { !IsSpace(c) }

  /** The line boundaries `str.splitlines()` recognises. */
  predicate IsLineBreak(c: char) {
    || c == '\n' || c == '\r' || c == '\U{0b}' || c == '\U{0c}'
    || ('\U{1c}' <= c <= '\U{1e}')
    || c == '\U{85}' || c == '\U{2028}' || c == '\U{2029}'
  }

  predicate NotLineBreak(c: char) { !IsLineBreak(c) }

  predicate IsUpper(c: char) { 'A' <= c <= 'Z' }
  predicate IsLower(c: char) { 'a' <= c <= 'z' }
  predicate IsLetter(c: char) { IsUpper(c) || IsLower(c) }
  predicate IsDigit(c: char) { '0' <= c <= '9' }

  function LowerChar(c: char): char {
    if IsUpper(c) then (c as int + 32) as char else c
  }

  function UpperChar(c: char): char {
    if IsLower(c) then (c as int - 32) as char else c
  }

  // ---------------------------------------------------------------------
  // Case mapping
  // ---------------------------------------------------------------------

  /** `s.lower()` */
  function Lower(s: string): string {
    seq(|s|, i requires 0 <= i < |s| => LowerChar(s[i]))
  }

  /** `s.upper()` */
  function Upper(s: string): string {
    seq(|s|, i requires 0 <= i < |s| => UpperChar(s[i]))
  }

  /** `s.title()`: a letter is upper-cased when it starts a run of letters
      and lower-cased inside one; other characters are kept. */
  function Title(s: string): string {
    seq(|s|, i requires 0 <= i < |s| =>
      if !IsLetter(s[i]) then s[i]
      else if i > 0 && IsLetter(s[i - 1]) then LowerChar(s[i])
      else UpperChar(s[i]))
  }

  lemma LowerAppend(a: string, b: string)
    ensures Lower(a + b) == Lower(a) + Lower(b)
  {
  }

  /** Title-casing only changes case, so lower-casing afterwards forgets it. */
  lemma LowerOfTitle(s: string)
    ensures Lower(Title(s)) == Lower(s)
  {
  }

  // ---------------------------------------------------------------------
  // Prefixes, suffixes, membership
  // ---------------------------------------------------------------------

  predicate StartsWith(s: string, prefix: string) {
    |prefix| <= |s| && s[..|prefix|] == prefix
  }

  predicate EndsWith(s: string, suffix: string) {
    |suffix| <= |s| && s[|s| - |suffix|..] == suffix
  }

  /** Number of characters of `s` satisfying `p`. */
  function Count(s: string, p: char -> bool): nat {
    if |s| == 0 then 0 else (if p(s[0]) then 1 else 0) + Count(s[1..], p)
  }

  // ---------------------------------------------------------------------
  // Trimming
  // ---------------------------------------------------------------------

  /** Length of the longest prefix of `s` whose characters satisfy `p`. */
  function Span(s: string, p: char -> bool): (n: nat)
    ensures n <= |s|
    ensures forall i :: 0 <= i < n ==> p(s[i])
    ensures n == |s| || !p(s[n])
  {
    if |s| > 0 && p(s[0]) then 1 + Span(s[1..], p) else 0
  }

  /** Length of the longest suffix of `s` whose characters satisfy `p`. */
  function BackSpan(s: string, p: char -> bool): (n: nat)
    ensures n <= |s|
    ensures forall i :: |s| - n <= i < |s| ==> p(s[i])
    ensures n == |s| || !p(s[|s| - n - 1])
  {
    if |s| > 0 && p(s[|s| - 1]) then 1 + BackSpan(s[..|s| - 1], p) else 0
  }

  /** `s.lstrip(chars)` where `p` recognises the stripped characters. */
  function TrimStart(s: string, p: char -> bool): string {
    s[Span(s, p)..]
  }

  /** `s.rstrip(chars)` where `p` recognises the stripped characters. */
  function TrimEnd(s: string, p: char -> bool): string {
    s[..|s| - BackSpan(s, p)]
  }

  /** No whitespace at either end: what `strip()` leaves behind. */
  predicate Stripped(s: string) {
    s == [] || (!IsSpace(s[0]) && !IsSpace(s[|s| - 1]))
  }

  /** `s.strip()` */
  function Strip(s: string): (r: string)
    ensures Stripped(r)
    ensures |r| <= |s|
  {
    TrimEnd(TrimStart(s, IsSpace), IsSpace)
  }

  predicate IsBlank(s: string) { Strip(s) == "" }

  lemma SpanAll(s: string, p: char -> bool)
    requires forall i :: 0 <= i < |s| ==> p(s[i])
    ensures Span(s, p) == |s|
  {
  }

  lemma SpanNone(s: string, p: char -> bool)
    requires |s| == 0 || !p(s[0])
    ensures Span(s, p) == 0
  {
  }

  lemma BackSpanNone(s: string, p: char -> bool)
    requires |s| == 0 || !p(s[|s| - 1])
    ensures BackSpan(s, p) == 0
  {
  }

  /** Stripping a string that has no outer whitespace changes nothing. */
  lemma StripNoop(s: string)
    requires Stripped(s)
    ensures Strip(s) == s
  {
    SpanNone(s, IsSpace);
    BackSpanNone(s, IsSpace);
  }

  /** A string is blank exactly when every character is whitespace. */
  lemma BlankIffAllSpace(s: string)
    ensures IsBlank(s) <==> forall i :: 0 <= i < |s| ==> IsSpace(s[i])
  {
    var t := TrimStart(s, IsSpace);
    if forall i :: 0 <= i < |s| ==> IsSpace(s[i]) {
      SpanAll(s, IsSpace);
    } else {
      var k :| 0 <= k < |s| && !IsSpace(s[k]);
      assert Span(s, IsSpace) <= k;
      assert !IsSpace(t[0]);
      assert BackSpan(t, IsSpace) < |t|;
    }
  }

  /** The span of a prefix is the span of the whole, cut at the prefix. */
  lemma {:induction false} SpanPrefix(s: string, k: nat, p: char -> bool)
    requires k <= |s|
    ensures Span(s[..k], p) == if Span(s, p) < k then Span(s, p) else k
  {
    if k > 0 && p(s[0]) {
      assert s[..k][1..] == s[1..][..k - 1];
      SpanPrefix(s[1..], k - 1, p);
    }
  }

  /** Appending characters that all satisfy `p` lengthens the back span by
      exactly their number, unless the whole string is swallowed. */
  lemma {:induction false} BackSpanAppendAll(x: string, y: string, p: char -> bool)
    requires forall i :: 0 <= i < |y| ==> p(y[i])
    ensures BackSpan(x + y, p) == |y| + BackSpan(x, p)
    decreases |y|
  {
    if |y| > 0 {
      assert (x + y)[..|x + y| - 1] == x + y[..|y| - 1];
      BackSpanAppendAll(x, y[..|y| - 1], p);
    } else {
      assert x + y == x;
    }
  }

  /** Whitespace that `strip()` would remove from the end anyway can be cut first. */
  lemma StripDropTrailing(w: string, k: nat)
    requires k <= |w|
    requires forall i :: k <= i < |w| ==> IsSpace(w[i])
    ensures Strip(w[..k]) == Strip(w)
  {
    var a := Span(w, IsSpace);
    SpanPrefix(w, k, IsSpace);
    if a >= k {
      SpanAll(w, IsSpace);
      SpanAll(w[..k], IsSpace);
    } else {
      var x := w[a..k];
      var y := w[k..];
      assert TrimStart(w[..k], IsSpace) == x by { assert w[..k][a..] == x; }
      assert TrimStart(w, IsSpace) == x + y by { assert w[a..] == x + y; }
      TrimEndSpaces(x, y);
    }
  }

  /** Trailing whitespace appended to `x` is cut again by `rstrip()`. */
  lemma TrimEndSpaces(x: string, y: string)
    requires forall i :: 0 <= i < |y| ==> IsSpace(y[i])
    ensures TrimEnd(x + y, IsSpace) == TrimEnd(x, IsSpace)
  {
    BackSpanAppendAll(x, y, IsSpace);
    var b := BackSpan(x, IsSpace);
    assert (x + y)[..|x| - b] == x[..|x| - b];
  }

  // ---------------------------------------------------------------------
  // Joining and splitting
  // ---------------------------------------------------------------------

  /** `sep.join(xs)` */
  function Join(xs: seq<string>, sep: string): string {
    if |xs| == 0 then ""
    else if |xs| == 1 then xs[0]
    else xs[0] + sep + Join(xs[1..], sep)
  }

  /** `"".join(xs)` */
  function Concat(xs: seq<string>): string {
    Join(xs, "")
  }

  lemma JoinCons(x: string, xs: seq<string>, sep: string)
    requires |xs| > 0
    ensures Join([x] + xs, sep) == x + sep + Join(xs, sep)
  {
    assert ([x] + xs)[1..] == xs;
  }

  lemma JoinThree(a: string, b: string, c: string, sep: string)
    ensures Join([a, b, c], sep) == a + sep + b + sep + c
  {
    assert Join([b, c], sep) == b + sep + c by {
      assert [b, c][1..] == [c];
    }
    assert [a, b, c][1..] == [b, c];
  }

  lemma JoinSnoc(xs: seq<string>, x: string, sep: string)
    requires |xs| > 0
    ensures Join(xs + [x], sep) == Join(xs, sep) + sep + x
  {
    if |xs| == 1 {
      assert xs + [x] == [xs[0], x];
    } else {
      assert (xs + [x])[1..] == xs[1..] + [x];
      JoinSnoc(xs[1..], x, sep);
    }
  }

  /** The maximal runs of characters NOT satisfying `sep`, in order;
      `re.split(r"[...]+", s)` with the empty pieces dropped. */
  function Tokens(s: string, sep: char -> bool): (ts: seq<string>)
    ensures forall k :: 0 <= k < |ts| ==> ts[k] != ""
    ensures forall k, i :: 0 <= k < |ts| && 0 <= i < |ts[k]| ==> !sep(ts[k][i])
    decreases |s|
  {
    var t := TrimStart(s, sep);
    if t == "" then []
    else
      var n := SpanUntil(t, sep);
      [t[..n]] + Tokens(t[n..], sep)
  }

  /** Length of the longest prefix of `s` with no character satisfying `p`. */
  function SpanUntil(s: string, p: char -> bool): (n: nat)
    ensures n <= |s|
    ensures forall i :: 0 <= i < n ==> !p(s[i])
    ensures n == |s| || p(s[n])
  {
    if |s| > 0 && !p(s[0]) then 1 + SpanUntil(s[1..], p) else 0
  }

  lemma {:induction false} SpanUntilPrefix(s: string, k: nat, p: char -> bool)
    requires k <= |s|
    ensures SpanUntil(s[..k], p) == if SpanUntil(s, p) < k then SpanUntil(s, p) else k
  {
    if k > 0 && !p(s[0]) {
      assert s[..k][1..] == s[1..][..k - 1];
      SpanUntilPrefix(s[1..], k - 1, p);
    }
  }

  /** One step of `Tokens`, with the skipped separators and the token length named. */
  lemma TokensUnfold(s: string, sep: char -> bool, a: nat, n: nat)
    requires a == Span(s, sep) && a < |s|
    requires n == SpanUntil(s[a..], sep)
    ensures Tokens(s, sep) == [s[a..a + n]] + Tokens(s[a + n..], sep)
  {
    var t := s[a..];
    assert TrimStart(s, sep) == t;
    assert t[..n] == s[a..a + n];
    assert t[n..] == s[a + n..];
  }

  lemma TokensAllSep(s: string, sep: char -> bool)
    requires forall i :: 0 <= i < |s| ==> sep(s[i])
    ensures Tokens(s, sep) == []
  {
    SpanAll(s, sep);
  }

  lemma SpanOfPrefix(s: string, k: nat, sep: char -> bool, a: nat)
    requires a == Span(s, sep) && a < k <= |s|
    ensures Span(s[..k], sep) == a
  {
    SpanPrefix(s, k, sep);
  }

  lemma SpanUntilOfPrefix(s: string, k: nat, sep: char -> bool, a: nat, n: nat)
    requires a < k <= |s| && n == SpanUntil(s[a..], sep) && a + n <= k
    ensures SpanUntil(s[..k][a..], sep) == n
  {
    assert s[..k][a..] == s[a..][..k - a];
    SpanUntilPrefix(s[a..], k - a, sep);
  }

  lemma PrefixSlices(s: string, k: nat, a: nat, n: nat)
    requires a + n <= k <= |s|
    ensures s[..k][a..a + n] == s[a..a + n]
    ensures s[..k][a + n..] == s[a + n..][..k - a - n]
  {
  }

  /** The first step of `Tokens` on a prefix that still holds the whole first token. */
  lemma TokensUnfoldPrefix(s: string, k: nat, sep: char -> bool, a: nat, n: nat)
    requires a == Span(s, sep) && n == SpanUntil(s[a..], sep)
    requires a < k && a + n <= k <= |s|
    ensures Tokens(s[..k], sep) == [s[a..a + n]] + Tokens(s[a + n..][..k - a - n], sep)
  {
    SpanOfPrefix(s, k, sep, a);
    SpanUntilOfPrefix(s, k, sep, a, n);
    TokensUnfold(s[..k], sep, a, n);
    PrefixSlices(s, k, a, n);
  }

  /** When only separators follow position `k`, the first token ends before `k`. */
  lemma TokensDropTrailingStep(s: string, k: nat, sep: char -> bool) returns (a: nat, n: nat)
    requires k <= |s| && Span(s, sep) < k
    requires forall i :: k <= i < |s| ==> sep(s[i])
    ensures a + n <= k && n > 0
    ensures Tokens(s, sep) == [s[a..a + n]] + Tokens(s[a + n..], sep)
    ensures Tokens(s[..k], sep) == [s[a..a + n]] + Tokens(s[a + n..][..k - a - n], sep)
  {
    a := Span(s, sep);
    n := SpanUntil(s[a..], sep);
    assert n <= k - a by {
      if k < |s| {
        assert sep(s[a..][k - a]);
      }
    }
    TokensUnfold(s, sep, a, n);
    TokensUnfoldPrefix(s, k, sep, a, n);
  }

  /** Dropping a run of separators from the end does not change the tokens. */
  lemma {:induction false} TokensDropTrailing(s: string, k: nat, sep: char -> bool)
    requires k <= |s|
    requires forall i :: k <= i < |s| ==> sep(s[i])
    ensures Tokens(s[..k], sep) == Tokens(s, sep)
    decreases |s|
  {
    SpanPrefix(s, k, sep);
    if Span(s, sep) >= k {
      TokensAllSep(s, sep);
      TokensAllSep(s[..k], sep);
    } else {
      var a, n := TokensDropTrailingStep(s, k, sep);
      TokensDropTrailing(s[a + n..], k - a - n, sep);
    }
  }

  /** Leading separators never contribute a token. */
  lemma TokensTrimStart(s: string, sep: char -> bool)
    ensures Tokens(TrimStart(s, sep), sep) == Tokens(s, sep)
  {
    var t := TrimStart(s, sep);
    assert TrimStart(t, sep) == t by {
      SpanNone(t, sep);
    }
  }

  /** `xs` is `ys` with some entries left out, the others kept in order. */
  predicate IsSubsequence<T(==)>(xs: seq<T>, ys: seq<T>)
    decreases |ys|
  {
    |xs| == 0
    || (|ys| > 0
        && ((xs[0] == ys[0] && IsSubsequence(xs[1..], ys[1..])) || IsSubsequence(xs, ys[1..])))
  }

  /** The entries that are not empty, in order: `[p for p in xs if p]`. */
  function NonEmpty(xs: seq<string>): seq<string> {
    if |xs| == 0 then []
    else (if xs[0] != "" then [xs[0]] else []) + NonEmpty(xs[1..])
  }

  /** Every entry kept is a non-empty entry of `xs`; with no empty
      entries, all are kept. */
  lemma {:induction false} NonEmptyKeeps(xs: seq<string>)
    ensures forall k :: 0 <= k < |NonEmpty(xs)| ==> NonEmpty(xs)[k] != "" && NonEmpty(xs)[k] in xs
    ensures (forall k :: 0 <= k < |xs| ==> xs[k] != "") ==> NonEmpty(xs) == xs
    decreases |xs|
  {
    if |xs| > 0 {
      NonEmptyKeeps(xs[1..]);
      assert xs == [xs[0]] + xs[1..];
    }
  }

  lemma {:induction false} NonEmptyAppend(xs: seq<string>, ys: seq<string>)
    ensures NonEmpty(xs + ys) == NonEmpty(xs) + NonEmpty(ys)
  {
    if |xs| == 0 {
      assert xs + ys == ys;
    } else {
      assert (xs + ys)[1..] == xs[1..] + ys;
      NonEmptyAppend(xs[1..], ys);
    }
  }

  /** A prefix one element longer. */
  lemma TakeSnoc<T>(xs: seq<T>, i: nat)
    requires i < |xs|
    ensures xs[..i + 1] == xs[..i] + [xs[i]]
  {
  }

  /** Sequence concatenation regroups freely. */
  lemma AppendAssoc<T>(a: seq<T>, b: seq<T>, c: seq<T>)
    ensures (a + b) + c == a + (b + c)
  {
  }

  /** A non-empty sequence is its head followed by its tail. */
  lemma HeadTail<T>(xs: seq<T>)
    requires |xs| > 0
    ensures xs == [xs[0]] + xs[1..]
  {
  }

  /** Every character of `s` has property `q`. */
  predicate AllChars(s: string, q: char -> bool) {
    forall i :: 0 <= i < |s| ==> q(s[i])
  }

  lemma AllCharsSlice(s: string, a: nat, b: nat, q: char -> bool)
    requires a <= b <= |s| && AllChars(s, q)
    ensures AllChars(s[a..b], q)
  {
    assert forall i :: 0 <= i < b - a ==> s[a..b][i] == s[a + i];
  }

  /** Every character of every token comes from the text, so a property
      all of the text's characters have holds of the tokens too. */
  lemma {:induction false} TokensKeep(s: string, sep: char -> bool, q: char -> bool)
    requires AllChars(s, q)
    ensures forall k :: 0 <= k < |Tokens(s, sep)| ==> AllChars(Tokens(s, sep)[k], q)
    decreases |s|
  {
    var a := Span(s, sep);
    if a < |s| {
      var n := SpanUntil(s[a..], sep);
      TokensUnfold(s, sep, a, n);
      AllCharsSlice(s, a, a + n, q);
      AllCharsSlice(s, a + n, |s|, q);
      TokensKeep(s[a + n..], sep, q);
      var rest := Tokens(s[a + n..], sep);
      forall k | 0 <= k < |Tokens(s, sep)|
        ensures AllChars(Tokens(s, sep)[k], q)
      {
        if k > 0 {
          assert Tokens(s, sep)[k] == rest[k - 1];
        }
      }
    }
  }

  /** Joining keeps a character property the pieces and the separator
      share. */
  lemma {:induction false} JoinKeeps(xs: seq<string>, sep: string, q: char -> bool)
    requires forall k :: 0 <= k < |xs| ==> AllChars(xs[k], q)
    requires AllChars(sep, q)
    ensures AllChars(Join(xs, sep), q)
    decreases |xs|
  {
    if |xs| > 1 {
      JoinKeeps(xs[1..], sep, q);
      var a, b := xs[0] + sep, Join(xs[1..], sep);
      forall i | 0 <= i < |a + b|
        ensures q((a + b)[i])
      {
        if i < |xs[0]| {
          assert (a + b)[i] == xs[0][i];
        } else if i < |a| {
          assert (a + b)[i] == sep[i - |xs[0]|];
        } else {
          assert (a + b)[i] == b[i - |a|];
        }
      }
    } else if |xs| == 1 {
      assert Join(xs, sep) == xs[0];
    }
  }

  /** The words of a stripped text are the words of the text. */
  lemma WordsOfStrip(s: string)
    ensures Words(Strip(s)) == Words(s)
  {
    var t := TrimStart(s, IsSpace);
    var k := |t| - BackSpan(t, IsSpace);
    assert Strip(s) == t[..k];
    TokensDropTrailing(t, k, IsSpace);
    TokensTrimStart(s, IsSpace);
  }

  /** `s.split()`: the whitespace-separated words. */
  function Words(s: string): seq<string> {
    Tokens(s, IsSpace)
  }

  predicate HasNoSpace(s: string) {
    forall i :: 0 <= i < |s| ==> !IsSpace(s[i])
  }

  /** A word as `str.split()` produces it. */
  predicate IsWord(w: string) {
    w != "" && HasNoSpace(w)
  }

  lemma {:induction false} SpanAppend(x: string, y: string, p: char -> bool)
    ensures Span(x + y, p) == if Span(x, p) < |x| then Span(x, p) else |x| + Span(y, p)
    decreases |x|
  {
    if |x| > 0 {
      assert (x + y)[1..] == x[1..] + y;
      if p(x[0]) {
        SpanAppend(x[1..], y, p);
      }
    } else {
      assert x + y == y;
    }
  }

  lemma {:induction false} SpanUntilAppend(x: string, y: string, p: char -> bool)
    ensures SpanUntil(x + y, p) == if SpanUntil(x, p) < |x| then SpanUntil(x, p) else |x| + SpanUntil(y, p)
    decreases |x|
  {
    if |x| > 0 {
      assert (x + y)[1..] == x[1..] + y;
      if !p(x[0]) {
        SpanUntilAppend(x[1..], y, p);
      }
    } else {
      assert x + y == y;
    }
  }

  /** A string has no tokens exactly when it is all separators. */
  lemma TokensEmpty(s: string, sep: char -> bool)
    ensures Tokens(s, sep) == [] <==> Span(s, sep) == |s|
  {
  }

  /** `" ".join(ws).split() == ws` for words. */
  lemma {:induction false} WordsOfJoin(ws: seq<string>)
    requires forall k :: 0 <= k < |ws| ==> IsWord(ws[k])
    ensures Words(Join(ws, " ")) == ws
  {
    if |ws| == 1 {
      var w := ws[0];
      SpanAll(w, NotSpace);
      SpanNone(w, IsSpace);
      assert SpanUntil(w, IsSpace) == |w| by {
        SpanUntilAll(w, IsSpace);
      }
      TokensUnfold(w, IsSpace, 0, |w|);
      assert w[0..0 + |w|] == w;
      assert w[0 + |w|..] == "";
      TokensEmpty("", IsSpace);
    } else if |ws| > 1 {
      var w := ws[0];
      var j := Join(ws[1..], " ");
      WordsOfJoin(ws[1..]);
      WordsJoinStep(w, j);
      assert ws == [w] + ws[1..];
    }
  }

  lemma {:induction false} SpanUntilAll(s: string, p: char -> bool)
    requires forall i :: 0 <= i < |s| ==> !p(s[i])
    ensures SpanUntil(s, p) == |s|
    decreases |s|
  {
    if |s| > 0 {
      SpanUntilAll(s[1..], p);
    }
  }

  lemma WordsJoinStep(w: string, j: string)
    requires IsWord(w)
    requires j != "" && !IsSpace(j[0])
    ensures Words(w + " " + j) == [w] + Words(j)
  {
    var s := w + " " + j;
    assert s == w + (" " + j);
    SpanNone(s, IsSpace);
    SpanUntilAll(w, IsSpace);
    SpanUntilAppend(w, " " + j, IsSpace);
    TokensUnfold(s, IsSpace, 0, |w|);
    assert s[..|w|] == w;
    assert s[|w|..] == " " + j;
    WordsDropSpace(j);
  }

  lemma WordsDropSpace(j: string)
    requires j != "" && !IsSpace(j[0])
    ensures Words(" " + j) == Words(j)
  {
    var s := " " + j;
    assert s[1..] == j;
    SpanNone(j, IsSpace);
    assert Span(s, IsSpace) == 1;
    TokensTrimStart(s, IsSpace);
  }

  /** `s.split(sep)` for a non-empty separator: leftmost, non-overlapping. */
  function SplitOn(s: string, sep: string): (parts: seq<string>)
    requires |sep| > 0
    ensures |parts| >= 1
    decreases |s|
  {
    if |s| < |sep| then [s]
    else if s[..|sep|] == sep then [""] + SplitOn(s[|sep|..], sep)
    else
      var rest := SplitOn(s[1..], sep);
      [[s[0]] + rest[0]] + rest[1..]
  }

  /** No piece of a split on one character contains that character. */
  lemma {:induction false} SplitOnCharParts(s: string, c: char)
    ensures forall k :: 0 <= k < |SplitOn(s, [c])| ==> c !in SplitOn(s, [c])[k]
    decreases |s|
  {
    if |s| >= 1 {
      SplitOnCharParts(s[1..], c);
    }
  }

  lemma {:induction false} SplitOnNoSep(x: string, c: char)
    requires c !in x
    ensures SplitOn(x, [c]) == [x]
    decreases |x|
  {
    if |x| >= 1 {
      assert x[..1] != [c] by {
        assert x[..1][0] == x[0];
      }
      SplitOnNoSep(x[1..], c);
      assert [x[0]] + x[1..] == x;
    }
  }

  lemma {:induction false} SplitOnCons(x: string, c: char, rest: string)
    requires c !in x
    ensures SplitOn(x + [c] + rest, [c]) == [x] + SplitOn(rest, [c])
    decreases |x|
  {
    var s := x + [c] + rest;
    if |x| == 0 {
      assert s[..1] == [c];
      assert s[1..] == rest;
    } else {
      assert s[..1] != [c] by {
        assert s[..1][0] == x[0];
      }
      assert s[1..] == x[1..] + [c] + rest;
      SplitOnCons(x[1..], c, rest);
      assert [x[0]] + x[1..] == x;
    }
  }

  /** `c.join(xs).split(c) == xs` when no piece contains `c`. */
  lemma {:induction false} SplitOnJoin(xs: seq<string>, c: char)
    requires |xs| >= 1
    requires forall k :: 0 <= k < |xs| ==> c !in xs[k]
    ensures SplitOn(Join(xs, [c]), [c]) == xs
  {
    if |xs| == 1 {
      SplitOnNoSep(xs[0], c);
    } else {
      SplitOnJoin(xs[1..], c);
      SplitOnCons(xs[0], c, Join(xs[1..], [c]));
      assert xs == [xs[0]] + xs[1..];
    }
  }

  /** `s.splitlines()`: `"\r\n"` counts as one boundary and a trailing
      boundary does not open an empty last line. */
  function SplitLines(s: string): (ls: seq<string>)
    ensures forall k, i :: 0 <= k < |ls| && 0 <= i < |ls[k]| ==> !IsLineBreak(ls[k][i])
    decreases |s|
  {
    if |s| == 0 then []
    else
      var k := Span(s, NotLineBreak);
      if k == |s| then [s]
      else
        var next := if s[k] == '\r' && k + 1 < |s| && s[k + 1] == '\n' then k + 2 else k + 1;
        [s[..k]] + SplitLines(s[next..])
  }

  /** One line with no line break in it, then a newline: the line is the
      first piece and splitting goes on after the newline. */
  lemma SplitLinesCons(x: string, rest: string)
    requires AllChars(x, NotLineBreak)
    ensures SplitLines(x + "\n" + rest) == [x] + SplitLines(rest)
  {
    var s := x + "\n" + rest;
    SpanAll(x, NotLineBreak);
    SpanNone("\n" + rest, NotLineBreak);
    SpanAppend(x, "\n" + rest, NotLineBreak);
    assert s == x + ("\n" + rest);
    assert s[|x|] == '\n';
    assert s[..|x|] == x;
    assert s[|x| + 1..] == rest;
  }

  /** `"\n".join(xs).splitlines() == xs` when no piece holds a line break
      and the last one is not empty. */
  lemma {:induction false} SplitLinesJoin(xs: seq<string>)
    requires |xs| >= 1 && xs[|xs| - 1] != ""
    requires forall k :: 0 <= k < |xs| ==> AllChars(xs[k], NotLineBreak)
    ensures SplitLines(Join(xs, "\n")) == xs
  {
    if |xs| == 1 {
      SpanAll(xs[0], NotLineBreak);
    } else {
      SplitLinesJoin(xs[1..]);
      SplitLinesCons(xs[0], Join(xs[1..], "\n"));
      assert xs == [xs[0]] + xs[1..];
    }
  }

  /** A string with no two newlines in a row. */
  predicate NoBlankLine(s: string) {
    forall i :: 0 <= i < |s| - 1 ==> s[i] != '\n' || s[i + 1] != '\n'
  }

  /** A join of non-empty pieces starts with the first piece's first
      character and ends with the last piece's last character. */
  lemma {:induction false} JoinEnds(xs: seq<string>, sep: string)
    requires |xs| >= 1 && forall k :: 0 <= k < |xs| ==> xs[k] != ""
    ensures var j := Join(xs, sep); |j| > 0 && j[0] == xs[0][0] && j[|j| - 1] == xs[|xs| - 1][|xs[|xs| - 1]| - 1]
  {
    if |xs| > 1 {
      if |xs| > 2 {
        JoinEnds(xs[1..], sep);
      }
      var r := Join(xs[1..], sep);
      assert |r| > 0 && r[|r| - 1] == xs[|xs| - 1][|xs[|xs| - 1]| - 1];
      assert Join(xs, sep) == xs[0] + sep + r;
    }
  }

  /** Non-empty pieces without a newline, joined by newlines, never give
      two newlines in a row. */
  lemma {:induction false} JoinNoBlankLine(xs: seq<string>)
    requires |xs| >= 1
    requires forall k :: 0 <= k < |xs| ==> xs[k] != "" && '\n' !in xs[k]
    ensures NoBlankLine(Join(xs, "\n"))
  {
    if |xs| > 1 {
      var x := xs[0];
      var r := Join(xs[1..], "\n");
      JoinNoBlankLine(xs[1..]);
      JoinEnds(xs[1..], "\n");
      var s := x + "\n" + r;
      assert Join(xs, "\n") == s;
      forall i | 0 <= i < |s| - 1
        ensures s[i] != '\n' || s[i + 1] != '\n'
      {
        if i < |x| {
          assert s[i] == x[i];
        } else if i == |x| {
          assert s[i + 1] == r[0];
        } else {
          assert s[i] == r[i - |x| - 1] && s[i + 1] == r[i - |x|];
        }
      }
    }
  }

  /** Splitting on `"\n\n"` a string with no two newlines in a row leaves
      it whole. */
  lemma {:induction false} SplitOnNoBlankLine(s: string)
    requires NoBlankLine(s)
    ensures SplitOn(s, "\n\n") == [s]
    decreases |s|
  {
    if |s| >= 2 {
      assert s[..2] != "\n\n" by {
        assert s[..2][0] == s[0] && s[..2][1] == s[1];
      }
      assert NoBlankLine(s[1..]) by {
        assert forall i :: 0 <= i < |s| - 1 ==> s[1..][i] == s[i + 1];
      }
      SplitOnNoBlankLine(s[1..]);
      assert [s[0]] + s[1..] == s;
    }
  }

  /** `re.sub(r"[...]+", rep, s)`: every maximal run of characters
      satisfying `p` becomes one copy of `rep`. */
  function ReplaceRuns(s: string, p: char -> bool, rep: string): string
    decreases |s|
  {
    if |s| == 0 then ""
    else if p(s[0]) then rep + ReplaceRuns(s[Span(s, p)..], p, rep)
    else [s[0]] + ReplaceRuns(s[1..], p, rep)
  }

  /** A string in which no character satisfies `p` has no runs to replace. */
  lemma {:induction false} ReplaceRunsNoop(s: string, p: char -> bool, rep: string)
    requires forall i :: 0 <= i < |s| ==> !p(s[i])
    ensures ReplaceRuns(s, p, rep) == s
    decreases |s|
  {
    if |s| > 0 {
      ReplaceRunsNoop(s[1..], p, rep);
    }
  }

  /** Every character of the result either fails `p` and comes from `s`,
      or is a character of the replacement. */
  lemma {:induction false} ReplaceRunsChars(s: string, p: char -> bool, rep: string, c: char)
    requires c in ReplaceRuns(s, p, rep)
    ensures (c in s && !p(c)) || c in rep
    decreases |s|
  {
    if |s| > 0 {
      if p(s[0]) {
        var n := Span(s, p);
        if c !in rep {
          ReplaceRunsChars(s[n..], p, rep, c);
        }
      } else if c != s[0] {
        ReplaceRunsChars(s[1..], p, rep, c);
      }
    }
  }

  /** Every character left by replacing the runs of `p` with `rep` has
      property `q` when each character outside the runs and each
      character of `rep` has it. */
  lemma ReplaceRunsKeeps(s: string, p: char -> bool, rep: string, q: char -> bool)
    requires forall i :: 0 <= i < |s| ==> p(s[i]) || q(s[i])
    requires forall i :: 0 <= i < |rep| ==> q(rep[i])
    ensures forall i :: 0 <= i < |ReplaceRuns(s, p, rep)| ==> q(ReplaceRuns(s, p, rep)[i])
  {
    var r := ReplaceRuns(s, p, rep);
    forall i | 0 <= i < |r|
      ensures q(r[i])
    {
      ReplaceRunsChars(s, p, rep, r[i]);
    }
  }

  /** The same when every character of `s` has property `q`. */
  lemma ReplaceRunsKeepsAll(s: string, p: char -> bool, rep: string, q: char -> bool)
    requires forall i :: 0 <= i < |s| ==> q(s[i])
    requires forall i :: 0 <= i < |rep| ==> q(rep[i])
    ensures forall i :: 0 <= i < |ReplaceRuns(s, p, rep)| ==> q(ReplaceRuns(s, p, rep)[i])
  {
    ReplaceRunsKeeps(s, p, rep, q);
  }

  /** Replacing runs commutes with a prefix free of run characters. */
  lemma {:induction false} ReplaceRunsPrefix(x: string, y: string, p: char -> bool, rep: string)
    requires forall i :: 0 <= i < |x| ==> !p(x[i])
    ensures ReplaceRuns(x + y, p, rep) == x + ReplaceRuns(y, p, rep)
    decreases |x|
  {
    if |x| > 0 {
      assert (x + y)[1..] == x[1..] + y;
      ReplaceRunsPrefix(x[1..], y, p, rep);
    } else {
      assert x + y == y;
    }
  }

  /** `re.sub(r"\s+", " ", s).strip()`: the words of `s`, single-spaced. */
  function CollapseSpaces(s: string): (r: string)
    ensures r == Join(Words(s), " ")
  {
    CollapseSpacesJoinsWords(s);
    Strip(ReplaceRuns(s, IsSpace, " "))
  }

  lemma StripLeadingSpace(x: string)
    ensures Strip(" " + x) == Strip(x)
  {
    var s := " " + x;
    assert s[1..] == x;
    assert TrimStart(s, IsSpace) == TrimStart(x, IsSpace);
  }

  lemma {:induction false} BackSpanAppend(x: string, y: string, p: char -> bool)
    requires BackSpan(y, p) < |y|
    ensures BackSpan(x + y, p) == BackSpan(y, p)
    decreases |y|
  {
    if p(y[|y| - 1]) {
      assert (x + y)[..|x + y| - 1] == x + y[..|y| - 1];
      BackSpanAppend(x, y[..|y| - 1], p);
    }
  }

  /** Stripping only touches the ends: text before a non-blank tail survives. */
  lemma StripAppend(x: string, y: string)
    requires |x| > 0 && !IsSpace(x[0])
    requires |y| > 0 && !IsSpace(y[0])
    ensures Strip(x + y) == x + Strip(y)
  {
    SpanNone(x + y, IsSpace);
    SpanNone(y, IsSpace);
    var b := BackSpan(y, IsSpace);
    assert b < |y|;
    BackSpanAppend(x, y, IsSpace);
    assert (x + y)[..|x + y| - b] == x + y[..|y| - b];
  }

  lemma CollapseAllSpace(s: string)
    requires Span(s, IsSpace) == |s|
    ensures Strip(ReplaceRuns(s, IsSpace, " ")) == Join(Words(s), " ")
  {
    TokensEmpty(s, IsSpace);
    if |s| > 0 {
      assert ReplaceRuns(s, IsSpace, " ") == " " + ReplaceRuns(s[|s|..], IsSpace, " ");
      assert ReplaceRuns(s[|s|..], IsSpace, " ") == "";
      StripLeadingSpace("");
    }
  }

  /** A word followed only by whitespace collapses to the word. */
  lemma CollapseLastWord(w: string, u: string)
    requires IsWord(w)
    requires Span(u, IsSpace) == |u|
    ensures Strip(w + ReplaceRuns(u, IsSpace, " ")) == w
  {
    if |u| == 0 {
      assert w + ReplaceRuns(u, IsSpace, " ") == w;
      StripNoop(w);
    } else {
      assert ReplaceRuns(u, IsSpace, " ") == " " + ReplaceRuns(u[|u|..], IsSpace, " ");
      assert u[|u|..] == "";
      StripWordSpace(w);
    }
  }

  lemma StripWordSpace(w: string)
    requires IsWord(w)
    ensures Strip(w + " ") == w
  {
    SpanNone(w + " ", IsSpace);
    BackSpanAppendAll(w, " ", IsSpace);
    BackSpanNone(w, IsSpace);
    assert (w + " ")[..|w|] == w;
  }

  /** A word followed by more words collapses to the word, a space, and the rest collapsed. */
  lemma CollapseNextWord(w: string, u: string, m: nat)
    requires IsWord(w)
    requires m == Span(u, IsSpace) && 0 < m < |u|
    ensures Strip(w + ReplaceRuns(u, IsSpace, " ")) == w + " " + Strip(ReplaceRuns(u[m..], IsSpace, " "))
  {
    var r' := ReplaceRuns(u[m..], IsSpace, " ");
    var x := ReplaceRuns(u, IsSpace, " ");
    var wx := w + " ";
    assert x == " " + r' by { RunsOfLeadingSpace(u, m); }
    assert w + x == wx + r';
    assert Strip(wx + r') == wx + Strip(r') by {
      RunsOfLeadingWord(u[m..]);
      assert wx[0] == w[0];
      StripAppend(wx, r');
    }
  }

  lemma RunsOfLeadingSpace(u: string, m: nat)
    requires m == Span(u, IsSpace) && 0 < m
    ensures ReplaceRuns(u, IsSpace, " ") == " " + ReplaceRuns(u[m..], IsSpace, " ")
  {
  }

  lemma RunsOfLeadingWord(t: string)
    requires |t| > 0 && !IsSpace(t[0])
    ensures |ReplaceRuns(t, IsSpace, " ")| > 0 && !IsSpace(ReplaceRuns(t, IsSpace, " ")[0])
  {
  }

  /** The inductive step: a word `w` followed by the rest `u`. */
  lemma CollapseStep(w: string, u: string)
    requires IsWord(w)
    requires u == [] || IsSpace(u[0])
    requires Strip(ReplaceRuns(u, IsSpace, " ")) == Join(Words(u), " ")
    ensures Strip(w + ReplaceRuns(u, IsSpace, " ")) == Join([w] + Words(u), " ")
  {
    var m := Span(u, IsSpace);
    var ws := Words(u);
    if m == |u| {
      assert [w] + ws == [w] by { TokensEmpty(u, IsSpace); }
      CollapseLastWord(w, u);
    } else {
      var r' := ReplaceRuns(u[m..], IsSpace, " ");
      assert Strip(r') == Join(ws, " ") by {
        RunsOfLeadingSpace(u, m);
        StripLeadingSpace(r');
      }
      assert |ws| > 0 by { TokensEmpty(u, IsSpace); }
      JoinCons(w, ws, " ");
      CollapseNextWord(w, u, m);
    }
  }

  /** Leading whitespace collapses away. */
  lemma CollapseLeading(s: string, a: nat)
    requires a == Span(s, IsSpace)
    ensures Strip(ReplaceRuns(s, IsSpace, " ")) == Strip(ReplaceRuns(s[a..], IsSpace, " "))
  {
    if a > 0 {
      assert ReplaceRuns(s, IsSpace, " ") == " " + ReplaceRuns(s[a..], IsSpace, " ");
      StripLeadingSpace(ReplaceRuns(s[a..], IsSpace, " "));
    }
  }

  /** `re.sub(r"\s+", " ", s).strip() == " ".join(s.split())` */
  lemma {:induction false} CollapseSpacesJoinsWords(s: string)
    ensures Strip(ReplaceRuns(s, IsSpace, " ")) == Join(Words(s), " ")
    decreases |s|
  {
    var a := Span(s, IsSpace);
    if a == |s| {
      CollapseAllSpace(s);
    } else {
      var n := SpanUntil(s[a..], IsSpace);
      var w := s[a..a + n];
      var u := s[a + n..];
      CollapseLeading(s, a);
      TokensUnfold(s, IsSpace, a, n);
      CollapseSplit(s, a, n);
      CollapseSpacesJoinsWords(u);
      CollapseStep(w, u);
    }
  }

  lemma CollapseSplit(s: string, a: nat, n: nat)
    requires a == Span(s, IsSpace) < |s| && n == SpanUntil(s[a..], IsSpace)
    ensures IsWord(s[a..a + n])
    ensures s[a + n..] == [] || IsSpace(s[a + n])
    ensures ReplaceRuns(s[a..], IsSpace, " ") == s[a..a + n] + ReplaceRuns(s[a + n..], IsSpace, " ")
  {
    WordPrefix(s[a..], n);
    PrefixSlices(s[a..], |s| - a, 0, n);
    SuffixSlices(s, a, n);
    ReplaceRunsSplit(s[a..], n, IsSpace, " ");
  }

  lemma SuffixSlices(s: string, a: nat, n: nat)
    requires a + n <= |s|
    ensures s[a..][..n] == s[a..a + n]
    ensures s[a..][n..] == s[a + n..]
  {
  }

  lemma ReplaceRunsSplit(t: string, n: nat, p: char -> bool, rep: string)
    requires n <= |t|
    requires forall i :: 0 <= i < n ==> !p(t[i])
    ensures ReplaceRuns(t, p, rep) == t[..n] + ReplaceRuns(t[n..], p, rep)
  {
    ReplaceRunsPrefix(t[..n], t[n..], p, rep);
    assert t == t[..n] + t[n..];
  }

  lemma WordPrefix(t: string, n: nat)
    requires |t| > 0 && !IsSpace(t[0]) && n == SpanUntil(t, IsSpace)
    ensures IsWord(t[..n])
    ensures t[n..] == [] || IsSpace(t[n..][0])
  {
  }

  /** One space between words, none at the ends, and no other whitespace:
      what `CollapseSpaces` produces. */
  predicate SingleSpaced(s: string) {
    Stripped(s) &&
    (forall i :: 0 <= i < |s| && IsSpace(s[i]) ==> s[i] == ' ') &&
    (forall i :: 0 <= i < |s| - 1 ==> !(IsSpace(s[i]) && IsSpace(s[i + 1])))
  }

  /** Runs of length one that already equal the replacement stay as they are. */
  lemma {:induction false} ReplaceRunsIsolated(s: string, p: char -> bool, c: char)
    requires forall i :: 0 <= i < |s| && p(s[i]) ==> s[i] == c
    requires forall i :: 0 <= i < |s| - 1 ==> !(p(s[i]) && p(s[i + 1]))
    ensures ReplaceRuns(s, p, [c]) == s
    decreases |s|
  {
    if |s| > 0 {
      if p(s[0]) {
        assert Span(s, p) == 1 by {
          if |s| > 1 {
            assert !p(s[1]);
          }
        }
        assert s == [c] + s[1..];
      }
      ReplaceRunsIsolated(s[1..], p, c);
    }
  }

  /** Replacing runs by one run character leaves no two run characters adjacent. */
  lemma {:induction false} ReplaceRunsNoAdjacent(s: string, p: char -> bool, c: char)
    requires p(c)
    ensures var r := ReplaceRuns(s, p, [c]);
      forall i :: 0 <= i < |r| - 1 ==> !(p(r[i]) && p(r[i + 1]))
    ensures var r := ReplaceRuns(s, p, [c]);
      |s| > 0 ==> |r| > 0 && (p(s[0]) <==> p(r[0]))
    decreases |s|
  {
    if |s| > 0 {
      if p(s[0]) {
        var n := Span(s, p);
        ReplaceRunsNoAdjacent(s[n..], p, c);
      } else {
        ReplaceRunsNoAdjacent(s[1..], p, c);
      }
    }
  }

  /** Collapsing a single-spaced string changes nothing. */
  lemma CollapseSpacesNoop(s: string)
    requires SingleSpaced(s)
    ensures CollapseSpaces(s) == s
  {
    ReplaceRunsIsolated(s, IsSpace, ' ');
    StripNoop(s);
  }

  /** Every character satisfying `p` becomes `c`; the rest are kept. */
  function ReplaceWhere(s: string, p: char -> bool, c: char): (r: string)
    ensures |r| == |s|
    ensures forall i :: 0 <= i < |s| ==> r[i] == (if p(s[i]) then c else s[i])
  {
    seq(|s|, i requires 0 <= i < |s| => if p(s[i]) then c else s[i])
  }

  /** `s.rfind(c)`: the last index holding `c`, or -1. */
  function RFind(s: string, c: char): (i: int)
    ensures -1 <= i < |s|
    ensures i >= 0 ==> s[i] == c
    ensures forall j :: i < j < |s| ==> s[j] != c
  {
    if |s| == 0 then -1
    else if s[|s| - 1] == c then |s| - 1
    else RFind(s[..|s| - 1], c)
  }

  /** Drop the characters satisfying `p`. */
  function Remove(s: string, p: char -> bool): (r: string)
    ensures forall i :: 0 <= i < |r| ==> !p(r[i])
    ensures forall c :: c in r ==> c in s
  {
    if |s| == 0 then ""
    else if p(s[0]) then Remove(s[1..], p)
    else [s[0]] + Remove(s[1..], p)
  }

  // ---------------------------------------------------------------------
  // Number formatting
  // ---------------------------------------------------------------------

  function DigitChar(d: nat): char
    requires d < 10
  {
    ('0' as int + d) as char
  }

  /** `str(n)` for a non-negative integer. */
  function NatToString(n: nat): (r: string)
    ensures |r| >= 1
    ensures forall i :: 0 <= i < |r| ==> IsDigit(r[i])
  {
    if n < 10 then [DigitChar(n)] else NatToString(n / 10) + [DigitChar(n % 10)]
  }

  /** The value of a string of decimal digits. */
  function DigitsValue(s: string): nat
    requires forall i :: 0 <= i < |s| ==> IsDigit(s[i])
  {
    if |s| == 0 then 0 else 10 * DigitsValue(s[..|s| - 1]) + DigitValue(s[|s| - 1])
  }

  function DigitValue(c: char): nat
    requires IsDigit(c)
  {
    c as int - '0' as int
  }

  function Power10(k: nat): nat {
    if k == 0 then 1 else 10 * Power10(k - 1)
  }

  /** Decimal rendering is invertible. */
  lemma {:induction false} NatToStringValue(n: nat)
    ensures DigitsValue(NatToString(n)) == n
  {
    if n >= 10 {
      NatToStringValue(n / 10);
      var s := NatToString(n);
      assert s[..|s| - 1] == NatToString(n / 10);
    }
  }

  /** A number below 10^k needs at most k digits. */
  lemma {:induction false} NatToStringLength(n: nat, k: nat)
    requires 1 <= k && n < Power10(k)
    ensures |NatToString(n)| <= k
  {
    if n >= 10 {
      NatToStringLength(n / 10, k - 1);
    }
  }

  /** `'0' * k` */
  function Zeros(k: nat): (r: string)
    ensures |r| == k
    ensures forall i :: 0 <= i < k ==> r[i] == '0'
  {
    if k == 0 then "" else "0" + Zeros(k - 1)
  }

  /** Leading zeros do not change a decimal value. */
  lemma {:induction false} DigitsValueZeros(k: nat, s: string)
    requires forall i :: 0 <= i < |s| ==> IsDigit(s[i])
    ensures DigitsValue(Zeros(k) + s) == DigitsValue(s)
    decreases |s|
  {
    var z := Zeros(k);
    if |s| == 0 {
      assert z + s == z;
      DigitsValueAllZeros(z);
    } else {
      var t := z + s;
      assert t[..|t| - 1] == z + s[..|s| - 1];
      DigitsValueZeros(k, s[..|s| - 1]);
    }
  }

  lemma {:induction false} DigitsValueAllZeros(z: string)
    requires forall i :: 0 <= i < |z| ==> z[i] == '0'
    ensures DigitsValue(z) == 0
  {
    if |z| > 0 {
      DigitsValueAllZeros(z[..|z| - 1]);
    }
  }

  /** `f"{n:0{width}d}"` */
  function ZeroPadded(n: nat, width: nat): (r: string)
    ensures forall i :: 0 <= i < |r| ==> IsDigit(r[i])
    ensures |NatToString(n)| <= width ==> |r| == width
  {
    var d := NatToString(n);
    if |d| < width then Zeros(width - |d|) + d else d
  }

  /** A zero-padded rendering still reads back as the number. */
  lemma ZeroPaddedValue(n: nat, width: nat)
    ensures DigitsValue(ZeroPadded(n, width)) == n
  {
    var d := NatToString(n);
    var p := ZeroPadded(n, width);
    assert DigitsValue(p) == DigitsValue(d) by {
      if |d| < width {
        assert p == Zeros(width - |d|) + d;
        DigitsValueZeros(width - |d|, d);
      } else {
        assert p == d;
      }
    }
    NatToStringValue(n);
  }

  /** `f"{r:.2f}"`, rounding the exact value half away from zero. */
  function Fixed2(r: real): string {
    var hundredths := if r >= 0.0 then (r * 100.0 + 0.5).Floor else -((-r * 100.0 + 0.5).Floor);
    var mag: nat := if hundredths >= 0 then hundredths else -hundredths;
    (if hundredths < 0 then "-" else "") + NatToString(mag / 100) + "." + ZeroPadded(mag % 100, 2)
  }

  /** `f"{r:.0f}"` for the page dimensions, which are whole numbers. */
  function Fixed0(r: real): string {
    var n := (r + 0.5).Floor;
    if n >= 0 then NatToString(n) else "-" + NatToString(-n)
  }
}
